=== FILE: README.md ===
# Workflow task graphs of the ProActive scheduler, in Dafny

This project models the part of the ProActive scheduler server that keeps the
task graph of a workflow job consistent when a control-flow action runs. It
also models three small value classes of the scheduler and resource-manager
clients:

- **The task-name codec** (`TaskName`). A replica of a task is named after its
  template, plus `#<iteration>` and `*<replication>`. The model covers
  `getTaskNameSuffix`, `getInitialName` (with the exact behaviour of the Java
  regular expressions it uses, line terminators included),
  `getIterationIndexFromName` and `getReplicationIndexFromName`.
- **One task** (`InternalTask`). The task record holds:
  - its hard-dependency list (`addDependence`, `removeDependence`,
    `hasDependences`, `getIDependences`);
  - its execution info (`update`, `setMaxNumberOfExecution`,
    `setFinishedTime`);
  - its name (`setName` and the index setters, which re-render the names of
    the matching block and the LOOP/IF targets);
  - its one-task replication (`replicate`).
- **The task graph** (`TaskGraph`). Tasks sit in a table keyed by id. Links are
  ids, not references. A rank map witnesses that the upstream links have no
  cycle. `dependsOn` is modelled literally: it combines the upstream links with
  AND.
- **Tree replication** (`Selection`, `Replication`, `Reconstruction`,
  `TreeReplication`). `replicateTree` is what a LOOP or REPLICATE action runs.
  It has three steps:
  - the clone pass (`internalReplicateTree`), with its filter that follows one
    hard parent per ambiguous name;
  - the thinning to one clone per ambiguous name;
  - the edge reconstruction (`internalReconstructTree`), with its IF / join /
    hard classification and its dependency-collapsing walk.
- **Resource-manager snapshot** (`RMSnapshot`, `NodeStates`). This covers the
  event setters and the windowed `cloneAndFilter` of `RMInitialState`, and the
  description/parse round trip of the `NodeState` enum.
- **Task log paths** (`TaskLogPath`). This is the file name and relative path
  that `TaskLoggerRelativePathGenerator` builds.

Java behaviour is written out where it matters:
- `int` and `long` arithmetic wraps around (`JavaLang.AddInt32`, `AddInt64`).
- `Integer.parseInt` and `String.split` follow their Java rules.
- Lengths are counted in UTF-16 code units.
- A call that throws after a partial update returns
  `Outcome.Threw(stateSoFar, exception)`.
- Iteration over a `HashMap` has no specified order. The clone pass and the
  reconstruction follow the list order of the links. The thinning picks
  entries nondeterministically, so its contract holds for every order.

File layout: `wrappers.dfy`, `java_lang.dfy`, `task_name.dfy`,
`internal_task.dfy`, `task_graph.dfy`, `selection.dfy`, `replication.dfy`,
`reconstruction.dfy`, `tree_replication.dfy`, `node_state.dfy`,
`rm_initial_state.dfy`, `task_log_path.dfy`.

## Model

| member | source | states |
|---|---|---|
| TaskName.Suffix | scheduler/scheduler-server/src/main/java/org/ow2/proactive/scheduler/task/internal/InternalTask.java:817-826 | The suffix is empty exactly when both indices are 0. It holds `#` exactly when the iteration is positive and `*` exactly when the replication is positive, with the `#` part first. It is a single line. |
| TaskName.InitialName | scheduler/scheduler-server/src/main/java/org/ow2/proactive/scheduler/task/internal/InternalTask.java:841-877 | `getInitialName` returns a single-line prefix of the name. Its only failure is RuntimeException. |
| TaskName.InitialNameOfSingleLine | scheduler/scheduler-server/src/main/java/org/ow2/proactive/scheduler/task/internal/InternalTask.java:841-877 | On a single-line name the patterns always match. The cut falls at the last `#`, else at the last `*`, else the whole name is kept. |
| TaskName.SingleLineNameParses | scheduler/scheduler-server/src/main/java/org/ow2/proactive/scheduler/task/internal/InternalTask.java:864-877 | A name made of a single-line base and a single-line suffix can always be read back. |
| TaskName.InitialNameCutsAt | scheduler/scheduler-server/src/main/java/org/ow2/proactive/scheduler/task/internal/InternalTask.java:841-877 | When position k holds the last `#` (or the last `*` and there is no `#`), the initial name is exactly the prefix before k. |
| TaskName.InitialNameRejectsInnerNewline | scheduler/scheduler-server/src/main/java/org/ow2/proactive/scheduler/task/internal/InternalTask.java:841-877 | For every name with a line terminator followed by at least two more characters, every pattern fails and the result is RuntimeException. |
| TaskName.InitialNameIgnoresFinalNewline | scheduler/scheduler-server/src/main/java/org/ow2/proactive/scheduler/task/internal/InternalTask.java:841-877 | One final terminator is tolerated: "a#1\n" reads as "a", while "a\nb" fails. |
| TaskName.InitialNameNotIdempotent | scheduler/scheduler-server/src/main/java/org/ow2/proactive/scheduler/task/internal/InternalTask.java:864-877 | Stripping twice differs from stripping once: "a#b#1" gives "a#b", which gives "a". |
| TaskName.RenameBase | scheduler/scheduler-server/src/main/java/org/ow2/proactive/scheduler/task/internal/InternalTask.java:762-768 | `setName` cuts the new name at its first `#`, or else at its first `*`: the result is a prefix, and the character after it is that separator. A name without separators is kept whole. |
| TaskName.StrippingRulesDiffer | scheduler/scheduler-server/src/main/java/org/ow2/proactive/scheduler/task/internal/InternalTask.java:762-877 | `setName` cuts at the first `#` and `getInitialName` at the last. On "a#b#1" they give "a" and "a#b". |
| TaskName.IterationIndexFromName | scheduler/scheduler-server/src/main/java/org/ow2/proactive/scheduler/task/internal/InternalTask.java:900-907 | A name without `#` has iteration 0. Otherwise the second `#`-piece, cut at `*`, is parsed. A missing piece is ArrayIndexOutOfBoundsException and a bad number is NumberFormatException; no other exception occurs. |
| TaskName.ReplicationIndexFromName | scheduler/scheduler-server/src/main/java/org/ow2/proactive/scheduler/task/internal/InternalTask.java:885-891 | A name without `*` has replication 0. Otherwise the second `*`-piece is parsed. A missing piece is ArrayIndexOutOfBoundsException and a bad number is NumberFormatException; no other exception occurs. |
| TaskName.SuffixRoundTrip | scheduler/scheduler-server/src/main/java/org/ow2/proactive/scheduler/task/internal/InternalTask.java:817-907 | Take a single-line base without separators and any indices within `int` range. Reading back base + suffix gives the base, the iteration and the replication. |
| TaskName.InitialNameRoundTrip | scheduler/scheduler-server/src/main/java/org/ow2/proactive/scheduler/task/internal/InternalTask.java:817-877 | `getInitialName` of base + suffix is the base, for every pair of indices. |
| TaskName.IterationIndexRoundTrip | scheduler/scheduler-server/src/main/java/org/ow2/proactive/scheduler/task/internal/InternalTask.java:900-907 | The iteration index parsed from base + suffix is the one rendered. |
| TaskName.ReplicationIndexRoundTrip | scheduler/scheduler-server/src/main/java/org/ow2/proactive/scheduler/task/internal/InternalTask.java:885-891 | The replication index parsed from base + suffix is the one rendered. |
| InternalTask.HasDependences | scheduler/scheduler-server/src/main/java/org/ow2/proactive/scheduler/task/internal/InternalTask.java:519-521 | Holds exactly when the dependency list is non-empty. A null list counts as empty. |
| InternalTask.IDependences | scheduler/scheduler-server/src/main/java/org/ow2/proactive/scheduler/task/internal/InternalTask.java:646-652 | `getIDependences` returns null exactly when the task has no dependency. Otherwise it returns the non-empty list. |
| InternalTask.GetIDependences | scheduler/scheduler-server/src/main/java/org/ow2/proactive/scheduler/task/internal/InternalTask.java:646-652 | The normalising side effect turns an empty list into null and changes nothing else. The dependences read back are the same. |
| InternalTask.AddDependence | scheduler/scheduler-server/src/main/java/org/ow2/proactive/scheduler/task/internal/InternalTask.java:499-504 | Creates the list when it is null and appends the task. Afterwards the task has dependences and no other field changes. |
| InternalTask.RemoveFirst | scheduler/scheduler-server/src/main/java/org/ow2/proactive/scheduler/task/internal/InternalTask.java:506-511 | `List.remove` drops the first occurrence and keeps the other elements in order. The multiset loses that one element. A missing element leaves the list unchanged. |
| InternalTask.RemoveDependence | scheduler/scheduler-server/src/main/java/org/ow2/proactive/scheduler/task/internal/InternalTask.java:506-511 | Reports whether the task was a dependency. If it was, the list loses its first occurrence and keeps its order. Otherwise the task, including a null list, is left as it was. |
| InternalTask.HasDependencesTracksCalls | scheduler/scheduler-server/src/main/java/org/ow2/proactive/scheduler/task/internal/InternalTask.java:499-521 | After any sequence of add/remove calls the list holds exactly the net multiset. `hasDependences` holds exactly when some added dependency was not removed again. |
| InternalTask.Update | scheduler/scheduler-server/src/main/java/org/ow2/proactive/scheduler/task/internal/InternalTask.java:535-542 | An info with another task id throws IllegalArgumentException and changes nothing. Otherwise the info is replaced and nothing else changes. |
| InternalTask.SetMaxNumberOfExecution | scheduler/scheduler-server/src/main/java/org/ow2/proactive/scheduler/task/internal/InternalTask.java:546-550 | Sets the maximum and the executions left to n, and refills the on-failure budget from its maximum. Nothing else changes. |
| InternalTask.SetFinishedTime | scheduler/scheduler-server/src/main/java/org/ow2/proactive/scheduler/task/internal/InternalTask.java:565-571 | Stores the time. A positive time sets progress to 100 and any other time leaves progress alone. |
| InternalTask.Resuffix | scheduler/scheduler-server/src/main/java/org/ow2/proactive/scheduler/task/internal/InternalTask.java:782-806 | A referenced name becomes its initial name plus the suffix. A null reference is NullPointerException, and an unreadable name is the getInitialName exception. |
| InternalTask.RenameMatchingBlock | scheduler/scheduler-server/src/main/java/org/ow2/proactive/scheduler/task/internal/InternalTask.java:782-787 | Returns exactly when the block is unset, empty or readable. A set, non-empty block is re-rendered, and an unset or empty block is untouched. An unreadable block is RuntimeException and leaves the task as it was. |
| InternalTask.RenameFlowTargets | scheduler/scheduler-server/src/main/java/org/ow2/proactive/scheduler/task/internal/InternalTask.java:788-806 | Returns exactly when every target it re-renders is readable. A LOOP re-renders its target. An IF re-renders its target, its else-target and, when set, its continuation. Other scripts are untouched. A null target is NullPointerException and an unreadable one RuntimeException. |
| InternalTask.SetName | scheduler/scheduler-server/src/main/java/org/ow2/proactive/scheduler/task/internal/InternalTask.java:758-807 | Cases: a null name changes nothing; a stripped name plus suffix longer than 255 code units throws IllegalArgumentException before any change; otherwise the name becomes stripped name + suffix. On return the matching block and the flow targets have been re-rendered. With a name that is not too long, the call returns exactly when the matching block and the targets are readable. The only exceptions are IllegalArgumentException, NullPointerException and RuntimeException. |
| InternalTask.SetNameAlignsSuffixes | scheduler/scheduler-server/src/main/java/org/ow2/proactive/scheduler/task/internal/InternalTask.java:758-807 | After a rename, the name reads back as the base and as the task's own indices. So do the matching block and the LOOP/IF target. |
| InternalTask.SetIterationIndex | scheduler/scheduler-server/src/main/java/org/ow2/proactive/scheduler/task/internal/InternalTask.java:916-925 | A negative index throws IllegalArgumentException with no change, and an unreadable name throws RuntimeException. Otherwise the index is stored and the replication and id are kept. |
| InternalTask.SetReplicationIndex | scheduler/scheduler-server/src/main/java/org/ow2/proactive/scheduler/task/internal/InternalTask.java:938-947 | The same as SetIterationIndex, for the replication index. |
| InternalTask.SetIndexRerendersName | scheduler/scheduler-server/src/main/java/org/ow2/proactive/scheduler/task/internal/InternalTask.java:916-947 | For a task named by a separator-free single-line base followed by its own suffix: setting either index keeps that base and re-renders the suffix, and the new name reads back the new index. A base holding a separator is not kept (see SetIterationCutsInnerSeparator). |
| InternalTask.SetIterationCutsInnerSeparator | scheduler/scheduler-server/src/main/java/org/ow2/proactive/scheduler/task/internal/InternalTask.java:917-924 | A task named "a#b#1" at iteration 1 becomes "a#2" when its iteration is set to 2. Its ambiguous name changes from "a#b" to "a". |
| InternalTask.Replicate | scheduler/scheduler-server/src/main/java/org/ow2/proactive/scheduler/task/internal/InternalTask.java:148-205 | A failed deep copy is ExecutableCreationException. Otherwise the clone has these properties: no links; the same id; both retry budgets refilled from their maxima; `replicatedFrom` set to the original; every other field copied. |
| TaskGraph.AmbiguousName | scheduler/scheduler-server/src/main/java/org/ow2/proactive/scheduler/task/internal/InternalTask.java:837-839 | `getAmbiguousName` is a single-line prefix of the name. A separator-free single-line name is its own ambiguous name. |
| TaskGraph.DependsAt | scheduler/scheduler-server/src/main/java/org/ow2/proactive/scheduler/task/internal/InternalTask.java:436-461 | A task depends on itself exactly when the depth is non-negative. A different task with no links does not depend. |
| TaskGraph.DependsOn | scheduler/scheduler-server/src/main/java/org/ow2/proactive/scheduler/task/internal/InternalTask.java:432-434 | `dependsOn` starts at depth 0: a task depends on itself, and a different task without any link depends on nothing. |
| TaskGraph.DependsAtIsSound | scheduler/scheduler-server/src/main/java/org/ow2/proactive/scheduler/task/internal/InternalTask.java:436-461 | When no joined-branches list is empty, a positive answer is a real upstream path, at every depth. |
| TaskGraph.DependsOnIsSound | scheduler/scheduler-server/src/main/java/org/ow2/proactive/scheduler/task/internal/InternalTask.java:432-434 | `dependsOn` implies reachability upstream. |
| TaskGraph.DependsOnIsNotReachability | scheduler/scheduler-server/src/main/java/org/ow2/proactive/scheduler/task/internal/InternalTask.java:453-458 | The converse fails: a task with two hard dependencies reaches its first one but does not depend on it, because the second one does not. |
| TaskGraph.JoinOnParentIsNoDependence | scheduler/scheduler-server/src/main/java/org/ow2/proactive/scheduler/task/internal/InternalTask.java:437-449 | Joined branches are examined one level down. So a join directly on p reaches p but does not depend on it. |
| Selection.SelectLowest | scheduler/scheduler-server/src/main/java/org/ow2/proactive/scheduler/task/internal/InternalTask.java:280-291 | The per-name filter keeps one element per key. It covers every key and keeps the lowest index of its key. |
| Selection.SelectLowestKeepsFirst | scheduler/scheduler-server/src/main/java/org/ow2/proactive/scheduler/task/internal/InternalTask.java:283-290 | A tie goes to the earliest element: the survivor of a key appears in the list no later than any other element of that key with the same index, because only a strictly lower index replaces a survivor. |
| Replication.SelectLowestReplicationSpec | scheduler/scheduler-server/src/main/java/org/ow2/proactive/scheduler/task/internal/InternalTask.java:280-291 | Of the hard parents, exactly one per ambiguous name is followed, and every name is covered. It has the lowest replication index of its name. When several parents of a name share that index, the first in list order is followed. |
| Replication.ReplicaOf | scheduler/scheduler-server/src/main/java/org/ow2/proactive/scheduler/task/internal/InternalTask.java:266-273 | A failed copy is ExecutableCreationException. Otherwise the stored clone is a reset replica, and without loop mode it is always made. In loop mode the iteration becomes the original's plus one. An iteration of 2147483647 wraps and is IllegalArgumentException, and so is an overlong name. Otherwise the clone is made exactly when the block and targets are readable, and it is named after the first-separator cut of the initial name plus the new suffix. |
| Replication.CloneParents | scheduler/scheduler-server/src/main/java/org/ow2/proactive/scheduler/task/internal/InternalTask.java:278-303 | The pass moves on to upstream tasks of lower rank only. It moves on to none from the target. |
| Replication.CloneWalk | scheduler/scheduler-server/src/main/java/org/ow2/proactive/scheduler/task/internal/InternalTask.java:278-303 | The walk the pass performs is well-founded, and from each task it lists exactly that task's followed parents. |
| Replication.ClonePass | scheduler/scheduler-server/src/main/java/org/ow2/proactive/scheduler/task/internal/InternalTask.java:263-306 | A task already in the accumulator is skipped, so each id is cloned at most once. The accumulator only grows; added entries are clones of tasks the walk meets, and every added entry has its followed parents cloned. |
| Replication.ClonePassAll | scheduler/scheduler-server/src/main/java/org/ow2/proactive/scheduler/task/internal/InternalTask.java:292-302 | The pass over a list of parents, in order, clones every listed task and keeps the same invariants. |
| Replication.ClonePassCoversReach | scheduler/scheduler-server/src/main/java/org/ow2/proactive/scheduler/task/internal/InternalTask.java:263-306 | From an empty accumulator, a successful pass holds exactly the tasks the walk meets, each as its clone. |
| Replication.ClonePassFailure | scheduler/scheduler-server/src/main/java/org/ow2/proactive/scheduler/task/internal/InternalTask.java:266-273 | A failing pass throws the exception of cloning some task the walk meets. |
| Replication.DedupByAmbiguousName | scheduler/scheduler-server/src/main/java/org/ow2/proactive/scheduler/task/internal/InternalTask.java:230-245 | Whatever the hash-map order, the kept clones satisfy three facts. They are a sub-map of the clones. No two share an ambiguous name. Every clone's name is kept with an iteration no higher. |
| Reconstruction.KindOf | scheduler/scheduler-server/src/main/java/org/ow2/proactive/scheduler/task/internal/InternalTask.java:329-337 | The link kind is exclusive: an IF branch first, then exactly two joined branches, then hard dependencies. |
| Reconstruction.UpstreamLinks | scheduler/scheduler-server/src/main/java/org/ow2/proactive/scheduler/task/internal/InternalTask.java:328-354 | The upstream tasks that get linked are stored tasks of lower rank. |
| Reconstruction.JoinLinks | scheduler/scheduler-server/src/main/java/org/ow2/proactive/scheduler/task/internal/InternalTask.java:333-336 | A two-way join links both branches, or only the second when their ambiguous names coincide. |
| Reconstruction.HardLinks | scheduler/scheduler-server/src/main/java/org/ow2/proactive/scheduler/task/internal/InternalTask.java:337-352 | The hard links are hard dependencies, one per ambiguous name, each of the lowest replication index. On a tie, the first such dependency in list order is linked. |
| Reconstruction.CollapseWalk | scheduler/scheduler-server/src/main/java/org/ow2/proactive/scheduler/task/internal/InternalTask.java:360-374 | Following first hard dependencies ends at a task that has a clone and no higher rank. A task without dependencies on the way throws NullPointerException. |
| Reconstruction.CollapseWalkReaches | scheduler/scheduler-server/src/main/java/org/ow2/proactive/scheduler/task/internal/InternalTask.java:362-372 | The task the walk stops at lies upstream of where it started. |
| Reconstruction.CollapseWalkFails | scheduler/scheduler-server/src/main/java/org/ow2/proactive/scheduler/task/internal/InternalTask.java:362-372 | The walk fails exactly when it strands on a task without hard dependencies before meeting a cloned one. |
| Reconstruction.LinkHard | scheduler/scheduler-server/src/main/java/org/ow2/proactive/scheduler/task/internal/InternalTask.java:380-392 | The clone gains the hard dependency exactly when none of the same name is already there. Afterwards one of that name is there, and the other links are untouched. |
| Reconstruction.LinkIf | scheduler/scheduler-server/src/main/java/org/ow2/proactive/scheduler/task/internal/InternalTask.java:393-395 | The IF branch is overwritten, and the other links are untouched. |
| Reconstruction.LinkJoin | scheduler/scheduler-server/src/main/java/org/ow2/proactive/scheduler/task/internal/InternalTask.java:396-409 | The joined list is created when null. It gains the branch exactly when no branch of the same name is there. |
| Reconstruction.LinkTask | scheduler/scheduler-server/src/main/java/org/ow2/proactive/scheduler/task/internal/InternalTask.java:376-412 | Linking only appends to the clone's lists, and only towards the given parent. |
| Reconstruction.LinkParent | scheduler/scheduler-server/src/main/java/org/ow2/proactive/scheduler/task/internal/InternalTask.java:359-412 | A parent without a clone is collapsed to a cloned ancestor and added as a hard dependency. The walk's NullPointerException is the only failure. The accumulator stays closed. |
| Reconstruction.Reconstruct | scheduler/scheduler-server/src/main/java/org/ow2/proactive/scheduler/task/internal/InternalTask.java:320-418 | The target is left alone. Otherwise the same clones keep growing links, and nothing ranked above the start or at the target changes. The only exception is the walk's NullPointerException. On return, when the start has a clone, that clone carries one link of the selected kind for each upstream task. The link goes to a clone of the same name, or to the collapsed ancestor's clone. On return the tree is rebuilt from the start (`Rebuilt`). Every visited task's clone carries those links, and the same holds, recursively, for the task each link continues to, down to the target. |
| Reconstruction.Turn | scheduler/scheduler-server/src/main/java/org/ow2/proactive/scheduler/task/internal/InternalTask.java:359-416 | One turn of the loop links the parent (or its collapse) and recurses from it. The link survives the recursion. On return the tree is rebuilt from the task the link continues to. |
| Reconstruction.LinkAll | scheduler/scheduler-server/src/main/java/org/ow2/proactive/scheduler/task/internal/InternalTask.java:358-416 | The loop over the upstream tasks keeps growing the same clones. On return the clone, if there is one, is linked to every upstream task, and the tree is rebuilt from where each link continues, later turns notwithstanding. The only exception is the walk's NullPointerException. |
| Reconstruction.Descend | scheduler/scheduler-server/src/main/java/org/ow2/proactive/scheduler/task/internal/InternalTask.java:413-415 | The recursive call stops at the target. Otherwise it rebuilds the tree from the task it is called on. |
| Reconstruction.RebuiltPersists | scheduler/scheduler-server/src/main/java/org/ow2/proactive/scheduler/task/internal/InternalTask.java:358-416 | A rebuilt tree stays rebuilt while later turns only add links and set each IF link to the job's own IF task. |
| Reconstruction.StartLinkedIsNotRebuilt | scheduler/scheduler-server/src/main/java/org/ow2/proactive/scheduler/task/internal/InternalTask.java:320-418 | In a chain a, b, c, the clone of c can be linked to b while the clone of b lacks its link to a. So linking only the start's clone does not rebuild the tree. |
| TreeReplication.CloneTable | scheduler/scheduler-server/src/main/java/org/ow2/proactive/scheduler/task/internal/InternalTask.java:266-273 | Every task's clone is its reset replica, or the exception its deep copy raises. |
| TreeReplication.CloneAndThin | scheduler/scheduler-server/src/main/java/org/ow2/proactive/scheduler/task/internal/InternalTask.java:224-241 | The clone pass fails exactly when a task it meets cannot be cloned, and then with that exception. Otherwise the kept clones are reached tasks' clones without links, one per ambiguous name, of lowest iteration. |
| TreeReplication.ReplicateTree | scheduler/scheduler-server/src/main/java/org/ow2/proactive/scheduler/task/internal/InternalTask.java:221-249 | A clone failure leaves the accumulator unchanged. Otherwise the kept clones are put in and the edges rebuilt. When no pass fails and the call returns, the tree is rebuilt from the start, as Reconstruct states. |
| NodeStates.Description | rm/rm-client/src/main/java/org/ow2/proactive/resourcemanager/common/NodeState.java:129-132 | `toString` gives a description that starts with a capital followed by a lower-case letter, unlike the upper-case constant names. |
| NodeStates.FirstDescribed | rm/rm-client/src/main/java/org/ow2/proactive/resourcemanager/common/NodeState.java:114-119 | The search returns a listed state with the given description, or none when no listed state has it. |
| NodeStates.Parse | rm/rm-client/src/main/java/org/ow2/proactive/resourcemanager/common/NodeState.java:114-122 | A parsed state has the given string as its description. Failure is IllegalArgumentException. |
| NodeStates.EveryStateDeclared | rm/rm-client/src/main/java/org/ow2/proactive/resourcemanager/common/NodeState.java:56-93 | `values()` lists all seven states. |
| NodeStates.DescriptionsDistinct | rm/rm-client/src/main/java/org/ow2/proactive/resourcemanager/common/NodeState.java:61-93 | No two states share a description. |
| NodeStates.ParseFailsIffUndescribed | rm/rm-client/src/main/java/org/ow2/proactive/resourcemanager/common/NodeState.java:114-122 | `parse` fails exactly on the strings that describe no state. |
| NodeStates.ParseDescription | rm/rm-client/src/main/java/org/ow2/proactive/resourcemanager/common/NodeState.java:114-132 | `parse(s.toString()) == s` for every state. |
| NodeStates.ParseIsExact | rm/rm-client/src/main/java/org/ow2/proactive/resourcemanager/common/NodeState.java:61-132 | "BUSY" and "TO_BE_REMOVED" are rejected. "Busy" is accepted, and TO_BE_REMOVED prints as "To be removed". |
| NodeStates.Undescribed | rm/rm-client/src/main/java/org/ow2/proactive/resourcemanager/common/NodeState.java:114-122 | No constant-style name (capitals and underscores) parses. |
| TaskLogPath.NewPathGenerator | scheduler/scheduler-client/src/main/java/org/ow2/proactive/scheduler/common/util/TaskLoggerRelativePathGenerator.java:40-43 | A missing job id is NullPointerException. Otherwise the relative path is the job id, `/` and the file name. |
| TaskLogPath.FileNameShape | scheduler/scheduler-client/src/main/java/org/ow2/proactive/scheduler/common/util/TaskLoggerRelativePathGenerator.java:41 | The file name is `TaskLogs-`, the job id in decimal, `-`, the task value and `.log`. |
| TaskLogPath.FileNameRoundTrip | scheduler/scheduler-client/src/main/java/org/ow2/proactive/scheduler/common/util/TaskLoggerRelativePathGenerator.java:34-41 | The file name `TaskLogs-<job>-<task>.log` reads back as the job id and the task value. |
| TaskLogPath.RelativePathNamesJob | scheduler/scheduler-client/src/main/java/org/ow2/proactive/scheduler/common/util/TaskLoggerRelativePathGenerator.java:42 | The directory part of the relative path is the job id in decimal, and it reads back. |
| RMSnapshot.Empty | rm/rm-client/src/main/java/org/ow2/proactive/resourcemanager/common/event/RMInitialState.java:85-92 | A new snapshot has no events and a latest counter of 0, so it is consistent. |
| RMSnapshot.UpdateCounter | rm/rm-client/src/main/java/org/ow2/proactive/resourcemanager/common/event/RMInitialState.java:158-160 | The latest counter never decreases and reaches the event's counter. It is one of the two, and the events are untouched. |
| RMSnapshot.NodeEventReceived | rm/rm-client/src/main/java/org/ow2/proactive/resourcemanager/common/event/RMInitialState.java:127-141 | The event is stored under its node URL, overwriting any previous one. Other keys and the source map are unchanged, and the counter is raised. |
| RMSnapshot.NodeSourceEventReceived | rm/rm-client/src/main/java/org/ow2/proactive/resourcemanager/common/event/RMInitialState.java:143-156 | The event is stored under its source name, overwriting any previous one. Other keys and the node map are unchanged, and the counter is raised. |
| RMSnapshot.ReceivedKeepsConsistent | rm/rm-client/src/main/java/org/ow2/proactive/resourcemanager/common/event/RMInitialState.java:127-160 | Receiving an event with a non-negative counter keeps every stored counter between 0 and the latest. |
| RMSnapshot.ReceiveAllConsistent | rm/rm-client/src/main/java/org/ow2/proactive/resourcemanager/common/event/RMInitialState.java:127-160 | Any sequence of received events with non-negative counters keeps a consistent snapshot consistent. The latest counter never falls and ends at least at every counter received. |
| RMSnapshot.EmptyReceivesConsistently | rm/rm-client/src/main/java/org/ow2/proactive/resourcemanager/common/event/RMInitialState.java:85-160 | A new snapshot fed any events with non-negative counters is consistent, and its latest counter is at least every counter it received. |
| RMSnapshot.NewFilteredEvents | rm/rm-client/src/main/java/org/ow2/proactive/resourcemanager/common/event/RMInitialState.java:195-200 | An entry is kept, under the same key, exactly when from < counter ≤ to. |
| RMSnapshot.LargestCounter | rm/rm-client/src/main/java/org/ow2/proactive/resourcemanager/common/event/RMInitialState.java:202-205 | 0 for no events. Otherwise it is a counter of some event and no counter exceeds it. |
| RMSnapshot.ActualFilter | rm/rm-client/src/main/java/org/ow2/proactive/resourcemanager/common/event/RMInitialState.java:170-179 | The filter the clone uses is the client's when that is not ahead of the server's latest counter. Otherwise it is EMPTY_STATE (-1). |
| RMSnapshot.CloneAndFilter | rm/rm-client/src/main/java/org/ow2/proactive/resourcemanager/common/event/RMInitialState.java:169-193 | Kept exactly are the events in the window after the actual filter (the bound wraps as `long`). The latest counter bounds the kept counters and is at least the actual filter. The window is stated for both cases: it starts at the client's filter when that is not ahead of the server's latest counter, and at EMPTY_STATE otherwise. A consistent state gives a consistent clone that is no newer. A first poll, or a poll from a client ahead of a restarted server, keeps every event when the chunk is wide enough. |

## Left out

- The deep copy by serialization in `replicate` is abstracted to a flag
  (`copied`, or the set `uncopyable` in the tree operations). A failed copy
  raises ExecutableCreationException. The copy itself is field-wise.
- `TaskInfoImpl`'s defaults for progress and finished time are not part of
  this model. A fresh info uses 0 and -1.
- Property lookups become parameters: the monitoring chunk size of
  `cloneAndFilter` and the execution maxima.
- Concurrency is not modelled. `synchronized`, `ConcurrentHashMap` and
  `AtomicLong` are plain sequential maps and integers.
- Logging is not modelled, in particular the message `cloneAndFilter` logs
  when the filter is ahead.
- The unused `dupIndex` and `itIndex` parameters of the replication methods
  are dropped.
- `setName` also updates the readable name of the task id. Task ids are
  numbers in this model, so that update is not represented.
- `Integer.parseInt` is modelled for ASCII digits only. Java also accepts
  other Unicode decimal digits.
- TaskName.IterationIndexFromName and TaskName.ReplicationIndexFromName: on
  an arbitrary name the contracts fix only the no-separator case and the
  possible exceptions. The value read from a rendered name is stated by the
  round-trip lemmas.
- TreeReplication.ReplicateTree needs three preconditions:
  - a job whose links have no cycle (a rank map);
  - every task name readable by `getInitialName`;
  - an accumulator whose links stay inside it.

  A name with a line terminator inside would make the Java code throw
  RuntimeException from `getAmbiguousName` in the middle of the pass. That
  path is not modelled.
- Reconstruction.Reconstruct: the Java `HashMap` of upstream links is
  modelled as a list. It is in the order the links appear, and a join lists
  its first branch before its second. Other iteration orders are not
  modelled for the reconstruction.
- Replication.ClonePass follows the selected hard parents in their list
  order. The Java code iterates a `HashMap`. The set of tasks cloned does not
  depend on that order (ClonePassCoversReach), but which exception is
  reported first when several clones fail does.
- InternalTask.GetIDependences: the null-normalising side effect is modelled
  here. The other operations read the list through `IDependences`, which
  returns the same value.
- `TaskId.value()` is an arbitrary string here, and a job id is rendered as a
  decimal number.
- `NodeState.parse(null)` is not modelled, because strings here are never
  null. In Java it throws IllegalArgumentException like any undescribed
  string.
- `getNodesEvents`, `getNodeSource` and the two-argument constructor of
  `RMInitialState` are plain accessors and are not modelled.
- The other setters of `InternalTask` (`setStartTime`, `setJobId`,
  `setStatus` and similar) store one field and are not modelled.
- The launcher creation, the executable container, node exclusion,
  executer information and generic-information substitution are not modelled.

### Behaviour worth knowing

- `getInitialName` cuts at the last separator, because its `(.*)` groups
  are greedy. `setName` cuts at the first. So stripping a name that still
  holds a separator is not idempotent (TaskName.InitialNameNotIdempotent,
  TaskName.StrippingRulesDiffer). In particular, setting an index on a task
  whose base holds a separator shortens the base: "a#b#1" becomes "a#2",
  and its ambiguous name changes (InternalTask.SetIterationCutsInnerSeparator).
- The reconstruction checks for an existing hard dependency or joined
  branch by comparing full task names, not ambiguous names.
- The collapsing walk dereferences the first hard dependency before
  considering the IF branch or the joined branches. So a task without hard
  dependencies on the way throws NullPointerException; the walk does not
  fall back to the branches. The collapse always adds a hard dependency.

=== FILE: internal_task.dfy ===
/** One task of a workflow as the scheduler server keeps it: its identity and
    counters, its display name with the iteration/replication suffix, its
    control-flow metadata, and its upstream links. Links are task ids, looked
    up in the job's task table (see TaskGraph), never object references. */
module InternalTask {
  import opened Wrappers
  import opened JavaLang
  import opened TaskName

  type TaskId = nat

  /** An iteration or replication index: a Java `int` that the setters keep
      non-negative. */
  type Index = x: int | 0 <= x <= MaxInt32

  /** Longest name `setName` accepts, in UTF-16 code units. */
  const MaxNameLength: nat := 255

  datatype FlowActionType = IfAction | ReplicateAction | LoopAction | ContinueAction

  /** The control-flow script attached to a task: the action it performs and
      the names of the tasks that action refers to. */
  datatype FlowScript = FlowScript(
    actionType: FlowActionType,
    actionTarget: Option<string>,
    actionTargetElse: Option<string>,
    actionContinuation: Option<string>)

  /** The mutable execution record of a task (TaskInfoImpl), reduced to the
      fields this class reads or writes. */
  datatype TaskInfo = TaskInfo(
    taskId: TaskId,
    executionsLeft: int32,
    executionsOnFailureLeft: int32,
    progress: int32,
    finishedTime: int64)

  datatype Task = Task(
    info: TaskInfo,
    name: string,
    iteration: Index,
    replication: Index,
    matchingBlock: Option<string>,
    flowScript: Option<FlowScript>,
    /** hard dependencies; `None` is the Java `null` list */
    ideps: Option<seq<TaskId>>,
    /** the two branch end-points this task joins, if it is an IF's join */
    joinedBranches: Option<seq<TaskId>>,
    /** the task whose IF action made this task a branch */
    ifBranch: Option<TaskId>,
    replicatedFrom: Option<TaskId>,
    maxExecutions: int32,
    maxExecutionsOnFailure: int32)

  /** `getId()`: the id held by the task's info. */
  function Id(t: Task): TaskId {
    t.info.taskId
  }

  /** `getTaskNameSuffix()` */
  function NameSuffix(t: Task): string {
    Suffix(t.iteration, t.replication)
  }

  /** The task info a replica starts from. TaskInfoImpl's own defaults for
      progress and finished time are not part of this model; 0 and -1 stand
      for them. */
  function FreshInfo(id: TaskId, executionsLeft: int32, executionsOnFailureLeft: int32): TaskInfo {
    TaskInfo(id, executionsLeft, executionsOnFailureLeft, 0, -1)
  }

  // ---------------------------------------------------------------------------
  // Hard dependencies

  /** The hard-dependency list, a null list read as empty. */
  function HardList(t: Task): seq<TaskId> {
    t.ideps.GetOr([])
  }

  /** `hasDependences()` */
  function HasDependences(t: Task): (b: bool)
    ensures b <==> |HardList(t)| > 0
  {
    t.ideps.Some? && |t.ideps.value| > 0
  }

  /** What `getIDependences()` returns: the list, or null when it is null or
      empty. */
  function IDependences(t: Task): (r: Option<seq<TaskId>>)
    ensures r.None? <==> !HasDependences(t)
    ensures r.Some? ==> r.value == HardList(t) && |r.value| > 0
  {
    if HasDependences(t) then t.ideps else None
  }

  /** `getIDependences()` with its side effect: an empty list is replaced by
      null on the task before null is returned. */
  function GetIDependences(t: Task): (r: (Task, Option<seq<TaskId>>))
    ensures r.1 == IDependences(t)
    ensures HardList(r.0) == HardList(t) && IDependences(r.0) == IDependences(t)
    ensures r.0 == t.(ideps := r.0.ideps)
    ensures r.0.ideps.Some? ==> |r.0.ideps.value| > 0
  {
    var t' := if t.ideps.Some? && |t.ideps.value| == 0 then t.(ideps := None) else t;
    (t', t'.ideps)
  }

  /** `addDependence(task)`: creates the list when null, then appends. */
  function AddDependence(t: Task, d: TaskId): (r: Task)
    ensures HardList(r) == HardList(t) + [d]
    ensures multiset(HardList(r)) == multiset(HardList(t)) + multiset{d}
    ensures HasDependences(r)
    ensures r == t.(ideps := r.ideps)
  {
    t.(ideps := Some(HardList(t) + [d]))
  }

  /** `r` is `s` without its first `d`, the rest kept in order. */
  predicate DropsFirst(s: seq<TaskId>, d: TaskId, r: seq<TaskId>) {
    exists i :: 0 <= i < |s| && s[i] == d && d !in s[..i] && r == s[..i] + s[i + 1..]
  }

  /** `List.remove(Object)`: drops the first occurrence, if any. */
  function RemoveFirst(s: seq<TaskId>, d: TaskId): (r: seq<TaskId>)
    ensures multiset(r) == multiset(s) - multiset{d}
    ensures d in s ==> |r| == |s| - 1 && DropsFirst(s, d, r)
    ensures d !in s ==> r == s
  {
    if |s| == 0 then []
    else if s[0] == d then
      assert s == [s[0]] + s[1..];
      assert s[..0] + s[1..] == s[1..];
      s[1..]
    else
      assert s == [s[0]] + s[1..];
      if d in s then
        DropsFirstCons(s[0], s[1..], d, RemoveFirst(s[1..], d));
        [s[0]] + RemoveFirst(s[1..], d)
      else [s[0]] + RemoveFirst(s[1..], d)
  }

  /** Dropping the first `d` commutes with a different head. */
  lemma DropsFirstCons(x: TaskId, s: seq<TaskId>, d: TaskId, r: seq<TaskId>)
    requires x != d && DropsFirst(s, d, r)
    ensures DropsFirst([x] + s, d, [x] + r)
  {
    var i :| 0 <= i < |s| && s[i] == d && d !in s[..i] && r == s[..i] + s[i + 1..];
    var xs := [x] + s;
    assert xs[..i + 1] == [x] + s[..i];
    assert xs[i + 2..] == s[i + 1..];
    assert xs[i + 1] == d;
    assert [x] + r == xs[..i + 1] + xs[i + 2..];
  }

  /** `removeDependence(task)`: removes one occurrence from a non-null list and
      reports whether there was one. */
  function RemoveDependence(t: Task, d: TaskId): (r: (Task, bool))
    ensures r.1 <==> d in HardList(t)
    ensures multiset(HardList(r.0)) == multiset(HardList(t)) - multiset{d}
    ensures r.1 ==> DropsFirst(HardList(t), d, HardList(r.0)) && r.0.ideps.Some?
    ensures !r.1 ==> r.0 == t
    ensures r.0 == t.(ideps := r.0.ideps)
  {
    match t.ideps
    case None => (t, false)
    case Some(l) => (t.(ideps := Some(RemoveFirst(l, d))), d in l)
  }

  datatype DependenceCall = Add(added: TaskId) | Remove(removed: TaskId)

  /** The task after a series of `addDependence` / `removeDependence` calls. */
  function ApplyDependenceCalls(t: Task, calls: seq<DependenceCall>): Task
    decreases |calls|
  {
    if |calls| == 0 then t
    else
      var t' := match calls[0]
        case Add(d) => AddDependence(t, d)
        case Remove(d) => RemoveDependence(t, d).0;
      ApplyDependenceCalls(t', calls[1..])
  }

  /** The multiset of dependences still standing after a series of calls:
      additions count up, removals of a present dependence count down. */
  function NetDependences(m: multiset<TaskId>, calls: seq<DependenceCall>): multiset<TaskId>
    decreases |calls|
  {
    if |calls| == 0 then m
    else
      var m' := match calls[0]
        case Add(d) => m + multiset{d}
        case Remove(d) => m - multiset{d};
      NetDependences(m', calls[1..])
  }

  /** `hasDependences()` holds after a series of calls exactly when some added
      dependence has not been removed again. */
  lemma {:induction false} HasDependencesTracksCalls(t: Task, calls: seq<DependenceCall>)
    ensures multiset(HardList(ApplyDependenceCalls(t, calls))) == NetDependences(multiset(HardList(t)), calls)
    ensures HasDependences(ApplyDependenceCalls(t, calls)) <==>
              NetDependences(multiset(HardList(t)), calls) != multiset{}
    decreases |calls|
  {
    if |calls| > 0 {
      var t' := match calls[0]
        case Add(d) => AddDependence(t, d)
        case Remove(d) => RemoveDependence(t, d).0;
      HasDependencesTracksCalls(t', calls[1..]);
    }
  }

  // ---------------------------------------------------------------------------
  // Task info

  /** `update(taskInfo)`: replaces the info when its id is this task's id. */
  function Update(t: Task, info: TaskInfo): (r: Outcome<Task>)
    ensures info.taskId != Id(t) ==> r == Threw(t, IllegalArgumentException)
    ensures info.taskId == Id(t) ==> r.Returned? && r.state.info == info
    ensures r.state == t.(info := r.state.info)
  {
    if info.taskId != Id(t) then Threw(t, IllegalArgumentException)
    else Returned(t.(info := info))
  }

  /** `setMaxNumberOfExecution(n)`: also refills both retry budgets. */
  function SetMaxNumberOfExecution(t: Task, n: int32): (r: Task)
    ensures r.maxExecutions == n && r.info.executionsLeft == n
    ensures r.info.executionsOnFailureLeft == t.maxExecutionsOnFailure
    ensures Id(r) == Id(t) && r.info.progress == t.info.progress && r.info.finishedTime == t.info.finishedTime
    ensures r == t.(maxExecutions := r.maxExecutions, info := r.info)
  {
    t.(maxExecutions := n,
       info := t.info.(executionsLeft := n, executionsOnFailureLeft := t.maxExecutionsOnFailure))
  }

  /** `setFinishedTime(time)`: a positive time also marks progress complete. */
  function SetFinishedTime(t: Task, finishedTime: int64): (r: Task)
    ensures r.info.finishedTime == finishedTime
    ensures finishedTime > 0 ==> r.info.progress == 100
    ensures finishedTime <= 0 ==> r.info.progress == t.info.progress
    ensures r == t.(info := t.info.(finishedTime := finishedTime, progress := r.info.progress))
  {
    var info := t.info.(finishedTime := finishedTime);
    t.(info := if finishedTime > 0 then info.(progress := 100) else info)
  }

  // ---------------------------------------------------------------------------
  // Names

  predicate NameTooLong(base: string, suffix: string) {
    Utf16Length(base) + Utf16Length(suffix) > MaxNameLength
  }

  /** A referenced task name re-rendered with `suffix`: its initial name with
      the suffix appended. Reading a null reference throws. */
  function Resuffix(ref: Option<string>, suffix: string): (r: Result<string, Exception>)
    ensures ref.None? ==> r == Failure(NullPointerException)
    ensures r.Success? <==> ref.Some? && InitialName(ref.value).Success?
    ensures r.Success? ==> r.value == InitialName(ref.value).value + suffix
  {
    match ref
    case None => Failure(NullPointerException)
    case Some(s) =>
      var base :- InitialName(s);
      Success(base + suffix)
  }

  /** `after` is `before` re-rendered with `suffix`. */
  predicate Follows(before: Option<string>, after: Option<string>, suffix: string) {
    && before.Some?
    && InitialName(before.value).Success?
    && after == Some(InitialName(before.value).value + suffix)
  }

  /** The matching-block name after a rename: re-rendered when set and
      non-empty, unchanged otherwise. */
  predicate BlockFollows(before: Option<string>, after: Option<string>, suffix: string) {
    if before.Some? && |before.value| > 0 then Follows(before, after, suffix) else after == before
  }

  /** The flow script after a rename: a LOOP's target, and an IF's target,
      else-target and (when set) continuation are re-rendered; nothing else
      changes. */
  predicate TargetsFollow(before: Option<FlowScript>, after: Option<FlowScript>, suffix: string) {
    match before
    case None => after.None?
    case Some(f) =>
      && after.Some?
      && after.value.actionType == f.actionType
      && match f.actionType
         case LoopAction =>
           && Follows(f.actionTarget, after.value.actionTarget, suffix)
           && after.value.actionTargetElse == f.actionTargetElse
           && after.value.actionContinuation == f.actionContinuation
         case IfAction =>
           && Follows(f.actionTarget, after.value.actionTarget, suffix)
           && Follows(f.actionTargetElse, after.value.actionTargetElse, suffix)
           && (if f.actionContinuation.None? then after.value.actionContinuation.None?
               else Follows(f.actionContinuation, after.value.actionContinuation, suffix))
         case _ => after == before
  }

  /** A referenced name `getInitialName` can read: set, and with a match. */
  predicate Readable(ref: Option<string>) {
    ref.Some? && InitialName(ref.value).Success?
  }

  /** The matching block can be re-rendered: unset, empty, or readable. */
  predicate BlockReadable(block: Option<string>) {
    block.Some? && |block.value| > 0 ==> Readable(block)
  }

  /** Every target name a rename re-renders can be read. */
  predicate TargetsReadable(script: Option<FlowScript>) {
    match script
    case None => true
    case Some(f) =>
      match f.actionType
      case LoopAction => Readable(f.actionTarget)
      case IfAction =>
        && Readable(f.actionTarget) && Readable(f.actionTargetElse)
        && (f.actionContinuation.None? || Readable(f.actionContinuation))
      case _ => true
  }

  /** The matching-block step of `setName`: it returns exactly when the block
      can be read; an unreadable block is RuntimeException. */
  function RenameMatchingBlock(t: Task, suffix: string): (r: Outcome<Task>)
    ensures r.Returned? <==> BlockReadable(t.matchingBlock)
    ensures r.Threw? ==> r.state == t && r.error == RuntimeException
    ensures r.Returned? ==> r.state == t.(matchingBlock := r.state.matchingBlock)
    ensures r.Returned? ==> BlockFollows(t.matchingBlock, r.state.matchingBlock, suffix)
  {
    if t.matchingBlock.Some? && |t.matchingBlock.value| > 0 then
      match Resuffix(t.matchingBlock, suffix)
      case Failure(e) => Threw(t, e)
      case Success(m) => Returned(t.(matchingBlock := Some(m)))
    else Returned(t)
  }

  /** The LOOP/IF step of `setName`: it returns exactly when every target it
      re-renders can be read; a null target is NullPointerException and an
      unreadable one RuntimeException. */
  function RenameFlowTargets(t: Task, suffix: string): (r: Outcome<Task>)
    ensures r.Returned? <==> TargetsReadable(t.flowScript)
    ensures r.Threw? ==> r.error == NullPointerException || r.error == RuntimeException
    ensures r.state == t.(flowScript := r.state.flowScript)
    ensures r.Returned? ==> TargetsFollow(t.flowScript, r.state.flowScript, suffix)
  {
    match t.flowScript
    case None => Returned(t)
    case Some(fs) =>
      if fs.actionType == LoopAction then
        match Resuffix(fs.actionTarget, suffix)
        case Failure(e) => Threw(t, e)
        case Success(x) => Returned(t.(flowScript := Some(fs.(actionTarget := Some(x)))))
      else if fs.actionType == IfAction then
        match Resuffix(fs.actionTarget, suffix)
        case Failure(e) => Threw(t, e)
        case Success(x) =>
          match Resuffix(fs.actionTargetElse, suffix)
          case Failure(e) => Threw(t, e)
          case Success(y) =>
            var branches := fs.(actionTarget := Some(x), actionTargetElse := Some(y));
            if fs.actionContinuation.None? then Returned(t.(flowScript := Some(branches)))
            else
              match Resuffix(fs.actionContinuation, suffix)
              case Failure(e) => Threw(t.(flowScript := Some(branches)), e)
              case Success(z) => Returned(t.(flowScript := Some(branches.(actionContinuation := Some(z)))))
      else Returned(t)
  }

  /** `setName(newName)`: a null name changes nothing; otherwise the name is cut
      at its first separator, the task's own suffix is appended (rejected
      before any change when longer than 255 code units), and the matching
      block and the LOOP/IF target names are re-rendered with that suffix,
      in that order. A target whose name cannot be read stops the renaming
      with the earlier updates in place. */
  function SetName(t: Task, newName: Option<string>): (r: Outcome<Task>)
    ensures newName.None? ==> r == Returned(t)
    ensures newName.Some? && NameTooLong(RenameBase(newName.value), NameSuffix(t)) ==>
              r == Threw(t, IllegalArgumentException)
    ensures newName.Some? && !NameTooLong(RenameBase(newName.value), NameSuffix(t)) ==>
              && r.state.name == RenameBase(newName.value) + NameSuffix(t)
              && r.state == t.(name := r.state.name, matchingBlock := r.state.matchingBlock,
                               flowScript := r.state.flowScript)
    ensures newName.Some? && !NameTooLong(RenameBase(newName.value), NameSuffix(t)) ==>
              (r.Returned? <==> BlockReadable(t.matchingBlock) && TargetsReadable(t.flowScript))
    ensures r.Returned? && newName.Some? ==>
              && BlockFollows(t.matchingBlock, r.state.matchingBlock, NameSuffix(t))
              && TargetsFollow(t.flowScript, r.state.flowScript, NameSuffix(t))
    ensures r.Threw? ==>
              r.error == IllegalArgumentException || r.error == NullPointerException || r.error == RuntimeException
  {
    if newName.None? then Returned(t)
    else
      var base := RenameBase(newName.value);
      var suffix := NameSuffix(t);
      if NameTooLong(base, suffix) then Threw(t, IllegalArgumentException)
      else
        var renamed := t.(name := base + suffix);
        match RenameMatchingBlock(renamed, suffix)
        case Threw(s, e) => Threw(s, e)
        case Returned(s) => RenameFlowTargets(s, suffix)
  }

  /** After a successful rename to a separator-free single-line base, the
      name, the matching block and every re-rendered flow target decode to
      the task's own iteration and replication indices. */
  lemma {:induction false} SetNameAlignsSuffixes(t: Task, base: string)
    requires HasNoSeparator(base) && IsSingleLine(base)
    requires SetName(t, Some(base)).Returned?
    ensures var s := SetName(t, Some(base)).state;
            && InitialName(s.name) == Success(base)
            && IterationIndexFromName(s.name) == Success(t.iteration)
            && ReplicationIndexFromName(s.name) == Success(t.replication)
    ensures var s := SetName(t, Some(base)).state;
            t.matchingBlock.Some? && |t.matchingBlock.value| > 0 &&
            HasNoSeparator(InitialName(t.matchingBlock.value).value) ==>
              && s.matchingBlock.Some?
              && InitialName(s.matchingBlock.value) == InitialName(t.matchingBlock.value)
              && IterationIndexFromName(s.matchingBlock.value) == Success(t.iteration)
              && ReplicationIndexFromName(s.matchingBlock.value) == Success(t.replication)
    ensures var s := SetName(t, Some(base)).state;
            t.flowScript.Some? && t.flowScript.value.actionType in {LoopAction, IfAction} &&
            HasNoSeparator(InitialName(t.flowScript.value.actionTarget.value).value) ==>
              && s.flowScript.Some? && s.flowScript.value.actionTarget.Some?
              && IterationIndexFromName(s.flowScript.value.actionTarget.value) == Success(t.iteration)
              && ReplicationIndexFromName(s.flowScript.value.actionTarget.value) == Success(t.replication)
  {
    var s := SetName(t, Some(base)).state;
    assert RenameBase(base) == base;
    SuffixRoundTrip(base, t.iteration, t.replication);
    if t.matchingBlock.Some? && |t.matchingBlock.value| > 0 {
      var b := InitialName(t.matchingBlock.value).value;
      if HasNoSeparator(b) {
        SuffixRoundTrip(b, t.iteration, t.replication);
      }
    }
    if t.flowScript.Some? && t.flowScript.value.actionType in {LoopAction, IfAction} {
      var b := InitialName(t.flowScript.value.actionTarget.value).value;
      if HasNoSeparator(b) {
        SuffixRoundTrip(b, t.iteration, t.replication);
      }
    }
  }

  /** `setIterationIndex(it)`: negative indices are rejected; otherwise the
      task's initial name is read, the index stored, and the name set again. */
  function SetIterationIndex(t: Task, it: int32): (r: Outcome<Task>)
    ensures it < 0 ==> r == Threw(t, IllegalArgumentException)
    ensures it >= 0 && InitialName(t.name).Failure? ==> r == Threw(t, RuntimeException)
    ensures it >= 0 && InitialName(t.name).Success? ==> r.state.iteration == it
    ensures r.state.replication == t.replication && Id(r.state) == Id(t)
  {
    if it < 0 then Threw(t, IllegalArgumentException)
    else
      match InitialName(t.name)
      case Failure(e) => Threw(t, e)
      case Success(taskName) => SetName(t.(iteration := it), Some(taskName))
  }

  /** `setReplicationIndex(rep)`, the same for the replication index. */
  function SetReplicationIndex(t: Task, rep: int32): (r: Outcome<Task>)
    ensures rep < 0 ==> r == Threw(t, IllegalArgumentException)
    ensures rep >= 0 && InitialName(t.name).Failure? ==> r == Threw(t, RuntimeException)
    ensures rep >= 0 && InitialName(t.name).Success? ==> r.state.replication == rep
    ensures r.state.iteration == t.iteration && Id(r.state) == Id(t)
  {
    if rep < 0 then Threw(t, IllegalArgumentException)
    else
      match InitialName(t.name)
      case Failure(e) => Threw(t, e)
      case Success(taskName) => SetName(t.(replication := rep), Some(taskName))
  }

  /** A task named `base` plus its suffix keeps `base` when an index is set,
      and its name then carries the new index. */
  lemma SetIndexRerendersName(t: Task, base: string, it: int32, rep: int32)
    requires HasNoSeparator(base) && IsSingleLine(base)
    requires t.name == base + NameSuffix(t)
    requires 0 <= it && 0 <= rep
    ensures !NameTooLong(base, Suffix(it, t.replication)) ==>
              && SetIterationIndex(t, it).state.name == base + Suffix(it, t.replication)
              && InitialName(SetIterationIndex(t, it).state.name) == Success(base)
              && IterationIndexFromName(SetIterationIndex(t, it).state.name) == Success(it)
    ensures !NameTooLong(base, Suffix(t.iteration, rep)) ==>
              && SetReplicationIndex(t, rep).state.name == base + Suffix(t.iteration, rep)
              && InitialName(SetReplicationIndex(t, rep).state.name) == Success(base)
              && ReplicationIndexFromName(SetReplicationIndex(t, rep).state.name) == Success(rep)
  {
    SetIterationRerendersName(t, base, it);
    SetReplicationRerendersName(t, base, rep);
  }

  lemma SetIterationRerendersName(t: Task, base: string, it: int32)
    requires HasNoSeparator(base) && IsSingleLine(base)
    requires t.name == base + NameSuffix(t)
    requires 0 <= it
    ensures !NameTooLong(base, Suffix(it, t.replication)) ==>
              && SetIterationIndex(t, it).state.name == base + Suffix(it, t.replication)
              && InitialName(SetIterationIndex(t, it).state.name) == Success(base)
              && IterationIndexFromName(SetIterationIndex(t, it).state.name) == Success(it)
  {
    InitialNameRoundTrip(base, t.iteration, t.replication);
    assert SetIterationIndex(t, it) == SetName(t.(iteration := it), Some(base));
    assert RenameBase(base) == base;
    assert NameSuffix(t.(iteration := it)) == Suffix(it, t.replication);
    SuffixRoundTrip(base, it, t.replication);
  }

  lemma SetReplicationRerendersName(t: Task, base: string, rep: int32)
    requires HasNoSeparator(base) && IsSingleLine(base)
    requires t.name == base + NameSuffix(t)
    requires 0 <= rep
    ensures !NameTooLong(base, Suffix(t.iteration, rep)) ==>
              && SetReplicationIndex(t, rep).state.name == base + Suffix(t.iteration, rep)
              && InitialName(SetReplicationIndex(t, rep).state.name) == Success(base)
              && ReplicationIndexFromName(SetReplicationIndex(t, rep).state.name) == Success(rep)
  {
    InitialNameRoundTrip(base, t.iteration, t.replication);
    assert SetReplicationIndex(t, rep) == SetName(t.(replication := rep), Some(base));
    assert RenameBase(base) == base;
    assert NameSuffix(t.(replication := rep)) == Suffix(t.iteration, rep);
    SuffixRoundTrip(base, t.iteration, rep);
  }

  /** When the base already holds a separator, setting an index does not keep
      the ambiguous name: `getInitialName` cuts `a#b#1` at its last `#`, and
      `setName` then cuts `a#b` at its first, so the task becomes `a#2`. */
  lemma SetIterationCutsInnerSeparator()
    ensures InitialName(InnerSeparatorTask().name) == Success("a#b")
    ensures SetIterationIndex(InnerSeparatorTask(), 2) == Returned(InnerSeparatorTask().(name := "a#2", iteration := 2))
    ensures InitialName("a#2") == Success("a")
  {
    var t := InnerSeparatorTask();
    InnerSeparatorNames();
    assert SetIterationIndex(t, 2) == SetName(t.(iteration := 2), Some("a#b"));
    InnerSeparatorRename();
  }

  /** A task at iteration 1 whose base `a#b` holds a separator. */
  function InnerSeparatorTask(): Task {
    Task(TaskInfo(0, 1, 1, 0, -1), "a#b#1", 1, 0, None, None, None, None, None, None, 1, 1)
  }

  lemma InnerSeparatorNames()
    ensures InitialName("a#b#1") == Success("a#b")
    ensures InitialName("a#2") == Success("a")
  {
    assert LineEnd("a#b#1") == 5;
    assert "a#b#1"[..5] == "a#b#1";
    LastIndexOfAt("a#b#1", '#', 3);
    assert "a#b#1"[..3] == "a#b";
    assert LineEnd("a#2") == 3;
    assert "a#2"[..3] == "a#2";
    LastIndexOfAt("a#2", '#', 1);
    assert "a#2"[..1] == "a";
  }

  lemma InnerSeparatorRename()
    ensures SetName(InnerSeparatorTask().(iteration := 2), Some("a#b")) ==
            Returned(InnerSeparatorTask().(name := "a#2", iteration := 2))
  {
    var t := InnerSeparatorTask().(iteration := 2);
    assert IndexOf("a#b", '#') == 1;
    assert RenameBase("a#b") == "a";
    assert Decimal(2) == "2";
    assert NameSuffix(t) == "#2";
    assert "#2"[..1] == "#" && "a"[..0] == "" && "#"[..0] == "";
    assert Utf16Length("a") + Utf16Length("#2") == 3;
    assert "a" + "#2" == "a#2";
  }


  // ---------------------------------------------------------------------------
  // Replication of one task

  /** What `replicate()` makes of `t`: a field-wise copy in which the transient
      links (hard dependencies, joined branches, IF branch) are null, the
      info is fresh but keeps the id and refills both retry budgets, and the
      copy remembers where it came from. */
  predicate IsResetReplica(t: Task, c: Task) {
    && Id(c) == Id(t)
    && c.ideps.None? && c.joinedBranches.None? && c.ifBranch.None?
    && c.info.executionsLeft == t.maxExecutions
    && c.info.executionsOnFailureLeft == t.maxExecutionsOnFailure
    && c.replicatedFrom == Some(Id(t))
    && c.name == t.name && c.iteration == t.iteration && c.replication == t.replication
    && c.matchingBlock == t.matchingBlock && c.flowScript == t.flowScript
    && c.maxExecutions == t.maxExecutions && c.maxExecutionsOnFailure == t.maxExecutionsOnFailure
  }

  /** `replicate()`. The serialization-based deep copy is abstracted to the
      flag `copied`: when the copy fails the call raises
      ExecutableCreationException. */
  function Replicate(t: Task, copied: bool): (r: Result<Task, Exception>)
    ensures !copied ==> r == Failure(ExecutableCreationException)
    ensures copied ==> r.Success? && IsResetReplica(t, r.value)
    ensures r.Success? ==> !HasDependences(r.value)
  {
    if !copied then Failure(ExecutableCreationException)
    else
      Success(t.(
        ideps := None, joinedBranches := None, ifBranch := None,
        info := FreshInfo(Id(t), t.maxExecutions, t.maxExecutionsOnFailure),
        replicatedFrom := Some(Id(t))))
  }
}

=== FILE: java_lang.dfy ===
/** The parts of the Java platform that the modelled code leans on: fixed-width
    integers, decimal rendering and `Integer.parseInt`, `String.indexOf`,
    `String.split` on a one-character class, UTF-16 string lengths, and the
    exceptions the modelled methods raise. */
module JavaLang {
  import opened Wrappers

  const MinInt32: int := -0x8000_0000
  const MaxInt32: int := 0x7fff_ffff
  const MinInt64: int := -0x8000_0000_0000_0000
  const MaxInt64: int := 0x7fff_ffff_ffff_ffff

  /** Java `int` */
  type int32 = x: int | MinInt32 <= x <= MaxInt32
  /** Java `long` */
  type int64 = x: int | MinInt64 <= x <= MaxInt64

  datatype Exception =
    | IllegalArgumentException
    | NumberFormatException
    | ArrayIndexOutOfBoundsException
    | NullPointerException
    | RuntimeException
    | ExecutableCreationException

  /** The observable effect of a Java call on a value: the value as it stands
      once the call is over, and the exception that escaped, if one did.
      A call that throws half-way leaves its earlier updates in `state`. */
  datatype Outcome<T> = Returned(state: T) | Threw(state: T, error: Exception)

  /** `a + b` on Java `int`s, with two's-complement wrap-around. */
  function AddInt32(a: int32, b: int32): (r: int32)
    ensures MinInt32 <= a + b <= MaxInt32 ==> r == a + b
    ensures a + b > MaxInt32 ==> r == a + b - 0x1_0000_0000
    ensures a + b < MinInt32 ==> r == a + b + 0x1_0000_0000
  {
    var s := a + b;
    if s > MaxInt32 then s - 0x1_0000_0000
    else if s < MinInt32 then s + 0x1_0000_0000
    else s
  }

  /** `a + b` on Java `long`s, with two's-complement wrap-around. */
  function AddInt64(a: int64, b: int64): (r: int64)
    ensures MinInt64 <= a + b <= MaxInt64 ==> r == a + b
    ensures a + b > MaxInt64 ==> r == a + b - 0x1_0000_0000_0000_0000
    ensures a + b < MinInt64 ==> r == a + b + 0x1_0000_0000_0000_0000
  {
    var s := a + b;
    if s > MaxInt64 then s - 0x1_0000_0000_0000_0000
    else if s < MinInt64 then s + 0x1_0000_0000_0000_0000
    else s
  }

  function Max(a: int, b: int): int {
    if a >= b then a else b
  }

  // ---------------------------------------------------------------------------
  // Characters and lengths

  /** Length of a string as Java's `String.length()` counts it: characters
      outside the Basic Multilingual Plane take two UTF-16 code units. */
  function Utf16Length(s: string): nat {
    if |s| == 0 then 0
    else Utf16Length(s[..|s| - 1]) + (if s[|s| - 1] as int > 0xFFFF then 2 else 1)
  }

  /** `s.indexOf(c)` */
  function IndexOf(s: string, c: char): (i: int)
    ensures -1 <= i < |s|
    ensures i == -1 <==> c !in s
    ensures 0 <= i ==> s[i] == c && c !in s[..i]
  {
    if |s| == 0 then -1
    else if s[0] == c then 0
    else
      var j := IndexOf(s[1..], c);
      assert s[1..][..if j < 0 then 0 else j] == s[1..if j < 0 then 1 else j + 1];
      if j == -1 then -1 else j + 1
  }

  /** `s.lastIndexOf(c)` */
  function LastIndexOf(s: string, c: char): (i: int)
    ensures -1 <= i < |s|
    ensures i == -1 <==> c !in s
    ensures 0 <= i ==> s[i] == c && c !in s[i + 1..]
  {
    if |s| == 0 then -1
    else if s[|s| - 1] == c then |s| - 1
    else
      var j := LastIndexOf(s[..|s| - 1], c);
      assert j >= 0 ==> s[j + 1..] == s[..|s| - 1][j + 1..] + [s[|s| - 1]];
      j
  }

  // ---------------------------------------------------------------------------
  // Decimal rendering and parsing of int

  predicate IsDigit(c: char) {
    '0' <= c <= '9'
  }

  predicate AllDigits(s: string) {
    forall i :: 0 <= i < |s| ==> IsDigit(s[i])
  }

  function DigitChar(d: nat): (c: char)
    requires d < 10
    ensures IsDigit(c)
  {
    ('0' as int + d) as char
  }

  /** The number an ASCII digit string denotes. */
  function DigitsValue(s: string): nat
    requires AllDigits(s)
  {
    if |s| == 0 then 0
    else DigitsValue(s[..|s| - 1]) * 10 + (s[|s| - 1] as int - '0' as int)
  }

  /** Decimal rendering of a non-negative Java number, as string concatenation
      `"" + n` produces it. */
  function Decimal(n: nat): (s: string)
    ensures 1 <= |s| && AllDigits(s)
  {
    if n < 10 then [DigitChar(n)] else Decimal(n / 10) + [DigitChar(n % 10)]
  }

  lemma {:induction false} DecimalValue(n: nat)
    ensures DigitsValue(Decimal(n)) == n
  {
    if n >= 10 {
      DecimalValue(n / 10);
      var s := Decimal(n);
      assert s[..|s| - 1] == Decimal(n / 10);
    }
  }

  /** `Integer.parseInt(s)`: an optional sign followed by at least one digit,
      whose value fits in an `int`; anything else raises
      NumberFormatException. */
  function ParseInt(s: string): (r: Result<int32, Exception>)
    ensures r.Success? ==> 1 <= |s|
    ensures 1 <= |s| && AllDigits(s) && DigitsValue(s) <= MaxInt32 ==> r == Success(DigitsValue(s))
    ensures r.Failure? ==> r.error == NumberFormatException
  {
    if |s| == 0 then Failure(NumberFormatException)
    else
      var negative := s[0] == '-';
      var digits := if s[0] == '-' || s[0] == '+' then s[1..] else s;
      if |digits| == 0 || !AllDigits(digits) then Failure(NumberFormatException)
      else
        var magnitude: int := DigitsValue(digits);
        var v := if negative then -magnitude else magnitude;
        if MinInt32 <= v <= MaxInt32 then Success(v) else Failure(NumberFormatException)
  }

  /** Rendering a Java `int` and parsing it back yields the number. */
  lemma {:induction false} ParseDecimal(n: nat)
    requires n <= MaxInt32
    ensures ParseInt(Decimal(n)) == Success(n)
  {
    DecimalValue(n);
  }

  // ---------------------------------------------------------------------------
  // String.split on a one-character class, e.g. `s.split("[#]")`

  /** Every piece between occurrences of `c`, empty ones included. */
  function SplitPieces(s: string, c: char): (ps: seq<string>)
    ensures 1 <= |ps|
    decreases |s|
  {
    var i := IndexOf(s, c);
    if i < 0 then [s] else [s[..i]] + SplitPieces(s[i + 1..], c)
  }

  function DropTrailingEmpty(ps: seq<string>): (r: seq<string>)
    ensures |r| <= |ps| && r == ps[..|r|]
    ensures |r| > 0 ==> r[|r| - 1] != ""
  {
    if |ps| == 0 then []
    else if ps[|ps| - 1] == "" then DropTrailingEmpty(ps[..|ps| - 1])
    else ps
  }

  /** `s.split("[c]")`: a string without `c` splits into itself; otherwise the
      pieces between occurrences, a leading empty piece kept, trailing empty
      pieces removed. */
  function Split(s: string, c: char): seq<string> {
    if c !in s then [s] else DropTrailingEmpty(SplitPieces(s, c))
  }

  /** A string holding one separator, with a non-empty piece after it, splits
      into exactly the two pieces around it. */
  lemma SplitOnce(a: string, b: string, c: char)
    requires c !in a && c !in b && |b| > 0
    ensures Split(a + [c] + b, c) == [a, b]
  {
    var s := a + [c] + b;
    assert s[|a|] == c;
    var i := IndexOf(s, c);
    assert s[..|a|] == a;
    assert s[..i] == a && s[i + 1..] == b;
    assert SplitPieces(s, c) == [a, b];
  }
}

=== FILE: node_state.dfy ===
/** The states of a resource-manager node and their human-readable
    descriptions, which `toString` prints and `parse` reads back. */
module NodeStates {
  import opened Wrappers
  import opened JavaLang

  datatype NodeState = Busy | Configuring | Deploying | Down | Free | Lost | ToBeRemoved

  /** The states in declaration order, as `values()` lists them. */
  const DeclaredStates: seq<NodeState> := [Busy, Configuring, Deploying, Down, Free, Lost, ToBeRemoved]

  /** `toString()`: the description the constant was declared with, a
      capital followed by lower-case text, unlike the constant's own name. */
  function Description(s: NodeState): (r: string)
    ensures |r| > 1 && 'A' <= r[0] <= 'Z' && 'a' <= r[1] <= 'z'
  {
    match s
    case Busy => "Busy"
    case Configuring => "Configuring"
    case Deploying => "Deploying"
    case Down => "Down"
    case Free => "Free"
    case Lost => "Lost"
    case ToBeRemoved => "To be removed"
  }

  /** The first state of `states` whose description equals `value`. */
  function FirstDescribed(states: seq<NodeState>, value: string): (r: Option<NodeState>)
    ensures r.Some? ==> r.value in states && Description(r.value) == value
    ensures r.None? ==> forall i :: 0 <= i < |states| ==> Description(states[i]) != value
    decreases |states|
  {
    if |states| == 0 then None
    else if Description(states[0]) == value then Some(states[0])
    else FirstDescribed(states[1..], value)
  }

  /** `parse(value)`: the state described by `value`, compared exactly;
      IllegalArgumentException when no description matches. */
  function Parse(value: string): (r: Result<NodeState, Exception>)
    ensures r.Success? ==> Description(r.value) == value
    ensures r.Failure? ==> r.error == IllegalArgumentException
  {
    match FirstDescribed(DeclaredStates, value)
    case Some(s) => Success(s)
    case None => Failure(IllegalArgumentException)
  }

  lemma EveryStateDeclared(s: NodeState)
    ensures s in DeclaredStates
  {
    match s
    case Busy => assert DeclaredStates[0] == s;
    case Configuring => assert DeclaredStates[1] == s;
    case Deploying => assert DeclaredStates[2] == s;
    case Down => assert DeclaredStates[3] == s;
    case Free => assert DeclaredStates[4] == s;
    case Lost => assert DeclaredStates[5] == s;
    case ToBeRemoved => assert DeclaredStates[6] == s;
  }

  /** No two states share a description. */
  lemma DescriptionsDistinct(a: NodeState, b: NodeState)
    ensures Description(a) == Description(b) ==> a == b
  {
  }

  /** `parse` fails exactly on the strings that describe no state. */
  lemma ParseFailsIffUndescribed(value: string)
    ensures Parse(value).Failure? <==> forall s: NodeState :: Description(s) != value
  {
    if Parse(value).Failure? {
      forall s: NodeState
        ensures Description(s) != value
      {
        EveryStateDeclared(s);
        var i :| 0 <= i < |DeclaredStates| && DeclaredStates[i] == s;
      }
    }
  }

  /** Reading a state's description back gives the state. */
  lemma ParseDescription(s: NodeState)
    ensures Parse(Description(s)) == Success(s)
  {
    ParseFailsIffUndescribed(Description(s));
    DescriptionsDistinct(s, Parse(Description(s)).value);
  }

  /** Only the descriptions are accepted, not the constant names. */
  lemma ParseIsExact()
    ensures Parse("BUSY").Failure? && Parse("Busy") == Success(Busy)
    ensures Parse("TO_BE_REMOVED").Failure? && Description(ToBeRemoved) == "To be removed"
  {
    Undescribed("BUSY");
    Undescribed("TO_BE_REMOVED");
    ParseDescription(Busy);
  }

  /** A string in capitals with no blank describes no state. */
  lemma Undescribed(value: string)
    requires |value| > 1 && forall i :: 0 <= i < |value| ==> 'A' <= value[i] <= 'Z' || value[i] == '_'
    ensures Parse(value).Failure?
  {
    forall s: NodeState
      ensures Description(s) != value
    {
      assert Description(s)[1] != value[1];
    }
    ParseFailsIffUndescribed(value);
  }
}

=== FILE: reconstruction.dfy ===
/** The second half of `replicateTree`: after the clones are in the
    accumulator, `internalReconstructTree` walks upstream again from the
    initiating task and links the clone of each task it visits to the clones
    of that task's upstream tasks (see `Rebuilt`). A parent that has no clone
    is skipped by following first hard dependencies down to one that has. */
module Reconstruction {
  import opened Wrappers
  import opened JavaLang
  import opened TaskName
  import opened InternalTask
  import opened TaskGraph
  import opened Replication

  /** Which field of the clone the links of a task go to (`deptype`). */
  datatype LinkKind = HardLink | IfLink | JoinLink

  /** The IF task wins over a two-way join, which wins over hard
      dependencies. */
  function KindOf(t: Task): (k: LinkKind)
    ensures k == IfLink <==> t.ifBranch.Some?
    ensures k == JoinLink <==> t.ifBranch.None? && t.joinedBranches.Some? && |t.joinedBranches.value| == 2
  {
    if t.ifBranch.Some? then IfLink
    else if t.joinedBranches.Some? && |t.joinedBranches.value| == 2 then JoinLink
    else HardLink
  }

  /** The upstream tasks whose clones the clone of `id` is linked to, in the
      order they are linked. */
  function UpstreamLinks(g: Graph, id: TaskId): (ps: seq<TaskId>)
    requires Valid(g) && id in g.tasks
    ensures forall i :: 0 <= i < |ps| ==> ps[i] in g.tasks && g.rank[ps[i]] < g.rank[id]
  {
    var t := g.tasks[id];
    LinksInGraph(g, id);
    if t.ifBranch.Some? then
      assert t.ifBranch.value in Parents(t);
      [t.ifBranch.value]
    else if t.joinedBranches.Some? && |t.joinedBranches.value| == 2 then
      assert t.joinedBranches.value[0] in Parents(t) && t.joinedBranches.value[1] in Parents(t);
      JoinLinks(g, t)
    else
      HardLinks(g, t)
  }

  /** The two branches of a join, keyed by ambiguous name: when both share a
      name the second replaces the first. */
  function JoinLinks(g: Graph, t: Task): (ps: seq<TaskId>)
    requires NamesParse(g) && t.joinedBranches.Some? && |t.joinedBranches.value| == 2
    requires InGraph(g, t.joinedBranches.value)
    ensures var jb := t.joinedBranches.value;
            && (ps == [jb[1]] || ps == [jb[0], jb[1]])
            && (|ps| == 2 <==> AmbiguousNameOf(g, jb[0]) != AmbiguousNameOf(g, jb[1]))
  {
    var jb := t.joinedBranches.value;
    if AmbiguousNameOf(g, jb[0]) == AmbiguousNameOf(g, jb[1]) then [jb[1]] else [jb[0], jb[1]]
  }

  /** The hard dependencies, one per ambiguous name, of lowest replication
      index. */
  function HardLinks(g: Graph, t: Task): (ps: seq<TaskId>)
    requires NamesParse(g) && InGraph(g, HardList(t))
    ensures forall i :: 0 <= i < |ps| ==> ps[i] in HardList(t) && ps[i] in Parents(t)
    ensures InGraph(g, ps)
    ensures OnePerName(g, ps)
    ensures CoversNames(g, HardList(t), ps)
    ensures LowestReplications(g, HardList(t), ps)
    ensures FirstOfTies(g, HardList(t), ps)
  {
    SelectLowestReplicationSpec(g, HardList(t));
    var ps := SelectLowestReplication(g, HardList(t));
    forall i | 0 <= i < |ps|
      ensures ps[i] in HardList(t) && ps[i] in Parents(t)
    {
      assert ps[i] in ps;
      var j :| 0 <= j < |HardList(t)| && HardList(t)[j] == ps[i];
    }
    ps
  }

  // ---------------------------------------------------------------------------
  // Skipping parents that have no clone

  /** The `while` loop of `internalReconstructTree`: from a parent with no
      clone, follow first hard dependencies until a task whose clone is
      present. A task without hard dependencies on the way makes
      `getIDependences()` return null, and the `get(0)` on it throws. */
  function CollapseWalk(g: Graph, present: set<TaskId>, p: TaskId): (r: Result<TaskId, Exception>)
    requires Ranked(g) && p in g.tasks
    ensures r.Success? ==> r.value in present && r.value in g.tasks && g.rank[r.value] <= g.rank[p]
    ensures p in present ==> r == Success(p)
    ensures r.Failure? ==> r.error == NullPointerException
    decreases g.rank[p]
  {
    if p in present then Success(p)
    else
      var t := g.tasks[p];
      if !HasDependences(t) then Failure(NullPointerException)
      else
        assert HardList(t)[0] in Parents(t);
        CollapseWalk(g, present, HardList(t)[0])
  }

  /** The task the walk stops at lies upstream of where it started. */
  lemma {:induction false} CollapseWalkReaches(g: Graph, present: set<TaskId>, p: TaskId)
    requires Ranked(g) && p in g.tasks
    requires CollapseWalk(g, present, p).Success?
    ensures Reaches(g, p, CollapseWalk(g, present, p).value)
    decreases g.rank[p]
  {
    if p !in present {
      var t := g.tasks[p];
      var x := HardList(t)[0];
      assert x in Parents(t);
      CollapseWalkReaches(g, present, x);
    }
  }

  /** The walk fails exactly when it meets, before any present task, a task
      without hard dependencies. */
  lemma {:induction false} CollapseWalkFails(g: Graph, present: set<TaskId>, p: TaskId)
    requires Ranked(g) && p in g.tasks
    ensures CollapseWalk(g, present, p).Failure? <==> StrandedWalk(g, present, p)
    decreases g.rank[p]
  {
    if p !in present && HasDependences(g.tasks[p]) {
      assert HardList(g.tasks[p])[0] in Parents(g.tasks[p]);
      CollapseWalkFails(g, present, HardList(g.tasks[p])[0]);
    }
  }

  /** Following first hard dependencies from `p` without meeting a present
      task ends at a task that has none. */
  predicate StrandedWalk(g: Graph, present: set<TaskId>, p: TaskId)
    requires Ranked(g) && p in g.tasks
    decreases g.rank[p]
  {
    && p !in present
    && (|HardList(g.tasks[p])| == 0 ||
        (assert HardList(g.tasks[p])[0] in Parents(g.tasks[p]);
         StrandedWalk(g, present, HardList(g.tasks[p])[0])))
  }

  /** The task the recursion continues from after linking `p` to the clone
      of `id`: the task the walk stops at when `p` was skipped, else `p`. */
  function Continuation(g: Graph, keys: set<TaskId>, id: TaskId, p: TaskId): (q: TaskId)
    requires Ranked(g) && p in g.tasks
    ensures q in g.tasks && g.rank[q] <= g.rank[p]
    ensures id !in keys || p in keys ==> q == p
  {
    if id in keys && p !in keys && CollapseWalk(g, keys, p).Success? then CollapseWalk(g, keys, p).value else p
  }

  // ---------------------------------------------------------------------------
  // Linking one clone to one clone

  /** Some id of `ds` has a clone in `m` named `name`: the `hasit` check,
      which compares names because the clones' ids are not usable yet. */
  predicate HasNamedIn(m: map<TaskId, Task>, ds: seq<TaskId>, name: string) {
    exists j :: 0 <= j < |ds| && ds[j] in m && m[ds[j]].name == name
  }

  /** `b` is `a` with link lists that have only grown at their end. */
  predicate LinksGrow(a: Task, b: Task) {
    && b == a.(ideps := b.ideps, joinedBranches := b.joinedBranches, ifBranch := b.ifBranch)
    && HardList(a) <= HardList(b)
    && JoinedList(a) <= JoinedList(b)
  }

  /** Same clones, only their links grown. */
  predicate Grows(m1: map<TaskId, Task>, m2: map<TaskId, Task>) {
    m1.Keys == m2.Keys && forall k :: k in m1 ==> LinksGrow(m1[k], m2[k])
  }

  lemma GrowsTransitive(m1: map<TaskId, Task>, m2: map<TaskId, Task>, m3: map<TaskId, Task>)
    requires Grows(m1, m2) && Grows(m2, m3)
    ensures Grows(m1, m3)
  {
    forall k | k in m1
      ensures LinksGrow(m1[k], m3[k])
    {
      PrefixTransitive(HardList(m1[k]), HardList(m2[k]), HardList(m3[k]));
      PrefixTransitive(JoinedList(m1[k]), JoinedList(m2[k]), JoinedList(m3[k]));
    }
  }

  lemma PrefixTransitive(a: seq<TaskId>, b: seq<TaskId>, c: seq<TaskId>)
    requires a <= b && b <= c
    ensures a <= c
  {
    assert a == b[..|a|];
    assert b == c[..|b|];
    assert c[..|b|][..|a|] == c[..|a|];
  }

  /** The `switch (deptype)` of `internalReconstructTree` on the clone `nt`,
      for a parent `p` whose clone is present: a hard dependency or a joined
      branch is added unless one with the same name is already there; the IF
      task is overwritten. */
  function LinkTask(acc: map<TaskId, Task>, nt: Task, kind: LinkKind, p: TaskId): (r: Task)
    requires p in acc
    ensures LinksGrow(nt, r) && Parents(r) <= Parents(nt) + {p}
  {
    match kind
    case HardLink => LinkHard(acc, nt, p)
    case IfLink => LinkIf(nt, p)
    case JoinLink => LinkJoin(acc, nt, p)
  }

  /** Case 0: `p` becomes a hard dependency unless a clone of that name
      already is one. */
  function LinkHard(acc: map<TaskId, Task>, nt: Task, p: TaskId): (r: Task)
    requires p in acc
    ensures LinksGrow(nt, r) && Parents(r) <= Parents(nt) + {p}
    ensures HasNamedIn(acc, HardList(r), acc[p].name)
    ensures HardList(r) == HardList(nt) <==> HasNamedIn(acc, HardList(nt), acc[p].name)
    ensures HardList(r) != HardList(nt) ==> HardList(r) == HardList(nt) + [p]
    ensures r.joinedBranches == nt.joinedBranches && r.ifBranch == nt.ifBranch
  {
    if HasNamedIn(acc, HardList(nt), acc[p].name) then nt
    else
      var r := AddDependence(nt, p);
      assert HardList(r)[|HardList(nt)|] == p;
      r
  }

  /** Case 1: `p` is the IF task, whatever was there. */
  function LinkIf(nt: Task, p: TaskId): (r: Task)
    ensures LinksGrow(nt, r) && Parents(r) <= Parents(nt) + {p}
    ensures r.ifBranch == Some(p)
    ensures r.ideps == nt.ideps && r.joinedBranches == nt.joinedBranches
  {
    nt.(ifBranch := Some(p))
  }

  /** Case 2: the joined-branches list is created if missing, and `p` is
      appended unless a clone of that name is already a branch. */
  function LinkJoin(acc: map<TaskId, Task>, nt: Task, p: TaskId): (r: Task)
    requires p in acc
    ensures LinksGrow(nt, r) && Parents(r) <= Parents(nt) + {p}
    ensures r.joinedBranches.Some? && HasNamedIn(acc, JoinedList(r), acc[p].name)
    ensures JoinedList(r) == JoinedList(nt) <==> HasNamedIn(acc, JoinedList(nt), acc[p].name)
    ensures JoinedList(r) != JoinedList(nt) ==> JoinedList(r) == JoinedList(nt) + [p]
    ensures r.ideps == nt.ideps && r.ifBranch == nt.ifBranch
  {
    var jb := JoinedList(nt);
    if HasNamedIn(acc, jb, acc[p].name) then nt.(joinedBranches := Some(jb))
    else
      var r := nt.(joinedBranches := Some(jb + [p]));
      assert JoinedList(r)[|jb|] == p;
      r
  }

  /** Putting back a clone whose links grew towards `p`, itself in the
      accumulator, leaves the accumulator closed and every other entry
      alone. */
  lemma ReplaceGrows(acc: map<TaskId, Task>, id: TaskId, nt: Task, p: TaskId)
    requires Closed(acc) && id in acc && p in acc
    requires LinksGrow(acc[id], nt) && Parents(nt) <= Parents(acc[id]) + {p}
    ensures Grows(acc, acc[id := nt]) && Closed(acc[id := nt])
    ensures forall k :: k in acc && k != id ==> acc[id := nt][k] == acc[k]
  {
  }

  /** One iteration of the loop over the parents, before the recursive call:
      the link (a collapsed one when `p` has no clone, or none at all when the
      task itself has none) and the task the recursion continues from. */
  function LinkParent(g: Graph, acc: map<TaskId, Task>, id: TaskId, kind: LinkKind, p: TaskId)
    : (r: Result<(map<TaskId, Task>, TaskId), Exception>)
    requires Ranked(g) && p in g.tasks && Closed(acc)
    ensures r.Success? ==>
              && Grows(acc, r.value.0) && Closed(r.value.0)
              && (forall k :: k in acc && k != id ==> r.value.0[k] == acc[k])
              && r.value.1 in g.tasks && g.rank[r.value.1] <= g.rank[p]
              && r.value.1 == Continuation(g, acc.Keys, id, p)
              && (id in acc ==> Linked(g, acc.Keys, r.value.0, id, kind, p))
              && (id in acc ==> r.value.0[id].ifBranch == acc[id].ifBranch ||
                                (kind == IfLink && r.value.0[id].ifBranch == Some(p)))
    ensures r.Failure? ==> r.error == NullPointerException && id in acc && p !in acc
  {
    if id !in acc then Success((acc, p))
    else if p !in acc then
      var q :- CollapseWalk(g, acc.Keys, p);
      var nt := AddDependence(acc[id], q);
      assert HardList(nt)[|HardList(acc[id])|] == q;
      ReplaceGrows(acc, id, nt, q);
      Success((acc[id := nt], q))
    else
      var nt := LinkTask(acc, acc[id], kind, p);
      ReplaceGrows(acc, id, nt, p);
      LinkedByTask(g, acc, id, kind, p);
      Success((acc[id := nt], p))
  }

  /** The link `LinkTask` makes is the one `Linked` asks for. */
  lemma LinkedByTask(g: Graph, acc: map<TaskId, Task>, id: TaskId, kind: LinkKind, p: TaskId)
    requires Ranked(g) && p in g.tasks && id in acc && p in acc
    ensures Linked(g, acc.Keys, acc[id := LinkTask(acc, acc[id], kind, p)], id, kind, p)
  {
    var nt := LinkTask(acc, acc[id], kind, p);
    var m := acc[id := nt];
    if kind != IfLink {
      var ds := if kind == HardLink then HardList(nt) else JoinedList(nt);
      var j :| 0 <= j < |ds| && ds[j] in acc && acc[ds[j]].name == acc[p].name;
      if ds[j] == id || p == id {
        assert m[ds[j]].name == nt.name == acc[id].name;
      }
      assert m[ds[j]].name == m[p].name;
    }
  }

  /** What the reconstruction guarantees for the clone of `id` and one of
      its upstream tasks `p`: when `p` has no clone, the clone of the task the
      walk stops at is a hard dependency; otherwise a link of the right kind
      to a clone named like the clone of `p`. */
  predicate Linked(g: Graph, keys: set<TaskId>, m: map<TaskId, Task>, id: TaskId, kind: LinkKind, p: TaskId)
    requires Ranked(g) && p in g.tasks && id in m && m.Keys == keys
  {
    if p !in keys then
      CollapseWalk(g, keys, p).Success? && CollapseWalk(g, keys, p).value in HardList(m[id])
    else
      match kind
      case HardLink => HasNamedIn(m, HardList(m[id]), m[p].name)
      case JoinLink => HasNamedIn(m, JoinedList(m[id]), m[p].name)
      case IfLink => m[id].ifBranch == Some(p)
  }

  /** Growing links keep a link made; an IF link needs the field untouched
      or rewritten with the same task. */
  lemma LinkedPersists(g: Graph, m1: map<TaskId, Task>, m2: map<TaskId, Task>, id: TaskId, kind: LinkKind,
                       p: TaskId)
    requires Ranked(g) && p in g.tasks && id in m1
    requires Linked(g, m1.Keys, m1, id, kind, p) && Grows(m1, m2)
    requires kind == IfLink ==> m2[id].ifBranch == m1[id].ifBranch || m2[id].ifBranch == Some(p)
    ensures Linked(g, m1.Keys, m2, id, kind, p)
  {
    var a, b := m1[id], m2[id];
    assert HardList(a) == HardList(b)[..|HardList(a)|];
    assert JoinedList(a) == JoinedList(b)[..|JoinedList(a)|];
    if p in m1 && kind != IfLink {
      var ds1 := if kind == HardLink then HardList(a) else JoinedList(a);
      var ds2 := if kind == HardLink then HardList(b) else JoinedList(b);
      var j :| 0 <= j < |ds1| && ds1[j] in m1 && m1[ds1[j]].name == m1[p].name;
      assert ds2[j] == ds1[j];
      assert m2[ds1[j]].name == m1[ds1[j]].name && m2[p].name == m1[p].name;
    } else if p !in m1 {
      var q := CollapseWalk(g, m1.Keys, p).value;
      var i :| 0 <= i < |HardList(a)| && HardList(a)[i] == q;
      assert HardList(b)[i] == q;
    }
  }

  // ---------------------------------------------------------------------------
  // The recursion

  /** Entries of tasks ranked at or above `bound`, and entries of ids that are
      not tasks of the job, are left alone. */
  predicate UnchangedFrom(g: Graph, m1: map<TaskId, Task>, m2: map<TaskId, Task>, bound: nat) {
    forall k :: k in m1 && k in m2 && (k !in g.rank || g.rank[k] >= bound) ==> m2[k] == m1[k]
  }

  /** An IF task of a clone is only ever set to the IF task of its
      original. */
  predicate IfStable(g: Graph, m1: map<TaskId, Task>, m2: map<TaskId, Task>) {
    forall k :: k in m1 && k in m2 ==>
      m2[k].ifBranch == m1[k].ifBranch || (k in g.tasks && m2[k].ifBranch == g.tasks[k].ifBranch)
  }

  /** What any stretch of the reconstruction guarantees: the same clones
      with grown links, still closed, IF tasks set only as in the job,
      nothing changed at or above `bound`, and the target's clone
      untouched. */
  predicate Progress(g: Graph, target: TaskId, m1: map<TaskId, Task>, m2: map<TaskId, Task>, bound: nat) {
    && Grows(m1, m2) && Closed(m2) && IfStable(g, m1, m2)
    && UnchangedFrom(g, m1, m2, bound)
    && (target in m1 ==> m2[target] == m1[target])
  }

  lemma ProgressTransitive(g: Graph, target: TaskId, m1: map<TaskId, Task>, m2: map<TaskId, Task>,
                           m3: map<TaskId, Task>, bound: nat)
    requires Progress(g, target, m1, m2, bound) && Progress(g, target, m2, m3, bound)
    ensures Progress(g, target, m1, m3, bound)
  {
    GrowsTransitive(m1, m2, m3);
    IfStableTransitive(g, m1, m2, m3);
  }

  /** The links of every clone the reconstruction visits from `id`: unless
      `id` is the target, each upstream task of `id` is linked to the clone
      of `id` (when there is one), and the tree is rebuilt from where the
      recursion continues. */
  ghost predicate Rebuilt(g: Graph, target: TaskId, m: map<TaskId, Task>, id: TaskId)
    requires Valid(g) && id in g.tasks
    decreases g.rank[id]
  {
    id == target ||
    forall i :: 0 <= i < |UpstreamLinks(g, id)| ==>
      && (id in m ==> Linked(g, m.Keys, m, id, KindOf(g.tasks[id]), UpstreamLinks(g, id)[i]))
      && Rebuilt(g, target, m, Continuation(g, m.Keys, id, UpstreamLinks(g, id)[i]))
  }

  /** A rebuilt tree stays rebuilt while links only grow and IF tasks are set
      as in the job. */
  lemma {:induction false} RebuiltPersists(g: Graph, target: TaskId, m1: map<TaskId, Task>,
                                           m2: map<TaskId, Task>, id: TaskId)
    requires Valid(g) && id in g.tasks
    requires Grows(m1, m2) && IfStable(g, m1, m2) && Rebuilt(g, target, m1, id)
    ensures Rebuilt(g, target, m2, id)
    decreases g.rank[id]
  {
    if id != target {
      var ps := UpstreamLinks(g, id);
      var kind := KindOf(g.tasks[id]);
      assert kind == IfLink ==> ps == [g.tasks[id].ifBranch.value];
      forall i | 0 <= i < |ps|
        ensures id in m2 ==> Linked(g, m2.Keys, m2, id, kind, ps[i])
        ensures Rebuilt(g, target, m2, Continuation(g, m2.Keys, id, ps[i]))
      {
        if id in m1 {
          LinkedPersists(g, m1, m2, id, kind, ps[i]);
        }
        RebuiltPersists(g, target, m1, m2, Continuation(g, m1.Keys, id, ps[i]));
      }
    }
  }

  /** `internalReconstructTree` started at `id`: nothing to do at the
      target; otherwise each upstream task in turn is linked and then
      reconstructed itself (the task the walk stopped at, when it was
      skipped), unless it is the target. An exception from the walk
      propagates with the links made so far. */
  method Reconstruct(g: Graph, target: TaskId, acc: map<TaskId, Task>, id: TaskId)
    returns (r: Outcome<map<TaskId, Task>>)
    requires Valid(g) && id in g.tasks && Closed(acc)
    ensures Progress(g, target, acc, r.state, g.rank[id] + 1)
    ensures id == target ==> r == Returned(acc)
    ensures r.Threw? ==> r.error == NullPointerException
    ensures r.Returned? && id != target && id in acc ==>
              forall i :: 0 <= i < |UpstreamLinks(g, id)| ==>
                Linked(g, acc.Keys, r.state, id, KindOf(g.tasks[id]), UpstreamLinks(g, id)[i])
    ensures r.Returned? ==> Rebuilt(g, target, r.state, id)
    decreases g.rank[id], 3
  {
    if id == target {
      GrowsReflexive(acc);
      return Returned(acc);
    }
    var kind := KindOf(g.tasks[id]);
    var ps := UpstreamLinks(g, id);
    assert kind == IfLink ==> ps == [g.tasks[id].ifBranch.value];
    r := LinkAll(g, target, acc, id, kind, ps);
    if r.Returned? {
      RebuiltHere(g, target, acc, r.state, id);
    }
  }

  /** The loop over the upstream tasks of `id`, in order: each is linked to
      the clone of `id` and the tree is rebuilt from it. */
  method LinkAll(g: Graph, target: TaskId, acc: map<TaskId, Task>, id: TaskId, kind: LinkKind, ps: seq<TaskId>)
    returns (r: Outcome<map<TaskId, Task>>)
    requires Valid(g) && id in g.tasks && id != target && Closed(acc)
    requires forall j :: 0 <= j < |ps| ==> ps[j] in g.tasks && g.rank[ps[j]] < g.rank[id]
    requires kind == IfLink ==> |ps| == 1 && g.tasks[id].ifBranch == Some(ps[0])
    ensures Progress(g, target, acc, r.state, g.rank[id] + 1)
    ensures r.Threw? ==> r.error == NullPointerException
    ensures r.Returned? && id in acc ==> forall j :: 0 <= j < |ps| ==> Linked(g, acc.Keys, r.state, id, kind, ps[j])
    ensures r.Returned? ==> forall j :: 0 <= j < |ps| ==> Rebuilt(g, target, r.state, Continuation(g, acc.Keys, id, ps[j]))
    decreases g.rank[id], 2
  {
    var m: map<TaskId, Task> := acc;
    GrowsReflexive(acc);
    var i := 0;
    while i < |ps|
      invariant 0 <= i <= |ps|
      invariant Progress(g, target, acc, m, g.rank[id] + 1)
      invariant id in acc ==> forall j :: 0 <= j < i ==> Linked(g, acc.Keys, m, id, kind, ps[j])
      invariant forall j :: 0 <= j < i ==> Rebuilt(g, target, m, Continuation(g, acc.Keys, id, ps[j]))
    {
      var d := Turn(g, target, m, id, kind, ps[i]);
      ProgressTransitive(g, target, acc, m, d.state, g.rank[id] + 1);
      if d.Threw? {
        return d;
      }
      TurnKept(g, target, acc, m, d.state, id, kind, ps, i);
      m := d.state;
      i := i + 1;
    }
    return Returned(m);
  }

  /** One turn of the loop: link `p`, then reconstruct from it (from where
      the walk stopped, when `p` has no clone). */
  method Turn(g: Graph, target: TaskId, m: map<TaskId, Task>, id: TaskId, kind: LinkKind, p: TaskId)
    returns (d: Outcome<map<TaskId, Task>>)
    requires Valid(g) && id in g.tasks && id != target && Closed(m)
    requires p in g.tasks && g.rank[p] < g.rank[id]
    requires kind == IfLink ==> g.tasks[id].ifBranch == Some(p)
    ensures Progress(g, target, m, d.state, g.rank[id] + 1)
    ensures d.Threw? ==> d.error == NullPointerException
    ensures d.Returned? && id in m ==> Linked(g, m.Keys, d.state, id, kind, p)
    ensures d.Returned? ==> Rebuilt(g, target, d.state, Continuation(g, m.Keys, id, p))
    decreases g.rank[id], 1
  {
    var lp := LinkParent(g, m, id, kind, p);
    if lp.Failure? {
      GrowsReflexive(m);
      return Threw(m, lp.error);
    }
    var m1: map<TaskId, Task>, q: TaskId := lp.value.0, lp.value.1;
    d := Descend(g, target, m1, q, g.rank[id]);
    TurnCompose(g, target, m, m1, d.state, id, kind, p);
  }

  /** The recursive call, skipped at the target. */
  method Descend(g: Graph, target: TaskId, m: map<TaskId, Task>, q: TaskId, bound: nat)
    returns (d: Outcome<map<TaskId, Task>>)
    requires Valid(g) && q in g.tasks && g.rank[q] < bound && Closed(m)
    ensures Progress(g, target, m, d.state, bound)
    ensures d.Threw? ==> d.error == NullPointerException
    ensures d.Returned? ==> Rebuilt(g, target, d.state, q)
    decreases bound, 0
  {
    if q == target {
      GrowsReflexive(m);
      return Returned(m);
    }
    d := Reconstruct(g, target, m, q);
  }

  lemma GrowsReflexive(m: map<TaskId, Task>)
    ensures Grows(m, m)
  {
  }

  /** A link made on `id`, followed by a recursive call below `id`. */
  lemma TurnCompose(g: Graph, target: TaskId, m: map<TaskId, Task>, m1: map<TaskId, Task>,
                    m2: map<TaskId, Task>, id: TaskId, kind: LinkKind, p: TaskId)
    requires Ranked(g) && id in g.tasks && p in g.tasks && id != target
    requires Grows(m, m1) && Closed(m1)
    requires forall k :: k in m && k != id ==> m1[k] == m[k]
    requires id in m ==> m1[id].ifBranch == m[id].ifBranch || (kind == IfLink && m1[id].ifBranch == Some(p))
    requires kind == IfLink ==> g.tasks[id].ifBranch == Some(p)
    requires Progress(g, target, m1, m2, g.rank[id])
    requires id in m ==> Linked(g, m.Keys, m1, id, kind, p)
    ensures Progress(g, target, m, m2, g.rank[id] + 1)
    ensures id in m ==> Linked(g, m.Keys, m2, id, kind, p)
  {
    GrowsTransitive(m, m1, m2);
    LinkIfStable(g, m, m1, id, kind, p);
    IfStableTransitive(g, m, m1, m2);
    if id in m {
      assert m2[id] == m1[id];
      LinkedPersists(g, m1, m2, id, kind, p);
    }
  }

  /** Linking one clone keeps IF tasks as in the job. */
  lemma LinkIfStable(g: Graph, m: map<TaskId, Task>, m1: map<TaskId, Task>, id: TaskId, kind: LinkKind,
                     p: TaskId)
    requires id in g.tasks && m1.Keys == m.Keys
    requires forall k :: k in m && k != id ==> m1[k] == m[k]
    requires id in m ==> m1[id].ifBranch == m[id].ifBranch || (kind == IfLink && m1[id].ifBranch == Some(p))
    requires kind == IfLink ==> g.tasks[id].ifBranch == Some(p)
    ensures IfStable(g, m, m1)
  {
  }

  lemma IfStableTransitive(g: Graph, m1: map<TaskId, Task>, m2: map<TaskId, Task>, m3: map<TaskId, Task>)
    requires m1.Keys == m2.Keys && IfStable(g, m1, m2) && IfStable(g, m2, m3)
    ensures IfStable(g, m1, m3)
  {
  }

  /** The links made before a turn of the loop survive it. */
  lemma LinkedKept(g: Graph, acc: map<TaskId, Task>, m: map<TaskId, Task>, m2: map<TaskId, Task>,
                   id: TaskId, kind: LinkKind, ps: seq<TaskId>, i: nat)
    requires Ranked(g) && id in acc && i < |ps|
    requires forall j :: 0 <= j < |ps| ==> ps[j] in g.tasks
    requires kind == IfLink ==> |ps| == 1
    requires Grows(acc, m) && Grows(m, m2)
    requires forall j :: 0 <= j < i ==> Linked(g, acc.Keys, m, id, kind, ps[j])
    requires Linked(g, m.Keys, m2, id, kind, ps[i])
    ensures forall j :: 0 <= j <= i ==> Linked(g, acc.Keys, m2, id, kind, ps[j])
  {
    forall j | 0 <= j < i
      ensures Linked(g, acc.Keys, m2, id, kind, ps[j])
    {
      LinkedPersists(g, m, m2, id, kind, ps[j]);
    }
  }

  /** What the loop has established survives one more turn. */
  lemma TurnKept(g: Graph, target: TaskId, acc: map<TaskId, Task>, m: map<TaskId, Task>,
                 m2: map<TaskId, Task>, id: TaskId, kind: LinkKind, ps: seq<TaskId>, i: nat)
    requires Valid(g) && i < |ps| && forall j :: 0 <= j < |ps| ==> ps[j] in g.tasks
    requires kind == IfLink ==> |ps| == 1
    requires Grows(acc, m) && Grows(m, m2) && IfStable(g, m, m2)
    requires id in acc ==> forall j :: 0 <= j < i ==> Linked(g, acc.Keys, m, id, kind, ps[j])
    requires id in m ==> Linked(g, m.Keys, m2, id, kind, ps[i])
    requires forall j :: 0 <= j < i ==> Rebuilt(g, target, m, Continuation(g, acc.Keys, id, ps[j]))
    requires Rebuilt(g, target, m2, Continuation(g, m.Keys, id, ps[i]))
    ensures id in acc ==> forall j :: 0 <= j < i + 1 ==> Linked(g, acc.Keys, m2, id, kind, ps[j])
    ensures forall j :: 0 <= j < i + 1 ==> Rebuilt(g, target, m2, Continuation(g, acc.Keys, id, ps[j]))
  {
    if id in acc {
      LinkedKept(g, acc, m, m2, id, kind, ps, i);
    }
    RebuiltKept(g, target, acc, m, m2, id, ps, i);
  }

  /** The trees rebuilt before a turn of the loop survive it. */
  lemma RebuiltKept(g: Graph, target: TaskId, acc: map<TaskId, Task>, m: map<TaskId, Task>,
                    m2: map<TaskId, Task>, id: TaskId, ps: seq<TaskId>, i: nat)
    requires Valid(g) && i < |ps| && forall j :: 0 <= j < |ps| ==> ps[j] in g.tasks
    requires Grows(acc, m) && Grows(m, m2) && IfStable(g, m, m2)
    requires forall j :: 0 <= j < i ==> Rebuilt(g, target, m, Continuation(g, acc.Keys, id, ps[j]))
    requires Rebuilt(g, target, m2, Continuation(g, m.Keys, id, ps[i]))
    ensures forall j :: 0 <= j <= i ==> Rebuilt(g, target, m2, Continuation(g, acc.Keys, id, ps[j]))
  {
    var keys := acc.Keys;
    assert m.Keys == keys;
    forall j | 0 <= j <= i
      ensures Rebuilt(g, target, m2, Continuation(g, keys, id, ps[j]))
    {
      if j < i {
        RebuiltPersists(g, target, m, m2, Continuation(g, keys, id, ps[j]));
      }
    }
  }

  /** Every upstream task linked and rebuilt from: the tree is rebuilt from
      `id`. */
  lemma RebuiltHere(g: Graph, target: TaskId, acc: map<TaskId, Task>, m: map<TaskId, Task>, id: TaskId)
    requires Valid(g) && id in g.tasks && id != target && Grows(acc, m)
    requires id in acc ==> forall j :: 0 <= j < |UpstreamLinks(g, id)| ==>
               Linked(g, acc.Keys, m, id, KindOf(g.tasks[id]), UpstreamLinks(g, id)[j])
    requires forall j :: 0 <= j < |UpstreamLinks(g, id)| ==>
               Rebuilt(g, target, m, Continuation(g, acc.Keys, id, UpstreamLinks(g, id)[j]))
    ensures Rebuilt(g, target, m, id)
  {
    assert m.Keys == acc.Keys;
  }

  // ---------------------------------------------------------------------------
  // The recursion matters

  /** Three tasks in a chain: `c` depends on `b`, which depends on `a`. */
  function ChainGraph(): Graph {
    Graph(map[0 := Lone(0, "a"), 1 := Lone(1, "b").(ideps := Some([0])), 2 := Lone(2, "c").(ideps := Some([1]))],
          map[0 := 0, 1 := 1, 2 := 2])
  }

  lemma ChainGraphValid()
    ensures Valid(ChainGraph())
  {
    var g := ChainGraph();
    assert g.tasks.Keys == g.rank.Keys;
    ChainGraphNames();
    ChainGraphLinks();
  }

  lemma ChainGraphNames()
    ensures forall id :: id in ChainGraph().tasks ==>
              Id(ChainGraph().tasks[id]) == id && InitialName(ChainGraph().tasks[id].name).Success?
  {
    var g := ChainGraph();
    assert g.tasks.Keys == {0, 1, 2};
    InitialNameOfSingleLine("a");
    InitialNameOfSingleLine("b");
    InitialNameOfSingleLine("c");
  }

  lemma ChainGraphLinks()
    ensures forall id, p :: id in ChainGraph().tasks && p in Parents(ChainGraph().tasks[id]) ==>
              p in ChainGraph().tasks && p in ChainGraph().rank && id in ChainGraph().rank &&
              ChainGraph().rank[p] < ChainGraph().rank[id]
  {
    var g := ChainGraph();
    assert g.tasks.Keys == {0, 1, 2};
    assert Parents(g.tasks[2]) == {1};
    assert Parents(g.tasks[1]) == {0};
    assert Parents(g.tasks[0]) == {};
  }

  /** Clones of the chain where only the clone of `c` has been linked. */
  function HalfLinked(): map<TaskId, Task> {
    map[0 := Lone(0, "a"), 1 := Lone(1, "b"), 2 := Lone(2, "c").(ideps := Some([1]))]
  }

  /** Linking the start's clone alone does not rebuild the tree: the clone
      of `b`, which the reconstruction visits next, must be linked too. */
  lemma StartLinkedIsNotRebuilt()
    ensures Valid(ChainGraph())
    ensures Linked(ChainGraph(), HalfLinked().Keys, HalfLinked(), 2, HardLink, 1)
    ensures !Rebuilt(ChainGraph(), 3, HalfLinked(), 2)
  {
    StartLinked();
    StartNotRebuilt();
  }

  lemma StartLinked()
    ensures Valid(ChainGraph())
    ensures Linked(ChainGraph(), HalfLinked().Keys, HalfLinked(), 2, HardLink, 1)
  {
    ChainGraphValid();
    var m := HalfLinked();
    assert HardList(m[2])[0] == 1;
  }

  lemma StartNotRebuilt()
    ensures Valid(ChainGraph()) && !Rebuilt(ChainGraph(), 3, HalfLinked(), 2)
  {
    var g, m := ChainGraph(), HalfLinked();
    MiddleNotRebuilt();
    SoleHardLink(g, 2, 1);
    assert Continuation(g, m.Keys, 2, 1) == 1;
    NotRebuiltBelow(g, 3, m, 2, 0);
  }

  /** The clone of `b` has no link to the clone of `a`. */
  lemma MiddleNotRebuilt()
    ensures Valid(ChainGraph()) && !Rebuilt(ChainGraph(), 3, HalfLinked(), 1)
  {
    ChainGraphValid();
    var g, m := ChainGraph(), HalfLinked();
    SoleHardLink(g, 1, 0);
    assert !HasNamedIn(m, HardList(m[1]), m[0].name);
    assert !Linked(g, m.Keys, m, 1, HardLink, 0);
  }

  /** A task with one hard dependency and no other link is linked to it
      alone. */
  lemma SoleHardLink(g: Graph, id: TaskId, x: TaskId)
    requires Valid(g) && id in g.tasks
    requires g.tasks[id].ifBranch.None? && g.tasks[id].joinedBranches.None? && HardList(g.tasks[id]) == [x]
    ensures KindOf(g.tasks[id]) == HardLink && UpstreamLinks(g, id) == [x]
  {
    var t := g.tasks[id];
    assert UpstreamLinks(g, id) == HardLinks(g, t);
    SoleLink(g, t, x);
  }

  /** The links kept from a one-element dependence list are that list. */
  lemma SoleLink(g: Graph, t: Task, x: TaskId)
    requires NamesParse(g) && InGraph(g, HardList(t)) && HardList(t) == [x]
    ensures HardLinks(g, t) == [x]
  {
    var ps := HardLinks(g, t);
    assert |ps| > 0 by {
      assert x in HardList(t);
    }
    FirstTwoDiffer(g, ps);
    SameSingleton(ps, x);
  }

  /** A non-empty sequence of copies of `x` whose first two elements differ
      has only one. */
  lemma SameSingleton(ps: seq<TaskId>, x: TaskId)
    requires forall i :: 0 <= i < |ps| ==> ps[i] in [x]
    requires 0 < |ps| && (|ps| >= 2 ==> ps[0] != ps[1])
    ensures ps == [x]
  {
    assert ps[0] in [x];
  }

  /** Links that carry distinct names are distinct tasks. */
  lemma FirstTwoDiffer(g: Graph, ps: seq<TaskId>)
    requires NamesParse(g) && InGraph(g, ps) && OnePerName(g, ps)
    ensures |ps| >= 2 ==> ps[0] != ps[1]
  {
    if |ps| >= 2 {
      assert AmbiguousNameOf(g, ps[0]) != AmbiguousNameOf(g, ps[1]);
    }
  }

  /** A tree not rebuilt from where one link continues is not rebuilt from
      the task. */
  lemma NotRebuiltBelow(g: Graph, target: TaskId, m: map<TaskId, Task>, id: TaskId, i: nat)
    requires Valid(g) && id in g.tasks && i < |UpstreamLinks(g, id)|
    requires !Rebuilt(g, target, m, Continuation(g, m.Keys, id, UpstreamLinks(g, id)[i]))
    ensures id == target || !Rebuilt(g, target, m, id)
  {
  }
}

=== FILE: replication.dfy ===
/** The clone pass of `replicateTree`: walking upstream from a task, every task
    met is replicated once into an accumulator keyed by the original's id,
    until the target task of the LOOP or REPLICATE action is met. Then the
    clones are thinned out to one per ambiguous name. */
module Replication {
  import opened Wrappers
  import opened JavaLang
  import opened TaskName
  import opened InternalTask
  import opened TaskGraph
  import opened Selection

  /** Every id of `ids` is a task of `g`. */
  predicate InGraph(g: Graph, ids: seq<TaskId>) {
    forall i :: 0 <= i < |ids| ==> ids[i] in g.tasks
  }

  function AmbiguousNameOf(g: Graph, id: TaskId): string
    requires NamesParse(g) && id in g.tasks
  {
    AmbiguousName(g.tasks[id])
  }

  function ReplicationOf(g: Graph, id: TaskId): Index
    requires id in g.tasks
  {
    g.tasks[id].replication
  }

  /** What `Valid` says about the links of one task. */
  lemma LinksInGraph(g: Graph, id: TaskId)
    requires Valid(g) && id in g.tasks
    ensures NamesParse(g)
    ensures InGraph(g, HardList(g.tasks[id])) && InGraph(g, JoinedList(g.tasks[id]))
    ensures forall p :: p in Parents(g.tasks[id]) ==> p in g.tasks && g.rank[p] < g.rank[id]
  {
  }

  /** The hard parents `ids` as the filter sees them: id, ambiguous name,
      replication index. */
  function Candidates(g: Graph, ids: seq<TaskId>): (cs: seq<Candidate<string>>)
    requires NamesParse(g) && InGraph(g, ids)
    ensures |cs| == |ids|
    ensures forall i :: 0 <= i < |ids| ==>
              cs[i] == Candidate(ids[i], AmbiguousNameOf(g, ids[i]), ReplicationOf(g, ids[i]))
    decreases |ids|
  {
    if |ids| == 0 then []
    else [Candidate(ids[0], AmbiguousNameOf(g, ids[0]), ReplicationOf(g, ids[0]))] + Candidates(g, ids[1..])
  }

  function Ids(cs: seq<Candidate<string>>): (r: seq<TaskId>)
    ensures |r| == |cs| && forall i :: 0 <= i < |cs| ==> r[i] == cs[i].id
    decreases |cs|
  {
    if |cs| == 0 then [] else [cs[0].id] + Ids(cs[1..])
  }

  /** No two ids of `r` share an ambiguous name. */
  predicate OnePerName(g: Graph, r: seq<TaskId>)
    requires NamesParse(g) && InGraph(g, r)
  {
    forall i, j :: 0 <= i < j < |r| ==> AmbiguousNameOf(g, r[i]) != AmbiguousNameOf(g, r[j])
  }

  /** Every ambiguous name among `ids` is carried by some id of `r`. */
  predicate CoversNames(g: Graph, ids: seq<TaskId>, r: seq<TaskId>)
    requires NamesParse(g) && InGraph(g, ids) && InGraph(g, r)
  {
    forall x :: x in ids ==> exists i :: 0 <= i < |r| && AmbiguousNameOf(g, r[i]) == AmbiguousNameOf(g, x)
  }

  /** Each id of `r` has the lowest replication index among the ids of `ids`
      sharing its ambiguous name. */
  predicate LowestReplications(g: Graph, ids: seq<TaskId>, r: seq<TaskId>)
    requires NamesParse(g) && InGraph(g, ids) && InGraph(g, r)
  {
    forall i, x :: 0 <= i < |r| && x in ids && AmbiguousNameOf(g, x) == AmbiguousNameOf(g, r[i]) ==>
      ReplicationOf(g, r[i]) <= ReplicationOf(g, x)
  }

  /** Of the ids of `ids` that tie an id of `r` on ambiguous name and
      replication index, none comes before that id's first appearance. */
  predicate FirstOfTies(g: Graph, ids: seq<TaskId>, r: seq<TaskId>)
    requires NamesParse(g) && InGraph(g, ids) && InGraph(g, r)
  {
    forall i, k :: 0 <= i < |r| && 0 <= k < |ids| && AmbiguousNameOf(g, ids[k]) == AmbiguousNameOf(g, r[i]) &&
                   ReplicationOf(g, ids[k]) == ReplicationOf(g, r[i]) ==>
      r[i] in ids[..k + 1]
  }

  /** The hard parents followed from a task, one per ambiguous name (see
      SelectLowestReplicationSpec). */
  function SelectLowestReplication(g: Graph, ids: seq<TaskId>): (r: seq<TaskId>)
    requires NamesParse(g) && InGraph(g, ids)
    ensures forall x :: x in r ==> x in ids
    ensures InGraph(g, r)
  {
    var s := SelectLowest(Candidates(g, ids));
    SurvivorsDescribed(g, ids, Candidates(g, ids), s, Ids(s));
    Ids(s)
  }

  /** Among the hard parents sharing an ambiguous name exactly one is
      followed: one of lowest replication index, the first in list order
      when several have it. */
  lemma SelectLowestReplicationSpec(g: Graph, ids: seq<TaskId>)
    requires NamesParse(g) && InGraph(g, ids)
    ensures InGraph(g, SelectLowestReplication(g, ids))
    ensures OnePerName(g, SelectLowestReplication(g, ids))
    ensures CoversNames(g, ids, SelectLowestReplication(g, ids))
    ensures LowestReplications(g, ids, SelectLowestReplication(g, ids))
    ensures FirstOfTies(g, ids, SelectLowestReplication(g, ids))
  {
    var cs := Candidates(g, ids);
    var s := SelectLowest(cs);
    var r := Ids(s);
    assert SelectLowestReplication(g, ids) == r;
    SurvivorsDescribed(g, ids, cs, s, r);
    SurvivorsCover(g, ids, cs, s, r);
    SurvivorsLowest(g, ids, cs, s, r);
    SelectLowestKeepsFirst(cs);
    SurvivorsFirst(g, ids, cs, s, r);
  }

  /** `s` lists candidates of `ids`, and `r` their ids. */
  predicate Describes(g: Graph, ids: seq<TaskId>, s: seq<Candidate<string>>, r: seq<TaskId>)
    requires NamesParse(g)
  {
    && |r| == |s|
    && forall i :: 0 <= i < |s| ==>
         r[i] in ids && r[i] in g.tasks &&
         s[i] == Candidate(r[i], AmbiguousNameOf(g, r[i]), ReplicationOf(g, r[i]))
  }

  lemma SurvivorsDescribed(g: Graph, ids: seq<TaskId>, cs: seq<Candidate<string>>, s: seq<Candidate<string>>,
                           r: seq<TaskId>)
    requires NamesParse(g) && InGraph(g, ids)
    requires cs == Candidates(g, ids) && (forall c :: c in s ==> c in cs) && r == Ids(s)
    ensures Describes(g, ids, s, r)
  {
    forall i | 0 <= i < |s|
      ensures r[i] in ids && r[i] in g.tasks
      ensures s[i] == Candidate(r[i], AmbiguousNameOf(g, r[i]), ReplicationOf(g, r[i]))
    {
      assert s[i] in cs;
      var j :| 0 <= j < |cs| && cs[j] == s[i];
      assert r[i] == ids[j];
    }
  }

  lemma SurvivorsCover(g: Graph, ids: seq<TaskId>, cs: seq<Candidate<string>>, s: seq<Candidate<string>>,
                       r: seq<TaskId>)
    requires NamesParse(g) && InGraph(g, ids)
    requires cs == Candidates(g, ids) && CoversKeys(cs, s) && DistinctKeys(s)
    requires Describes(g, ids, s, r)
    ensures OnePerName(g, r) && CoversNames(g, ids, r)
  {
    forall i, j | 0 <= i < j < |r|
      ensures AmbiguousNameOf(g, r[i]) != AmbiguousNameOf(g, r[j])
    {
      assert s[i].key != s[j].key;
    }
    forall x | x in ids
      ensures exists i :: 0 <= i < |r| && AmbiguousNameOf(g, r[i]) == AmbiguousNameOf(g, x)
    {
      var j :| 0 <= j < |ids| && ids[j] == x;
      assert cs[j] in cs;
      var i :| 0 <= i < |s| && s[i].key == cs[j].key;
      assert AmbiguousNameOf(g, r[i]) == AmbiguousNameOf(g, x);
    }
  }

  lemma SurvivorsLowest(g: Graph, ids: seq<TaskId>, cs: seq<Candidate<string>>, s: seq<Candidate<string>>,
                        r: seq<TaskId>)
    requires NamesParse(g) && InGraph(g, ids)
    requires cs == Candidates(g, ids) && LowestIndices(cs, s)
    requires Describes(g, ids, s, r)
    ensures LowestReplications(g, ids, r)
  {
    forall i, x | 0 <= i < |r| && x in ids && AmbiguousNameOf(g, x) == AmbiguousNameOf(g, r[i])
      ensures ReplicationOf(g, r[i]) <= ReplicationOf(g, x)
    {
      var j :| 0 <= j < |ids| && ids[j] == x;
      assert cs[j] in cs;
      assert cs[j].key == s[i].key;
    }
  }

  lemma SurvivorsFirst(g: Graph, ids: seq<TaskId>, cs: seq<Candidate<string>>, s: seq<Candidate<string>>,
                       r: seq<TaskId>)
    requires NamesParse(g) && InGraph(g, ids)
    requires cs == Candidates(g, ids) && EarliestOfTies(cs, s)
    requires Describes(g, ids, s, r)
    ensures FirstOfTies(g, ids, r)
  {
    forall i, k | 0 <= i < |r| && 0 <= k < |ids| && AmbiguousNameOf(g, ids[k]) == AmbiguousNameOf(g, r[i]) &&
                  ReplicationOf(g, ids[k]) == ReplicationOf(g, r[i])
      ensures r[i] in ids[..k + 1]
    {
      assert cs[k].key == s[i].key && cs[k].index == s[i].index;
      assert s[i] in cs[..k + 1];
      var m :| 0 <= m <= k && cs[m] == s[i];
      assert ids[..k + 1][m] == ids[m] == r[i];
    }
  }

  // ---------------------------------------------------------------------------
  // One clone

  /** What the clone pass stores for one task: its replica, whose iteration
      index, in loop mode, is the original's plus one (Java `int` addition).
      Setting that index renames the replica: an index that wraps below 0
      and an overlong name are IllegalArgumentException, and an unreadable
      matching block or flow target raises what `setName` raises. */
  function ReplicaOf(t: Task, loop: bool, copied: bool): (r: Result<Task, Exception>)
    requires InitialName(t.name).Success?
    ensures !copied ==> r == Failure(ExecutableCreationException)
    ensures copied && !loop ==> r.Success? && IsResetReplica(t, r.value)
    ensures copied && loop && t.iteration == MaxInt32 ==> r == Failure(IllegalArgumentException)
    ensures copied && loop && t.iteration < MaxInt32 ==>
              var base := RenameBase(InitialName(t.name).value);
              var suffix := Suffix(t.iteration + 1, t.replication);
              && (NameTooLong(base, suffix) ==> r == Failure(IllegalArgumentException))
              && (!NameTooLong(base, suffix) ==>
                    (r.Success? <==> BlockReadable(t.matchingBlock) && TargetsReadable(t.flowScript)))
              && (r.Success? ==> r.value.name == base + suffix)
    ensures r.Failure? ==>
              || r.error == ExecutableCreationException || r.error == IllegalArgumentException
              || r.error == NullPointerException || r.error == RuntimeException
    ensures r.Success? ==>
              && Id(r.value) == Id(t) && r.value.replicatedFrom == Some(Id(t))
              && r.value.ideps.None? && r.value.joinedBranches.None? && r.value.ifBranch.None?
              && r.value.info.executionsLeft == t.maxExecutions
              && r.value.info.executionsOnFailureLeft == t.maxExecutionsOnFailure
              && r.value.replication == t.replication
              && r.value.iteration == (if loop then t.iteration + 1 else t.iteration)
              && InitialName(r.value.name).Success?
  {
    var c :- Replicate(t, copied);
    if !loop then Success(c)
    else
      LoopRenameOutcome(t, c);
      match SetIterationIndex(c, AddInt32(t.iteration, 1))
      case Threw(_, e) => Failure(e)
      case Returned(c') => Success(c')
  }

  /** What setting the next iteration index does to a reset replica. */
  lemma LoopRenameOutcome(t: Task, c: Task)
    requires InitialName(t.name).Success? && IsResetReplica(t, c)
    ensures var o := SetIterationIndex(c, AddInt32(t.iteration, 1));
            && (t.iteration == MaxInt32 ==> o.Threw? && o.error == IllegalArgumentException)
            && (o.Threw? ==> o.error == IllegalArgumentException || o.error == NullPointerException ||
                             o.error == RuntimeException)
            && (o.Returned? ==> IsRenamedReplica(t, o.state))
    ensures t.iteration < MaxInt32 ==>
              var o := SetIterationIndex(c, t.iteration + 1);
              var base := RenameBase(InitialName(t.name).value);
              var suffix := Suffix(t.iteration + 1, t.replication);
              && (NameTooLong(base, suffix) ==> o.Threw? && o.error == IllegalArgumentException)
              && (!NameTooLong(base, suffix) ==>
                    (o.Returned? <==> BlockReadable(t.matchingBlock) && TargetsReadable(t.flowScript)))
              && (o.Returned? ==> o.state.name == base + suffix)
  {
    var o := SetIterationIndex(c, AddInt32(t.iteration, 1));
    if o.Returned? {
      LoopRenameReturns(t, c);
    }
    if t.iteration < MaxInt32 {
      LoopRenameCases(t, c);
    }
  }

  lemma LoopRenameReturns(t: Task, c: Task)
    requires InitialName(t.name).Success? && IsResetReplica(t, c)
    requires SetIterationIndex(c, AddInt32(t.iteration, 1)).Returned?
    ensures IsRenamedReplica(t, SetIterationIndex(c, AddInt32(t.iteration, 1)).state)
  {
    var o := SetIterationIndex(c, AddInt32(t.iteration, 1));
    SingleLineNameParses(RenameBase(InitialName(c.name).value), NameSuffix(o.state));
  }

  lemma LoopRenameCases(t: Task, c: Task)
    requires InitialName(t.name).Success? && IsResetReplica(t, c) && t.iteration < MaxInt32
    ensures var o := SetIterationIndex(c, t.iteration + 1);
            var base := RenameBase(InitialName(t.name).value);
            var suffix := Suffix(t.iteration + 1, t.replication);
            && (NameTooLong(base, suffix) ==> o.Threw? && o.error == IllegalArgumentException)
            && (!NameTooLong(base, suffix) ==>
                  (o.Returned? <==> BlockReadable(t.matchingBlock) && TargetsReadable(t.flowScript)))
            && (o.Returned? ==> o.state.name == base + suffix)
  {
  }

  /** The replica after its iteration index was raised: reset links and
      budgets, one iteration further, and a readable name. */
  predicate IsRenamedReplica(t: Task, c: Task) {
    && Id(c) == Id(t) && c.replicatedFrom == Some(Id(t))
    && c.ideps.None? && c.joinedBranches.None? && c.ifBranch.None?
    && c.info.executionsLeft == t.maxExecutions
    && c.info.executionsOnFailureLeft == t.maxExecutionsOnFailure
    && c.replication == t.replication && c.iteration == t.iteration + 1
    && InitialName(c.name).Success?
  }

  // ---------------------------------------------------------------------------
  // The clone pass

  /** The tasks `internalReplicateTree` moves on to from `id`: the hard
      dependencies, one per ambiguous name, then the joined branches, then the
      IF task. The target is not expanded. */
  function CloneParents(g: Graph, target: TaskId, id: TaskId): (ps: seq<TaskId>)
    requires Valid(g) && id in g.tasks
    ensures forall i :: 0 <= i < |ps| ==> ps[i] in Parents(g.tasks[id])
    ensures forall i :: 0 <= i < |ps| ==> ps[i] in g.tasks && g.rank[ps[i]] < g.rank[id]
    ensures id == target ==> ps == []
  {
    if id == target then []
    else
      var t := g.tasks[id];
      LinksInGraph(g, id);
      var hard := SelectLowestReplication(g, HardList(t));
      ListedAreParents(t, hard);
      FollowOrder(t, hard)
  }

  /** The selected hard dependencies, then the joined branches, then the IF
      task. */
  function FollowOrder(t: Task, hard: seq<TaskId>): seq<TaskId> {
    hard + JoinedList(t) + (if t.ifBranch.Some? then [t.ifBranch.value] else [])
  }

  lemma ListedAreParents(t: Task, hard: seq<TaskId>)
    requires forall x :: x in hard ==> x in HardList(t)
    ensures forall i :: 0 <= i < |FollowOrder(t, hard)| ==> FollowOrder(t, hard)[i] in Parents(t)
  {
    var ps := FollowOrder(t, hard);
    forall i | 0 <= i < |ps|
      ensures ps[i] in Parents(t)
    {
      if i < |hard| {
        assert hard[i] in hard;
      } else if i < |hard| + |JoinedList(t)| {
        assert ps[i] == JoinedList(t)[i - |hard|];
      }
    }
  }

  /** The walk of the clone pass with the graph read off: the rank of every
      task and the tasks the pass moves on to from it. */
  datatype Walk = Walk(rank: map<TaskId, nat>, next: map<TaskId, seq<TaskId>>)

  /** Every step of the walk leads to a walked task of strictly lower rank. */
  predicate WalkOk(w: Walk) {
    forall id, i :: id in w.next && 0 <= i < |w.next[id]| ==>
      id in w.rank && w.next[id][i] in w.next && w.next[id][i] in w.rank && w.rank[w.next[id][i]] < w.rank[id]
  }

  /** The walk `internalReplicateTree` performs on `g` towards `target`. */
  function CloneWalk(g: Graph, target: TaskId): (w: Walk)
    requires Valid(g)
    ensures WalkOk(w) && w.next.Keys == g.tasks.Keys && w.rank == g.rank
    ensures forall id :: id in g.tasks ==> w.next[id] == CloneParents(g, target, id)
  {
    Walk(g.rank, map id | id in g.tasks :: CloneParents(g, target, id))
  }

  /** `k` is met by the walk started at `a`. */
  ghost predicate Reach(w: Walk, a: TaskId, k: TaskId)
    requires WalkOk(w) && a in w.next && a in w.rank
    decreases w.rank[a]
  {
    a == k || exists i :: 0 <= i < |w.next[a]| && Reach(w, w.next[a][i], k)
  }

  /** `k` is met by the walk started at some element of `ids`. */
  ghost predicate ReachFrom(w: Walk, ids: seq<TaskId>, k: TaskId)
    requires WalkOk(w) && forall i :: 0 <= i < |ids| ==> ids[i] in w.next && ids[i] in w.rank
  {
    exists i :: 0 <= i < |ids| && Reach(w, ids[i], k)
  }

  /** `m` keeps every entry of `acc`. */
  predicate Extends(acc: map<TaskId, Task>, m: map<TaskId, Task>) {
    acc.Keys <= m.Keys && forall k :: k in acc ==> m[k] == acc[k]
  }

  /** The entries added to `acc` are the tasks' clones. */
  predicate AddedAreClones(clones: map<TaskId, Result<Task, Exception>>, acc: map<TaskId, Task>,
                           m: map<TaskId, Task>) {
    forall k :: k in m && k !in acc ==> k in clones && clones[k] == Success(m[k])
  }

  /** The entries added to `acc` are of tasks the walk meets from `from`. */
  ghost predicate AddedAreReached(w: Walk, acc: map<TaskId, Task>, m: map<TaskId, Task>, from: seq<TaskId>)
    requires WalkOk(w) && forall i :: 0 <= i < |from| ==> from[i] in w.next && from[i] in w.rank
  {
    forall k :: k in m && k !in acc ==> ReachFrom(w, from, k)
  }

  /** Every entry added has the tasks the walk moves on to in `m`. */
  predicate AddedAreExpanded(w: Walk, acc: map<TaskId, Task>, m: map<TaskId, Task>) {
    forall k, i :: k in m && k !in acc && k in w.next && 0 <= i < |w.next[k]| ==> w.next[k][i] in m
  }

  /** `internalReplicateTree`: a task already in the accumulator is skipped;
      otherwise its clone is stored under its id and the pass moves on (the
      walk stops at the target). A task whose clone fails aborts the pass. */
  function ClonePass(w: Walk, clones: map<TaskId, Result<Task, Exception>>, acc: map<TaskId, Task>,
                     id: TaskId): (r: Result<map<TaskId, Task>, Exception>)
    requires WalkOk(w) && id in w.next && id in w.rank && w.next.Keys <= clones.Keys
    ensures r.Success? ==>
              && Extends(acc, r.value) && id in r.value
              && AddedAreClones(clones, acc, r.value)
              && AddedAreReached(w, acc, r.value, [id])
              && AddedAreExpanded(w, acc, r.value)
    decreases w.rank[id], 1
  {
    if id in acc then Success(acc)
    else
      var nt :- clones[id];
      var m :- ClonePassAll(w, clones, acc[id := nt], w.next[id], w.rank[id]);
      ClonePassStep(w, clones, acc, nt, id, m);
      Success(m)
  }

  /** The pass over `ids`, in order, threading the accumulator. */
  function ClonePassAll(w: Walk, clones: map<TaskId, Result<Task, Exception>>, acc: map<TaskId, Task>,
                        ids: seq<TaskId>, bound: nat): (r: Result<map<TaskId, Task>, Exception>)
    requires WalkOk(w) && w.next.Keys <= clones.Keys
    requires forall i :: 0 <= i < |ids| ==> ids[i] in w.next && ids[i] in w.rank && w.rank[ids[i]] < bound
    ensures r.Success? ==>
              && Extends(acc, r.value)
              && (forall i :: 0 <= i < |ids| ==> ids[i] in r.value)
              && AddedAreClones(clones, acc, r.value)
              && AddedAreReached(w, acc, r.value, ids)
              && AddedAreExpanded(w, acc, r.value)
    decreases bound, 0, |ids|
  {
    if |ids| == 0 then Success(acc)
    else
      var mid :- ClonePass(w, clones, acc, ids[0]);
      var m :- ClonePassAll(w, clones, mid, ids[1..], bound);
      ClonePassAllStep(w, clones, acc, mid, m, ids);
      Success(m)
  }

  lemma ClonePassStep(w: Walk, clones: map<TaskId, Result<Task, Exception>>, acc: map<TaskId, Task>,
                      nt: Task, id: TaskId, m: map<TaskId, Task>)
    requires WalkOk(w) && id in w.next && id in w.rank && id !in acc && id in clones && clones[id] == Success(nt)
    requires Extends(acc[id := nt], m)
    requires forall i :: 0 <= i < |w.next[id]| ==> w.next[id][i] in m
    requires AddedAreClones(clones, acc[id := nt], m)
    requires AddedAreReached(w, acc[id := nt], m, w.next[id])
    requires AddedAreExpanded(w, acc[id := nt], m)
    ensures Extends(acc, m) && id in m
    ensures AddedAreClones(clones, acc, m)
    ensures AddedAreReached(w, acc, m, [id])
    ensures AddedAreExpanded(w, acc, m)
  {
    forall k | k in m && k !in acc
      ensures ReachFrom(w, [id], k)
    {
      if k != id {
        assert k !in acc[id := nt];
        var i :| 0 <= i < |w.next[id]| && Reach(w, w.next[id][i], k);
      }
      assert Reach(w, [id][0], k);
    }
  }

  lemma ClonePassAllStep(w: Walk, clones: map<TaskId, Result<Task, Exception>>, acc: map<TaskId, Task>,
                         mid: map<TaskId, Task>, m: map<TaskId, Task>, ids: seq<TaskId>)
    requires WalkOk(w) && |ids| > 0
    requires forall i :: 0 <= i < |ids| ==> ids[i] in w.next && ids[i] in w.rank
    requires Extends(acc, mid) && Extends(mid, m)
    requires ids[0] in mid && forall i :: 0 <= i < |ids[1..]| ==> ids[1..][i] in m
    requires AddedAreClones(clones, acc, mid) && AddedAreClones(clones, mid, m)
    requires AddedAreReached(w, acc, mid, [ids[0]]) && AddedAreReached(w, mid, m, ids[1..])
    requires AddedAreExpanded(w, acc, mid) && AddedAreExpanded(w, mid, m)
    ensures Extends(acc, m)
    ensures forall i :: 0 <= i < |ids| ==> ids[i] in m
    ensures AddedAreClones(clones, acc, m)
    ensures AddedAreReached(w, acc, m, ids)
    ensures AddedAreExpanded(w, acc, m)
  {
    forall i | 0 <= i < |ids|
      ensures ids[i] in m
    {
      if i > 0 {
        assert ids[i] == ids[1..][i - 1];
      }
    }
    forall k | k in m && k !in acc
      ensures ReachFrom(w, ids, k)
    {
      if k in mid {
        assert Reach(w, [ids[0]][0], k);
      } else {
        var i :| 0 <= i < |ids[1..]| && Reach(w, ids[1..][i], k);
        assert Reach(w, ids[i + 1], k);
      }
    }
    forall k, i | k in m && k !in acc && k in w.next && 0 <= i < |w.next[k]|
      ensures w.next[k][i] in m
    {
      if k in mid {
        assert w.next[k][i] in mid;
      }
    }
  }

  /** Started from an empty accumulator, the clone pass holds exactly the
      tasks the walk meets, each as its clone. */
  lemma ClonePassCoversReach(w: Walk, clones: map<TaskId, Result<Task, Exception>>, id: TaskId)
    requires WalkOk(w) && id in w.next && id in w.rank && w.next.Keys <= clones.Keys
    requires ClonePass(w, clones, map[], id).Success?
    ensures var m := ClonePass(w, clones, map[], id).value;
            forall k :: k in m <==> k in w.next && Reach(w, id, k)
    ensures var m := ClonePass(w, clones, map[], id).value;
            forall k :: k in m ==> clones[k] == Success(m[k])
  {
    var m := ClonePass(w, clones, map[], id).value;
    forall k | k in m
      ensures k in w.next && Reach(w, id, k)
    {
      assert ReachFrom(w, [id], k);
      assert Reach(w, [id][0], k);
      ReachStaysInWalk(w, id, k);
    }
    forall k | k in w.next && Reach(w, id, k)
      ensures k in m
    {
      ReachedIsCloned(w, m, id, k);
    }
  }

  /** Whatever the walk meets is a walked task. */
  lemma {:induction false} ReachStaysInWalk(w: Walk, a: TaskId, k: TaskId)
    requires WalkOk(w) && a in w.next && a in w.rank && Reach(w, a, k)
    ensures k in w.next
    decreases w.rank[a]
  {
    if a != k {
      var i :| 0 <= i < |w.next[a]| && Reach(w, w.next[a][i], k);
      ReachStaysInWalk(w, w.next[a][i], k);
    }
  }

  /** A pass whose added entries are all expanded contains everything the
      walk meets from an entry it added. */
  lemma {:induction false} ReachedIsCloned(w: Walk, m: map<TaskId, Task>, a: TaskId, k: TaskId)
    requires WalkOk(w) && a in w.next && a in w.rank && a in m
    requires AddedAreExpanded(w, map[], m)
    requires Reach(w, a, k)
    ensures k in m
    decreases w.rank[a]
  {
    if a != k {
      var i :| 0 <= i < |w.next[a]| && Reach(w, w.next[a][i], k);
      ReachedIsCloned(w, m, w.next[a][i], k);
    }
  }

  /** A failing pass failed on the clone of a task the walk meets. */
  lemma {:induction false} ClonePassFailure(w: Walk, clones: map<TaskId, Result<Task, Exception>>,
                                            acc: map<TaskId, Task>, id: TaskId)
    requires WalkOk(w) && id in w.next && id in w.rank && w.next.Keys <= clones.Keys
    requires ClonePass(w, clones, acc, id).Failure?
    ensures exists k :: k in w.next && Reach(w, id, k) && clones[k] == Failure(ClonePass(w, clones, acc, id).error)
    decreases w.rank[id], 1
  {
    var nt := clones[id];
    if nt.Success? {
      var acc' := acc[id := nt.value];
      ClonePassAllFailure(w, clones, acc', w.next[id], w.rank[id]);
      var i, k :| 0 <= i < |w.next[id]| && k in w.next && Reach(w, w.next[id][i], k) &&
                  clones[k] == Failure(ClonePassAll(w, clones, acc', w.next[id], w.rank[id]).error);
      assert Reach(w, id, k);
    }
  }

  lemma {:induction false} ClonePassAllFailure(w: Walk, clones: map<TaskId, Result<Task, Exception>>,
                                               acc: map<TaskId, Task>, ids: seq<TaskId>, bound: nat)
    requires WalkOk(w) && w.next.Keys <= clones.Keys
    requires forall i :: 0 <= i < |ids| ==> ids[i] in w.next && ids[i] in w.rank && w.rank[ids[i]] < bound
    requires ClonePassAll(w, clones, acc, ids, bound).Failure?
    ensures exists i, k :: 0 <= i < |ids| && k in w.next && Reach(w, ids[i], k) &&
                           clones[k] == Failure(ClonePassAll(w, clones, acc, ids, bound).error)
    decreases bound, 0, |ids|
  {
    var e := ClonePassAll(w, clones, acc, ids, bound).error;
    var first := ClonePass(w, clones, acc, ids[0]);
    if first.Failure? {
      ClonePassFailure(w, clones, acc, ids[0]);
      var k :| k in w.next && Reach(w, ids[0], k) && clones[k] == Failure(e);
    } else {
      ClonePassAllFailure(w, clones, first.value, ids[1..], bound);
      var i, k :| 0 <= i < |ids[1..]| && k in w.next && Reach(w, ids[1..][i], k) && clones[k] == Failure(e);
      assert Reach(w, ids[i + 1], k);
    }
  }

  // ---------------------------------------------------------------------------
  // Keeping one clone per ambiguous name

  /** The result of `replicateTree`'s second loop: a sub-map of the clones with
      one entry per ambiguous name, each of lowest iteration index among the
      clones that share its name. The loop walks a hash map, whose order is
      unspecified, so the entry is picked nondeterministically and the
      contract holds for every order. */
  method DedupByAmbiguousName(tmp: map<TaskId, Task>) returns (kept: map<TaskId, Task>)
    requires forall k :: k in tmp ==> InitialName(tmp[k].name).Success?
    ensures kept.Keys <= tmp.Keys && forall k :: k in kept ==> kept[k] == tmp[k]
    ensures forall k1, k2 :: k1 in kept && k2 in kept && AmbiguousName(kept[k1]) == AmbiguousName(kept[k2]) ==> k1 == k2
    ensures forall k :: k in tmp ==>
              exists k' :: k' in kept && AmbiguousName(kept[k']) == AmbiguousName(tmp[k]) &&
                           kept[k'].iteration <= tmp[k].iteration
  {
    var byName := IndexByName(tmp);
    kept := map k | k in tmp && k in byName.Values :: tmp[k];
    assert forall k :: k in kept <==> k in tmp && k in byName.Values;
    KeptIsDedup(tmp, byName, kept);
  }

  /** The first loop of the thinning: for every ambiguous name, the clone of
      lowest iteration index met so far. */
  method IndexByName(tmp: map<TaskId, Task>) returns (byName: map<string, TaskId>)
    requires forall k :: k in tmp ==> InitialName(tmp[k].name).Success?
    ensures NamesIndex(tmp, byName)
    ensures forall k :: k in tmp ==> LowestKnown(tmp, byName, k)
  {
    byName := map[];
    var rest := tmp.Keys;
    while rest != {}
      invariant rest <= tmp.Keys
      invariant NamesIndex(tmp, byName)
      invariant forall k :: k in tmp && k !in rest ==> LowestKnown(tmp, byName, k)
      decreases |rest|
    {
      var k :| k in rest;
      IndexedKeepsLowest(tmp, byName, tmp.Keys - rest, k);
      byName := Indexed(tmp, byName, k);
      rest := rest - {k};
    }
  }

  /** One turn of that loop: `k`'s clone takes its name's place when the name
      is new or its iteration index is strictly lower. */
  function Indexed(tmp: map<TaskId, Task>, byName: map<string, TaskId>, k: TaskId): map<string, TaskId>
    requires forall k :: k in tmp ==> InitialName(tmp[k].name).Success?
    requires NamesIndex(tmp, byName) && k in tmp
  {
    var n := AmbiguousName(tmp[k]);
    if n !in byName || tmp[k].iteration < tmp[byName[n]].iteration then byName[n := k] else byName
  }

  lemma IndexedKeepsLowest(tmp: map<TaskId, Task>, byName: map<string, TaskId>, done: set<TaskId>, k: TaskId)
    requires forall k :: k in tmp ==> InitialName(tmp[k].name).Success?
    requires NamesIndex(tmp, byName) && k in tmp && done <= tmp.Keys
    requires forall j :: j in done ==> LowestKnown(tmp, byName, j)
    ensures NamesIndex(tmp, Indexed(tmp, byName, k))
    ensures forall j :: j in done + {k} ==> LowestKnown(tmp, Indexed(tmp, byName, k), j)
  {
    var n := AmbiguousName(tmp[k]);
    var b := Indexed(tmp, byName, k);
    forall j | j in done + {k}
      ensures LowestKnown(tmp, b, j)
    {
      if j != k {
        assert LowestKnown(tmp, byName, j);
      }
    }
  }

  /** `byName` maps ambiguous names to clones that carry them. */
  predicate NamesIndex(tmp: map<TaskId, Task>, byName: map<string, TaskId>)
    requires forall k :: k in tmp ==> InitialName(tmp[k].name).Success?
  {
    forall n :: n in byName ==> byName[n] in tmp && AmbiguousName(tmp[byName[n]]) == n
  }

  /** The clone `byName` keeps for `k`'s name has an iteration index no higher
      than `k`'s. */
  predicate LowestKnown(tmp: map<TaskId, Task>, byName: map<string, TaskId>, k: TaskId)
    requires forall k :: k in tmp ==> InitialName(tmp[k].name).Success?
    requires NamesIndex(tmp, byName) && k in tmp
  {
    AmbiguousName(tmp[k]) in byName && tmp[byName[AmbiguousName(tmp[k])]].iteration <= tmp[k].iteration
  }

  lemma KeptIsDedup(tmp: map<TaskId, Task>, byName: map<string, TaskId>, kept: map<TaskId, Task>)
    requires forall k :: k in tmp ==> InitialName(tmp[k].name).Success?
    requires NamesIndex(tmp, byName)
    requires forall k :: k in tmp ==> LowestKnown(tmp, byName, k)
    requires forall k :: k in kept <==> k in tmp && k in byName.Values
    requires forall k :: k in kept ==> kept[k] == tmp[k]
    ensures kept.Keys <= tmp.Keys && forall k :: k in kept ==> kept[k] == tmp[k]
    ensures forall k1, k2 :: k1 in kept && k2 in kept && AmbiguousName(kept[k1]) == AmbiguousName(kept[k2]) ==> k1 == k2
    ensures forall k :: k in tmp ==>
              exists k' :: k' in kept && AmbiguousName(kept[k']) == AmbiguousName(tmp[k]) &&
                           kept[k'].iteration <= tmp[k].iteration
  {
    forall k1, k2 | k1 in kept && k2 in kept && AmbiguousName(kept[k1]) == AmbiguousName(kept[k2])
      ensures k1 == k2
    {
      var n1 :| n1 in byName && byName[n1] == k1;
      var n2 :| n2 in byName && byName[n2] == k2;
    }
    forall k | k in tmp
      ensures exists k' :: k' in kept && AmbiguousName(kept[k']) == AmbiguousName(tmp[k]) &&
                           kept[k'].iteration <= tmp[k].iteration
    {
      assert LowestKnown(tmp, byName, k);
      var k' := byName[AmbiguousName(tmp[k])];
      assert k' in byName.Values;
      assert k' in kept;
    }
  }
}

=== FILE: rm_initial_state.dfy ===
/** The snapshot of the resource manager a monitor receives: the latest event
    per node and per node source, and the largest event counter seen. A
    client polls it in windows: it passes the last counter it knows and gets
    back only the events after it, at most a chunk's worth of counters. */
module RMSnapshot {
  import opened Wrappers
  import opened JavaLang
  import opened NodeStates

  /** The filter meaning "nothing seen yet". */
  const EmptyState: int64 := -1

  /** The events the snapshot keeps; a counter orders all events. */
  datatype RMEvent =
    | NodeEvent(nodeUrl: string, nodeState: NodeState, counter: int64)
    | NodeSourceEvent(sourceName: string, counter: int64)

  /** `RMInitialState`: node events by node URL, node-source events by source
      name, and the latest counter. */
  datatype RMInitialState = RMInitialState(nodeEvents: map<string, RMEvent>, nodeSourceEvents: map<string, RMEvent>,
                                           latestCounter: int64)

  /** A fresh state: no events and a latest counter of 0. */
  function Empty(): (r: RMInitialState)
    ensures Consistent(r) && r.latestCounter == 0
    ensures |r.nodeEvents| == 0 && |r.nodeSourceEvents| == 0
  {
    RMInitialState(map[], map[], 0)
  }

  /** `updateCounter(event)`: the latest counter is raised to the event's. */
  function UpdateCounter(s: RMInitialState, e: RMEvent): (r: RMInitialState)
    ensures r.latestCounter >= s.latestCounter && r.latestCounter >= e.counter
    ensures r.latestCounter == s.latestCounter || r.latestCounter == e.counter
    ensures r.nodeEvents == s.nodeEvents && r.nodeSourceEvents == s.nodeSourceEvents
  {
    s.(latestCounter := Max(s.latestCounter, e.counter))
  }

  /** `nodeAdded`, `nodeStateChanged` and `nodeRemoved`, which all do the
      same: raise the counter, then store the event under its node URL. */
  function NodeEventReceived(s: RMInitialState, e: RMEvent): (r: RMInitialState)
    requires e.NodeEvent?
    ensures e.nodeUrl in r.nodeEvents && r.nodeEvents[e.nodeUrl] == e
    ensures forall k :: k != e.nodeUrl ==> (k in r.nodeEvents <==> k in s.nodeEvents)
    ensures forall k :: k != e.nodeUrl && k in s.nodeEvents ==> r.nodeEvents[k] == s.nodeEvents[k]
    ensures r.nodeSourceEvents == s.nodeSourceEvents
    ensures r.latestCounter >= s.latestCounter && r.latestCounter >= e.counter
    ensures r.latestCounter == s.latestCounter || r.latestCounter == e.counter
  {
    var u := UpdateCounter(s, e);
    u.(nodeEvents := u.nodeEvents[e.nodeUrl := e])
  }

  /** `nodeSourceAdded`, `nodeSourceRemoved` and `nodeSourceStateChanged`:
      raise the counter, then store the event under its source name. */
  function NodeSourceEventReceived(s: RMInitialState, e: RMEvent): (r: RMInitialState)
    requires e.NodeSourceEvent?
    ensures e.sourceName in r.nodeSourceEvents && r.nodeSourceEvents[e.sourceName] == e
    ensures forall k :: k != e.sourceName ==> (k in r.nodeSourceEvents <==> k in s.nodeSourceEvents)
    ensures forall k :: k != e.sourceName && k in s.nodeSourceEvents ==> r.nodeSourceEvents[k] == s.nodeSourceEvents[k]
    ensures r.nodeEvents == s.nodeEvents
    ensures r.latestCounter >= s.latestCounter && r.latestCounter >= e.counter
    ensures r.latestCounter == s.latestCounter || r.latestCounter == e.counter
  {
    var u := UpdateCounter(s, e);
    u.(nodeSourceEvents := u.nodeSourceEvents[e.sourceName := e])
  }

  /** The counter window a clone keeps: strictly after `from`, up to `to`. */
  predicate InWindow(e: RMEvent, from: int64, to: int64) {
    from < e.counter <= to
  }

  /** `newFilteredEvents(events, from, to)`: the entries whose event lies in
      the window, under the same keys. */
  method NewFilteredEvents(events: map<string, RMEvent>, from: int64, to: int64) returns (r: map<string, RMEvent>)
    ensures forall k :: k in r <==> k in events && InWindow(events[k], from, to)
    ensures forall k :: k in r ==> r[k] == events[k]
  {
    r := map[];
    var rest := events.Keys;
    while rest != {}
      invariant rest <= events.Keys
      invariant forall k :: k in r <==> k in events && k !in rest && InWindow(events[k], from, to)
      invariant forall k :: k in r ==> r[k] == events[k]
      decreases |rest|
    {
      var k :| k in rest;
      if InWindow(events[k], from, to) {
        r := r[k := events[k]];
      }
      rest := rest - {k};
    }
  }

  /** `findLargestCounter(events)`: the largest counter, 0 when there is no
      event. */
  method LargestCounter(events: map<string, RMEvent>) returns (m: int64)
    ensures events == map[] ==> m == 0
    ensures events != map[] ==> exists k :: k in events && events[k].counter == m
    ensures forall k :: k in events ==> events[k].counter <= m || events == map[]
  {
    var found := false;
    m := 0;
    var rest := events.Keys;
    while rest != {}
      invariant rest <= events.Keys
      invariant !found ==> m == 0 && rest == events.Keys
      invariant found ==> exists k :: k in events && events[k].counter == m
      invariant forall k :: k in events && k !in rest ==> events[k].counter <= m
      decreases |rest|
    {
      var k :| k in rest;
      if !found || events[k].counter > m {
        m := events[k].counter;
      }
      found := true;
      rest := rest - {k};
    }
    if !found {
      assert events.Keys == {};
      assert events == map[];
    }
  }

  /** The filter a clone really uses: the client's, unless it is ahead of
      the server (after a server restart), in which case everything is
      sent again from the start. */
  function ActualFilter(s: RMInitialState, filter: int64): (f: int64)
    ensures f == filter || f == EmptyState
    ensures f <= s.latestCounter || s.latestCounter < EmptyState
    ensures filter <= s.latestCounter ==> f == filter
    ensures s.latestCounter < filter ==> f == EmptyState
  {
    if filter <= s.latestCounter then filter else EmptyState
  }

  /** What the counter means: no stored event is newer than it, and none
      is negative. */
  predicate Consistent(s: RMInitialState) {
    && 0 <= s.latestCounter
    && (forall k :: k in s.nodeEvents ==> 0 <= s.nodeEvents[k].counter <= s.latestCounter)
    && (forall k :: k in s.nodeSourceEvents ==> 0 <= s.nodeSourceEvents[k].counter <= s.latestCounter)
  }

  /** `cloneAndFilter(filter)`: a new state holding the events whose counter
      lies after the actual filter and at most a chunk beyond it (`long`
      addition), whose latest counter is the largest of the actual filter
      and the kept counters (0 standing for a map with none). On a
      consistent state the clone is consistent and no newer than the state,
      and a first poll with a chunk wider than every counter sees every
      event. The receiver is a value and is left as it is. */
  method CloneAndFilter(s: RMInitialState, filter: int64, chunk: int32) returns (c: RMInitialState)
    ensures var from := ActualFilter(s, filter); var to := AddInt64(from, chunk);
            && (forall k :: k in c.nodeEvents <==> k in s.nodeEvents && InWindow(s.nodeEvents[k], from, to))
            && (forall k :: k in c.nodeEvents ==> c.nodeEvents[k] == s.nodeEvents[k])
            && (forall k :: k in c.nodeSourceEvents <==> k in s.nodeSourceEvents && InWindow(s.nodeSourceEvents[k], from, to))
            && (forall k :: k in c.nodeSourceEvents ==> c.nodeSourceEvents[k] == s.nodeSourceEvents[k])
    ensures c.latestCounter >= ActualFilter(s, filter)
    ensures forall k :: k in c.nodeEvents ==> c.nodeEvents[k].counter <= c.latestCounter
    ensures forall k :: k in c.nodeSourceEvents ==> c.nodeSourceEvents[k].counter <= c.latestCounter
    ensures || c.latestCounter == ActualFilter(s, filter)
            || (c.latestCounter == 0 && (c.nodeEvents == map[] || c.nodeSourceEvents == map[]))
            || (exists k :: k in c.nodeEvents && c.nodeEvents[k].counter == c.latestCounter)
            || (exists k :: k in c.nodeSourceEvents && c.nodeSourceEvents[k].counter == c.latestCounter)
    ensures Consistent(s) ==> Consistent(c) && c.latestCounter <= s.latestCounter
    ensures Consistent(s) && filter == EmptyState && s.latestCounter < chunk ==>
              c.nodeEvents == s.nodeEvents && c.nodeSourceEvents == s.nodeSourceEvents
    ensures filter <= s.latestCounter ==>
              var to := AddInt64(filter, chunk);
              && (forall k :: k in c.nodeEvents <==> k in s.nodeEvents && InWindow(s.nodeEvents[k], filter, to))
              && (forall k :: k in c.nodeSourceEvents <==> k in s.nodeSourceEvents && InWindow(s.nodeSourceEvents[k], filter, to))
    ensures s.latestCounter < filter ==>
              var to := AddInt64(EmptyState, chunk);
              && (forall k :: k in c.nodeEvents <==> k in s.nodeEvents && InWindow(s.nodeEvents[k], EmptyState, to))
              && (forall k :: k in c.nodeSourceEvents <==> k in s.nodeSourceEvents && InWindow(s.nodeSourceEvents[k], EmptyState, to))
    ensures Consistent(s) && s.latestCounter < filter && s.latestCounter < chunk ==>
              c.nodeEvents == s.nodeEvents && c.nodeSourceEvents == s.nodeSourceEvents
  {
    var from := ActualFilter(s, filter);
    var to := AddInt64(from, chunk);
    var nodes := NewFilteredEvents(s.nodeEvents, from, to);
    var sources := NewFilteredEvents(s.nodeSourceEvents, from, to);
    var largestNode := LargestCounter(nodes);
    var largestSource := LargestCounter(sources);
    c := RMInitialState(nodes, sources, Max(from, Max(largestNode, largestSource)));
  }

  /** The state after receiving `es` in order, each event through the
      receiver of its kind. */
  function ReceiveAll(s: RMInitialState, es: seq<RMEvent>): RMInitialState
    decreases |es|
  {
    if |es| == 0 then s
    else
      var e := es[0];
      var next := if e.NodeEvent? then NodeEventReceived(s, e) else NodeSourceEventReceived(s, e);
      ReceiveAll(next, es[1..])
  }

  /** Starting from a consistent state, receiving events with non-negative
      counters keeps it consistent, and the latest counter ends at least at
      every counter received. */
  lemma {:induction false} ReceiveAllConsistent(s: RMInitialState, es: seq<RMEvent>)
    requires Consistent(s) && forall i :: 0 <= i < |es| ==> 0 <= es[i].counter
    ensures Consistent(ReceiveAll(s, es))
    ensures ReceiveAll(s, es).latestCounter >= s.latestCounter
    ensures forall i :: 0 <= i < |es| ==> es[i].counter <= ReceiveAll(s, es).latestCounter
    decreases |es|
  {
    if |es| > 0 {
      var e := es[0];
      var next := if e.NodeEvent? then NodeEventReceived(s, e) else NodeSourceEventReceived(s, e);
      ReceivedKeepsConsistent(s, e);
      ReceiveAllConsistent(next, es[1..]);
      forall i | 0 < i < |es|
        ensures es[i].counter <= ReceiveAll(s, es).latestCounter
      {
        assert es[i] == es[1..][i - 1];
      }
    }
  }

  /** A fresh snapshot fed any events with non-negative counters is
      consistent. */
  lemma EmptyReceivesConsistently(es: seq<RMEvent>)
    requires forall i :: 0 <= i < |es| ==> 0 <= es[i].counter
    ensures Consistent(ReceiveAll(Empty(), es))
    ensures forall i :: 0 <= i < |es| ==> es[i].counter <= ReceiveAll(Empty(), es).latestCounter
  {
    ReceiveAllConsistent(Empty(), es);
  }

  /** The setters keep the counter consistent, given an event counter in
      range, and never lower it. */
  lemma ReceivedKeepsConsistent(s: RMInitialState, e: RMEvent)
    requires Consistent(s) && 0 <= e.counter
    ensures e.NodeEvent? ==> Consistent(NodeEventReceived(s, e))
    ensures e.NodeSourceEvent? ==> Consistent(NodeSourceEventReceived(s, e))
  {
  }
}

=== FILE: selection.dfy ===
/** Keeping one element per key, the one of lowest index: the filter that
    `internalReplicateTree` and `internalReconstructTree` apply to the hard
    dependencies of a task before following them. The filter fills a
    string-keyed map in list order and replaces an entry only when a later
    element has a strictly lower index. */
module Selection {

  /** An element under consideration: its id, its key and its index. */
  datatype Candidate<K> = Candidate(id: nat, key: K, index: int)

  /** Position in `chosen` of the element with key `k`, or -1. */
  function KeyPosition<K(==)>(chosen: seq<Candidate<K>>, k: K): (i: int)
    ensures -1 <= i < |chosen|
    ensures i >= 0 ==> chosen[i].key == k
    ensures i == -1 ==> forall j :: 0 <= j < |chosen| ==> chosen[j].key != k
    decreases |chosen|
  {
    if |chosen| == 0 then -1
    else if chosen[|chosen| - 1].key == k then |chosen| - 1
    else KeyPosition(chosen[..|chosen| - 1], k)
  }

  predicate DistinctKeys<K(==)>(r: seq<Candidate<K>>) {
    forall i, j :: 0 <= i < j < |r| ==> r[i].key != r[j].key
  }

  /** Every key of `cs` is the key of some element of `r`. */
  predicate CoversKeys<K(==)>(cs: seq<Candidate<K>>, r: seq<Candidate<K>>) {
    forall c :: c in cs ==> exists i :: 0 <= i < |r| && r[i].key == c.key
  }

  /** Each element of `r` has the lowest index among the elements of `cs`
      sharing its key. */
  predicate LowestIndices<K(==)>(cs: seq<Candidate<K>>, r: seq<Candidate<K>>) {
    forall i, c :: 0 <= i < |r| && c in cs && c.key == r[i].key ==> r[i].index <= c.index
  }

  /** Ties go to the earliest: a survivor first appears in `cs` no later
      than any element of its key with the same index. */
  predicate EarliestOfTies<K(==)>(cs: seq<Candidate<K>>, r: seq<Candidate<K>>) {
    forall i, k :: 0 <= i < |r| && 0 <= k < |cs| && cs[k].key == r[i].key && cs[k].index == r[i].index ==>
      r[i] in cs[..k + 1]
  }

  /** The filter itself. */
  function SelectLowest<K(==)>(cs: seq<Candidate<K>>): (r: seq<Candidate<K>>)
    ensures forall x :: x in r ==> x in cs
    ensures DistinctKeys(r)
    ensures CoversKeys(cs, r)
    ensures LowestIndices(cs, r)
    decreases |cs|
  {
    if |cs| == 0 then []
    else
      var front := cs[..|cs| - 1];
      var c := cs[|cs| - 1];
      assert cs == front + [c];
      var chosen := SelectLowest(front);
      var i := KeyPosition(chosen, c.key);
      if i < 0 then
        SelectAppend(front, c, chosen);
        chosen + [c]
      else if chosen[i].index > c.index then
        SelectReplace(front, c, chosen, i);
        chosen[i := c]
      else
        SelectKeep(front, c, chosen, i);
        chosen
  }

  /** A new key: the element joins the survivors. */
  lemma SelectAppend<K>(front: seq<Candidate<K>>, c: Candidate<K>, chosen: seq<Candidate<K>>)
    requires forall x :: x in chosen ==> x in front
    requires DistinctKeys(chosen) && CoversKeys(front, chosen) && LowestIndices(front, chosen)
    requires forall j :: 0 <= j < |chosen| ==> chosen[j].key != c.key
    ensures forall x :: x in chosen + [c] ==> x in front + [c]
    ensures DistinctKeys(chosen + [c])
    ensures CoversKeys(front + [c], chosen + [c])
    ensures LowestIndices(front + [c], chosen + [c])
  {
    var r := chosen + [c];
    forall d | d in front + [c]
      ensures exists j :: 0 <= j < |r| && r[j].key == d.key
    {
      if d == c {
        assert r[|chosen|] == c;
      } else {
        assert d in front;
        var j :| 0 <= j < |chosen| && chosen[j].key == d.key;
        assert r[j] == chosen[j];
      }
    }
    forall j, d | 0 <= j < |r| && d in front + [c] && d.key == r[j].key
      ensures r[j].index <= d.index
    {
      if j < |chosen| {
        assert r[j] == chosen[j];
        assert d in front;
      }
    }
  }

  /** A known key and a strictly lower index: the element takes the place of
      the survivor. */
  lemma SelectReplace<K>(front: seq<Candidate<K>>, c: Candidate<K>, chosen: seq<Candidate<K>>, i: nat)
    requires forall x :: x in chosen ==> x in front
    requires DistinctKeys(chosen) && CoversKeys(front, chosen) && LowestIndices(front, chosen)
    requires i < |chosen| && chosen[i].key == c.key && chosen[i].index > c.index
    ensures forall x :: x in chosen[i := c] ==> x in front + [c]
    ensures DistinctKeys(chosen[i := c])
    ensures CoversKeys(front + [c], chosen[i := c])
    ensures LowestIndices(front + [c], chosen[i := c])
  {
    ReplaceKeepsKeys(chosen, c, i);
    ReplaceCovers(front, c, chosen, i);
    ReplaceLowest(front, c, chosen, i);
  }

  /** Replacing an element by one of the same key keeps every key in place. */
  lemma ReplaceKeepsKeys<K>(chosen: seq<Candidate<K>>, c: Candidate<K>, i: nat)
    requires i < |chosen| && chosen[i].key == c.key
    ensures forall j :: 0 <= j < |chosen| ==> chosen[i := c][j].key == chosen[j].key
    ensures DistinctKeys(chosen) ==> DistinctKeys(chosen[i := c])
  {
  }

  lemma ReplaceCovers<K>(front: seq<Candidate<K>>, c: Candidate<K>, chosen: seq<Candidate<K>>, i: nat)
    requires CoversKeys(front, chosen)
    requires i < |chosen| && chosen[i].key == c.key
    requires forall j :: 0 <= j < |chosen| ==> chosen[i := c][j].key == chosen[j].key
    ensures CoversKeys(front + [c], chosen[i := c])
  {
    var r := chosen[i := c];
    forall d | d in front + [c]
      ensures exists j :: 0 <= j < |r| && r[j].key == d.key
    {
      if d == c {
        assert r[i].key == d.key;
      } else {
        assert d in front;
        var j :| 0 <= j < |chosen| && chosen[j].key == d.key;
        assert r[j].key == d.key;
      }
    }
  }

  lemma ReplaceLowest<K>(front: seq<Candidate<K>>, c: Candidate<K>, chosen: seq<Candidate<K>>, i: nat)
    requires forall x :: x in chosen ==> x in front
    requires DistinctKeys(chosen) && LowestIndices(front, chosen)
    requires i < |chosen| && chosen[i].key == c.key && chosen[i].index > c.index
    ensures forall x :: x in chosen[i := c] ==> x in front + [c]
    ensures LowestIndices(front + [c], chosen[i := c])
  {
    var r := chosen[i := c];
    forall x | x in r
      ensures x in front + [c]
    {
      var j :| 0 <= j < |r| && r[j] == x;
      if j != i {
        assert chosen[j] in chosen;
      }
    }
    forall j, d | 0 <= j < |r| && d in front + [c] && d.key == r[j].key
      ensures r[j].index <= d.index
    {
      if d != c {
        assert d in front;
        if j == i {
          assert chosen[i].index <= d.index;
        } else {
          assert r[j] == chosen[j];
        }
      } else if j != i {
        assert false;
      }
    }
  }

  /** A known key and no lower index: nothing changes. */
  lemma SelectKeep<K>(front: seq<Candidate<K>>, c: Candidate<K>, chosen: seq<Candidate<K>>, i: nat)
    requires forall x :: x in chosen ==> x in front
    requires DistinctKeys(chosen) && CoversKeys(front, chosen) && LowestIndices(front, chosen)
    requires i < |chosen| && chosen[i].key == c.key && chosen[i].index <= c.index
    ensures forall x :: x in chosen ==> x in front + [c]
    ensures CoversKeys(front + [c], chosen)
    ensures LowestIndices(front + [c], chosen)
  {
    forall d | d in front + [c]
      ensures exists j :: 0 <= j < |chosen| && chosen[j].key == d.key
    {
      if d != c {
        assert d in front;
      }
    }
    forall j, d | 0 <= j < |chosen| && d in front + [c] && d.key == chosen[j].key
      ensures chosen[j].index <= d.index
    {
      if d != c {
        assert d in front;
      }
    }
  }

  /** Of several elements of one key and the lowest index, the filter keeps
      the first in list order, since a later one replaces a survivor only
      when its index is strictly lower. */
  lemma {:induction false} SelectLowestKeepsFirst<K>(cs: seq<Candidate<K>>)
    ensures EarliestOfTies(cs, SelectLowest(cs))
    decreases |cs|
  {
    if |cs| > 0 {
      var front := cs[..|cs| - 1];
      var c := cs[|cs| - 1];
      assert cs == front + [c];
      var chosen := SelectLowest(front);
      SelectLowestKeepsFirst(front);
      var i := KeyPosition(chosen, c.key);
      SelectStep(cs);
      if i < 0 {
        TiesAppend(front, c, chosen);
      } else if chosen[i].index > c.index {
        TiesReplace(front, c, chosen, i);
      } else {
        TiesKeep(front, c, chosen, i);
      }
    }
  }

  /** One step of the filter: the last element joins, replaces or leaves the
      survivors of the others. */
  lemma SelectStep<K>(cs: seq<Candidate<K>>)
    requires |cs| > 0
    ensures var chosen := SelectLowest(cs[..|cs| - 1]);
            var c := cs[|cs| - 1];
            var i := KeyPosition(chosen, c.key);
            && (i < 0 ==> SelectLowest(cs) == chosen + [c])
            && (i >= 0 && chosen[i].index > c.index ==> SelectLowest(cs) == chosen[i := c])
            && (i >= 0 && chosen[i].index <= c.index ==> SelectLowest(cs) == chosen)
  {
  }

  /** An element of `front` that appears by position `k` still does in
      `front + [c]`. */
  lemma PrefixOfFront<K>(front: seq<Candidate<K>>, c: Candidate<K>, x: Candidate<K>, k: nat)
    requires k < |front| && x in front[..k + 1]
    ensures x in (front + [c])[..k + 1]
  {
    assert (front + [c])[..k + 1] == front[..k + 1];
  }

  /** A new key: the new survivor is the last element, the only one of its
      key. */
  lemma TiesAppend<K>(front: seq<Candidate<K>>, c: Candidate<K>, chosen: seq<Candidate<K>>)
    requires CoversKeys(front, chosen) && EarliestOfTies(front, chosen)
    requires forall j :: 0 <= j < |chosen| ==> chosen[j].key != c.key
    ensures EarliestOfTies(front + [c], chosen + [c])
  {
    var cs, r := front + [c], chosen + [c];
    assert forall x :: x in front ==> x.key != c.key;
    forall i, k | 0 <= i < |r| && 0 <= k < |cs| && cs[k].key == r[i].key && cs[k].index == r[i].index
      ensures r[i] in cs[..k + 1]
    {
      if i == |chosen| {
        assert cs[..|cs|] == cs;
      } else {
        assert r[i] == chosen[i];
        assert cs[k] == c || k < |front|;
        if k < |front| {
          PrefixOfFront(front, c, chosen[i], k);
        }
      }
    }
  }

  /** A strictly lower index: no earlier element ties the newcomer. */
  lemma TiesReplace<K>(front: seq<Candidate<K>>, c: Candidate<K>, chosen: seq<Candidate<K>>, i: nat)
    requires DistinctKeys(chosen) && LowestIndices(front, chosen) && EarliestOfTies(front, chosen)
    requires i < |chosen| && chosen[i].key == c.key && chosen[i].index > c.index
    ensures EarliestOfTies(front + [c], chosen[i := c])
  {
    var cs, r := front + [c], chosen[i := c];
    forall j, k | 0 <= j < |r| && 0 <= k < |cs| && cs[k].key == r[j].key && cs[k].index == r[j].index
      ensures r[j] in cs[..k + 1]
    {
      if j == i {
        assert cs[..|cs|] == cs;
      } else {
        assert r[j] == chosen[j];
        if k < |front| {
          PrefixOfFront(front, c, chosen[j], k);
        }
      }
    }
  }

  /** No lower index: the newcomer ties at most the survivor, which came
      first. */
  lemma TiesKeep<K>(front: seq<Candidate<K>>, c: Candidate<K>, chosen: seq<Candidate<K>>, i: nat)
    requires forall x :: x in chosen ==> x in front
    requires DistinctKeys(chosen) && EarliestOfTies(front, chosen)
    requires i < |chosen| && chosen[i].key == c.key && chosen[i].index <= c.index
    ensures EarliestOfTies(front + [c], chosen)
  {
    var cs := front + [c];
    forall j, k | 0 <= j < |chosen| && 0 <= k < |cs| && cs[k].key == chosen[j].key && cs[k].index == chosen[j].index
      ensures chosen[j] in cs[..k + 1]
    {
      if k == |front| {
        assert chosen[j] in chosen;
        assert cs[..k + 1] == cs;
      } else {
        assert cs[k] == front[k];
        PrefixOfFront(front, c, chosen[j], k);
      }
    }
  }

  /** A list with one element per key passes the filter unchanged. */
  lemma {:induction false} SelectLowestKeepsDistinct<K>(cs: seq<Candidate<K>>)
    requires DistinctKeys(cs)
    ensures SelectLowest(cs) == cs
    decreases |cs|
  {
    if |cs| > 0 {
      var front := cs[..|cs| - 1];
      var c := cs[|cs| - 1];
      FrontDistinct(cs);
      SelectLowestKeepsDistinct(front);
      assert KeyPosition(front, c.key) == -1;
      assert front + [c] == cs;
    }
  }

  /** Dropping the last element keeps the keys distinct, and the last key
      is not among the others. */
  lemma FrontDistinct<K>(cs: seq<Candidate<K>>)
    requires DistinctKeys(cs) && |cs| > 0
    ensures DistinctKeys(cs[..|cs| - 1])
    ensures forall j :: 0 <= j < |cs| - 1 ==> cs[j].key != cs[|cs| - 1].key
  {
  }
}

=== FILE: task_graph.dfy ===
/** The task graph of a job: tasks in a table keyed by id, each pointing
    upstream to its hard dependencies, the two branches it joins, and the IF
    task it is a branch of. A rank map witnesses that the upstream links never
    form a cycle. */
module TaskGraph {
  import opened Wrappers
  import opened JavaLang
  import opened TaskName
  import opened InternalTask

  datatype Graph = Graph(tasks: map<TaskId, Task>, rank: map<TaskId, nat>)

  /** The joined-branches list, a null list read as empty. */
  function JoinedList(t: Task): seq<TaskId> {
    t.joinedBranches.GetOr([])
  }

  /** Every task `t` links to upstream, whatever the kind of link. */
  function Parents(t: Task): (ps: set<TaskId>)
    ensures t.ifBranch.Some? ==> t.ifBranch.value in ps
    ensures forall i :: 0 <= i < |HardList(t)| ==> HardList(t)[i] in ps
    ensures forall i :: 0 <= i < |JoinedList(t)| ==> JoinedList(t)[i] in ps
  {
    (set p | p in HardList(t)) + (set p | p in JoinedList(t)) +
    (if t.ifBranch.Some? then {t.ifBranch.value} else {})
  }

  /** The shape of a well-formed job: every task is stored under its own id
      and every upstream link leads to a stored task of strictly lower
      rank. */
  predicate Ranked(g: Graph) {
    && g.tasks.Keys <= g.rank.Keys
    && (forall id :: id in g.tasks ==> Id(g.tasks[id]) == id)
    && (forall id, p :: id in g.tasks && p in Parents(g.tasks[id]) ==> p in g.tasks && g.rank[p] < g.rank[id])
  }

  /** Every task name of `g` can be read back by `getInitialName`. */
  predicate NamesParse(g: Graph) {
    forall id :: id in g.tasks ==> InitialName(g.tasks[id].name).Success?
  }

  /** A well-formed job: ranked, and every name can be read back. */
  predicate Valid(g: Graph) {
    Ranked(g) && NamesParse(g)
  }

  /** A set of tasks whose links all stay inside the set: what the replication
      accumulator holds, clones pointing at clones. */
  predicate Closed(acc: map<TaskId, Task>) {
    forall k, p :: k in acc && p in Parents(acc[k]) ==> p in acc
  }

  /** `getAmbiguousName()`: the name without its iteration/replication suffix,
      shared by every replica of the same template task. */
  function AmbiguousName(t: Task): (r: string)
    requires InitialName(t.name).Success?
    ensures r <= t.name && IsSingleLine(r)
    ensures IsSingleLine(t.name) && HasNoSeparator(t.name) ==> r == t.name
  {
    InitialName(t.name).value
  }

  // ---------------------------------------------------------------------------
  // dependsOn

  /** `internalDependsOn(parent, depth)`. The joined branches, if set, are
      examined at depth-1; otherwise the IF task at depth+1; otherwise the
      hard dependencies at the same depth. Every examined link must depend on
      `p`; meeting `p` itself counts when the depth is not negative. */
  function DependsAt(g: Graph, a: TaskId, p: TaskId, depth: int): (r: bool)
    requires Ranked(g) && a in g.tasks
    ensures a == p ==> (r <==> depth >= 0)
    ensures (a != p && IDependences(g.tasks[a]).None? && g.tasks[a].joinedBranches.None? &&
             g.tasks[a].ifBranch.None?) ==> !r
    decreases g.rank[a]
  {
    var t := g.tasks[a];
    if a == p then depth >= 0
    else if IDependences(t).None? && t.joinedBranches.None? && t.ifBranch.None? then false
    else if t.joinedBranches.Some? then
      forall x | x in t.joinedBranches.value :: DependsAt(g, x, p, depth - 1)
    else if t.ifBranch.Some? then
      DependsAt(g, t.ifBranch.value, p, depth + 1)
    else
      forall x | x in HardList(t) :: DependsAt(g, x, p, depth)
  }

  /** `dependsOn(parent)`: the walk started at depth 0, so a task depends on
      itself, and a different task without links depends on nothing. */
  function DependsOn(g: Graph, a: TaskId, p: TaskId): (r: bool)
    requires Ranked(g) && a in g.tasks
    ensures a == p ==> r
    ensures (a != p && IDependences(g.tasks[a]).None? && g.tasks[a].joinedBranches.None? &&
             g.tasks[a].ifBranch.None?) ==> !r
  {
    DependsAt(g, a, p, 0)
  }

  /** `p` can be reached from `a` by following upstream links of any kind. */
  ghost predicate Reaches(g: Graph, a: TaskId, p: TaskId)
    requires Ranked(g) && a in g.tasks
    decreases g.rank[a]
  {
    a == p || exists x :: x in Parents(g.tasks[a]) && Reaches(g, x, p)
  }

  /** No task has a joined-branches list that is set but empty. */
  predicate NoEmptyJoins(g: Graph) {
    forall id :: id in g.tasks && g.tasks[id].joinedBranches.Some? ==> |g.tasks[id].joinedBranches.value| > 0
  }

  /** What `dependsOn` reports is a real path upstream, whatever the depth,
      provided no joined-branches list is empty (an empty one would make the
      conjunction hold vacuously). */
  lemma {:induction false} DependsAtIsSound(g: Graph, a: TaskId, p: TaskId, depth: int)
    requires Ranked(g) && a in g.tasks && NoEmptyJoins(g)
    requires DependsAt(g, a, p, depth)
    ensures Reaches(g, a, p)
    decreases g.rank[a]
  {
    var t := g.tasks[a];
    if a != p {
      var x;
      var d;
      if t.joinedBranches.Some? {
        x, d := t.joinedBranches.value[0], depth - 1;
        assert x in JoinedList(t);
      } else if t.ifBranch.Some? {
        x, d := t.ifBranch.value, depth + 1;
      } else {
        x, d := HardList(t)[0], depth;
      }
      assert x in Parents(t);
      DependsAtIsSound(g, x, p, d);
    }
  }

  lemma DependsOnIsSound(g: Graph, a: TaskId, p: TaskId)
    requires Ranked(g) && a in g.tasks && NoEmptyJoins(g)
    ensures DependsOn(g, a, p) ==> Reaches(g, a, p)
  {
    if DependsOn(g, a, p) {
      DependsAtIsSound(g, a, p, 0);
    }
  }

  /** A task with no links at all; the tasks of the examples below. */
  function Lone(id: TaskId, name: string): Task {
    Task(TaskInfo(id, 1, 1, 0, -1), name, 0, 0, None, None, None, None, None, None, 1, 1)
  }

  /** Three tasks: `a` has hard dependencies on `p` and on `x`, which are
      unrelated. */
  function ForkGraph(): Graph {
    Graph(map[0 := Lone(0, "p"), 1 := Lone(1, "x"), 2 := Lone(2, "a").(ideps := Some([0, 1]))],
          map[0 := 0, 1 := 0, 2 := 1])
  }

  lemma ForkGraphValid()
    ensures Valid(ForkGraph())
  {
    var g := ForkGraph();
    assert g.tasks.Keys == g.rank.Keys;
    ForkGraphNames();
    ForkGraphLinks();
  }

  lemma ForkGraphNames()
    ensures forall id :: id in ForkGraph().tasks ==>
              Id(ForkGraph().tasks[id]) == id && InitialName(ForkGraph().tasks[id].name).Success?
  {
    var g := ForkGraph();
    assert g.tasks.Keys == {0, 1, 2};
    InitialNameOfSingleLine("p");
    InitialNameOfSingleLine("x");
    InitialNameOfSingleLine("a");
  }

  lemma ForkGraphLinks()
    ensures forall id, p :: id in ForkGraph().tasks && p in Parents(ForkGraph().tasks[id]) ==>
              p in ForkGraph().tasks && p in ForkGraph().rank && id in ForkGraph().rank &&
              ForkGraph().rank[p] < ForkGraph().rank[id]
  {
    var g := ForkGraph();
    assert g.tasks.Keys == {0, 1, 2};
    assert Parents(g.tasks[2]) == {0, 1};
    assert Parents(g.tasks[1]) == {};
    assert Parents(g.tasks[0]) == {};
  }

  /** `dependsOn` is a conjunction over the upstream links, not reachability:
      `a` reaches `p` through its first dependency, yet does not depend on it
      because its second dependency does not. */
  lemma DependsOnIsNotReachability()
    ensures Valid(ForkGraph()) && Reaches(ForkGraph(), 2, 0) && !DependsOn(ForkGraph(), 2, 0)
  {
    var g := ForkGraph();
    ForkGraphValid();
    assert 0 in Parents(g.tasks[2]);
    assert Reaches(g, 0, 0);
    assert 1 in HardList(g.tasks[2]);
    assert !DependsAt(g, 1, 0, 0);
  }

  /** Two tasks: `j` joins on `p` alone. */
  function JoinGraph(): Graph {
    Graph(map[0 := Lone(0, "p"), 1 := Lone(1, "j").(joinedBranches := Some([0]))], map[0 := 0, 1 := 1])
  }

  lemma JoinGraphValid()
    ensures Valid(JoinGraph())
  {
    var g := JoinGraph();
    assert g.tasks.Keys == {0, 1};
    InitialNameOfSingleLine("p");
    InitialNameOfSingleLine("j");
    assert Parents(g.tasks[1]) == {0};
    assert Parents(g.tasks[0]) == {};
  }

  /** The joined branches are examined one level down, so a join on `p`
      itself does not depend on `p`. */
  lemma JoinOnParentIsNoDependence()
    ensures Valid(JoinGraph()) && Reaches(JoinGraph(), 1, 0) && !DependsOn(JoinGraph(), 1, 0)
  {
    var g := JoinGraph();
    JoinGraphValid();
    assert 0 in JoinedList(g.tasks[1]);
    assert Reaches(g, 0, 0);
    assert !DependsAt(g, 0, 0, -1);
  }
}

=== FILE: task_log_path.dfy ===
/** Where the log file of a task goes in the local space: a file
    `TaskLogs-<job>-<task>.log` inside a directory named after the job. */
module TaskLogPath {
  import opened Wrappers
  import opened JavaLang

  const LogFilePrefix: string := "TaskLogs"

  /** A task id as the generator reads it: the id of its job (null when the
      task is not attached to one) and the task's own value. */
  datatype TaskRef = TaskRef(jobId: Option<nat>, value: string)

  /** The generator's two final fields; the getters return them as they are. */
  datatype PathGenerator = PathGenerator(relativePath: string, fileName: string)

  /** The constructor. String concatenation renders a null job id as "null",
      but the relative path calls `toString()` on it, so a null job id raises
      NullPointerException. */
  function NewPathGenerator(taskId: TaskRef): (r: Result<PathGenerator, Exception>)
    ensures taskId.jobId.None? <==> r.Failure?
    ensures r.Failure? ==> r.error == NullPointerException
    ensures r.Success? ==>
              && |r.value.relativePath| > |r.value.fileName|
              && r.value.relativePath[|r.value.relativePath| - |r.value.fileName|..] == r.value.fileName
              && r.value.relativePath[..|r.value.relativePath| - |r.value.fileName|] == Decimal(taskId.jobId.value) + "/"
  {
    match taskId.jobId
    case None => Failure(NullPointerException)
    case Some(j) =>
      var fileName := LogFilePrefix + "-" + Decimal(j) + "-" + taskId.value + ".log";
      Success(PathGenerator(Decimal(j) + "/" + fileName, fileName))
  }

  /** Reading a log file name back: the job id and the task value. */
  function ParseFileName(f: string): (r: Option<(nat, string)>)
  {
    var head := LogFilePrefix + "-";
    if |f| < |head| + 4 || f[..|head|] != head || f[|f| - 4..] != ".log" then None
    else
      var rest := f[|head|..|f| - 4];
      var i := IndexOf(rest, '-');
      if i <= 0 || !AllDigits(rest[..i]) then None
      else Some((DigitsValue(rest[..i]), rest[i + 1..]))
  }

  /** A generated file name reads back as the job id and task value it was
      made from. */
  lemma FileNameRoundTrip(j: nat, v: string)
    ensures NewPathGenerator(TaskRef(Some(j), v)).Success?
    ensures ParseFileName(NewPathGenerator(TaskRef(Some(j), v)).value.fileName) == Some((j, v))
  {
    var d := Decimal(j);
    var rest := d + "-" + v;
    FileNameShape(j, v);
    WrappedParses(rest);
    DashAfterDigits(d, v);
    DecimalValue(j);
  }

  lemma FileNameShape(j: nat, v: string)
    ensures NewPathGenerator(TaskRef(Some(j), v)).Success?
    ensures NewPathGenerator(TaskRef(Some(j), v)).value.fileName == LogFilePrefix + "-" + (Decimal(j) + "-" + v) + ".log"
  {
  }

  /** The parser strips the prefix and the extension off a wrapped name. */
  lemma WrappedParses(rest: string)
    ensures var f := LogFilePrefix + "-" + rest + ".log";
            ParseFileName(f) == (var i := IndexOf(rest, '-');
                                 if i <= 0 || !AllDigits(rest[..i]) then None
                                 else Some((DigitsValue(rest[..i]), rest[i + 1..])))
  {
    var head := LogFilePrefix + "-";
    var f := head + rest + ".log";
    assert f[..|head|] == head;
    assert f[|f| - 4..] == ".log";
    assert f[|head|..|f| - 4] == rest;
  }

  /** In `d-v` with `d` all digits, the first `-` follows `d`. */
  lemma DashAfterDigits(d: string, v: string)
    requires |d| > 0 && AllDigits(d)
    ensures IndexOf(d + "-" + v, '-') == |d|
    ensures (d + "-" + v)[..|d|] == d && (d + "-" + v)[|d| + 1..] == v
  {
    var rest := d + "-" + v;
    assert rest[|d|] == '-';
    assert rest[..|d|] == d;
    assert forall k :: 0 <= k < |d| ==> rest[k] == d[k] && IsDigit(d[k]);
  }

  /** The directory of the relative path is the job id, which reads back. */
  lemma RelativePathNamesJob(j: nat, v: string)
    ensures NewPathGenerator(TaskRef(Some(j), v)).Success?
    ensures var p := NewPathGenerator(TaskRef(Some(j), v)).value.relativePath;
            && IndexOf(p, '/') == |Decimal(j)|
            && DigitsValue(p[..IndexOf(p, '/')]) == j
  {
    var d := Decimal(j);
    var p := NewPathGenerator(TaskRef(Some(j), v)).value.relativePath;
    assert p[|d|] == '/';
    assert forall k :: 0 <= k < |d| ==> p[k] == d[k] && p[k] != '/';
    assert p[..|d|] == d;
    DecimalValue(j);
  }
}

=== FILE: task_name.dfy ===
/** The task-name codec: a replica of a task is named after its template with
    `#<iteration>` and `*<replication>` appended. This module builds that
    suffix, strips it again the two ways the task class does, and parses the
    indices back out of a full name. */
module TaskName {
  import opened Wrappers
  import opened JavaLang

  /** TaskId.ITERATION_SEPARATOR */
  const IterationSeparator: char := '#'
  /** TaskId.REPLICATION_SEPARATOR */
  const ReplicationSeparator: char := '*'

  predicate IsSeparator(c: char) {
    c == IterationSeparator || c == ReplicationSeparator
  }

  predicate HasNoSeparator(s: string) {
    forall i :: 0 <= i < |s| ==> !IsSeparator(s[i])
  }

  /** The characters Java's regular expressions treat as line terminators:
      `.` never matches them. */
  predicate IsLineTerminator(c: char) {
    c == '\n' || c == '\r' || c == '\U{85}' || c == '\U{2028}' || c == '\U{2029}'
  }

  predicate IsSingleLine(s: string) {
    forall i :: 0 <= i < |s| ==> !IsLineTerminator(s[i])
  }

  // ---------------------------------------------------------------------------
  // Building the suffix

  /** The suffix appended to a task's name: `#it` when the iteration index is
      positive, then `*rep` when the replication index is positive. */
  function Suffix(iteration: nat, replication: nat): (s: string)
    ensures s == "" <==> iteration == 0 && replication == 0
    ensures IsSingleLine(s)
    ensures IterationSeparator in s <==> iteration > 0
    ensures ReplicationSeparator in s <==> replication > 0
    ensures iteration > 0 ==> s[0] == IterationSeparator
    ensures iteration == 0 && replication > 0 ==> s[0] == ReplicationSeparator
  {
    IterationPart(iteration) + ReplicationPart(replication)
  }

  function IterationPart(iteration: nat): (s: string)
    ensures IsSingleLine(s) && ReplicationSeparator !in s
    ensures iteration == 0 ==> s == ""
    ensures iteration > 0 ==> s == [IterationSeparator] + Decimal(iteration)
  {
    if iteration > 0 then [IterationSeparator] + Decimal(iteration) else ""
  }

  function ReplicationPart(replication: nat): (s: string)
    ensures IsSingleLine(s) && IterationSeparator !in s
    ensures replication == 0 ==> s == ""
    ensures replication > 0 ==> s == [ReplicationSeparator] + Decimal(replication)
  {
    if replication > 0 then [ReplicationSeparator] + Decimal(replication) else ""
  }

  // ---------------------------------------------------------------------------
  // getInitialName: the regular expressions `^(.*)[#].*$`, `^(.*)[*].*$` and
  // `^(.*)$`, tried in that order with `find()`. `.` stops at a line
  // terminator and `$` matches at the end of the input or just before one
  // final line terminator, so the three patterns only ever see the first line,
  // and all of them fail when anything but one final terminator follows it.

  /** Position of the first line terminator, or the length of `s`. */
  function LineEnd(s: string): (e: nat)
    ensures e <= |s|
    ensures IsSingleLine(s[..e])
    ensures e < |s| ==> IsLineTerminator(s[e])
  {
    if |s| == 0 || IsLineTerminator(s[0]) then 0
    else
      var e := LineEnd(s[1..]);
      assert s[..e + 1] == [s[0]] + s[1..][..e];
      e + 1
  }

  /** `$` can match where `rest` begins: at the end of input, or before one
      final line terminator (`\r\n` counting as one). */
  predicate AtInputEnd(rest: string) {
    || rest == ""
    || (|rest| == 1 && IsLineTerminator(rest[0]))
    || rest == "\r\n"
  }

  /** `InternalTask.getInitialName`: the name cut at its last `#`, or else at
      its last `*`, or the whole name; RuntimeException ("Could not extract
      task name") when no pattern matches. */
  function InitialName(full: string): (r: Result<string, Exception>)
    ensures r.Success? ==> r.value <= full && IsSingleLine(r.value)
    ensures r.Failure? ==> r.error == RuntimeException
  {
    var e := LineEnd(full);
    var line := full[..e];
    if !AtInputEnd(full[e..]) then Failure(RuntimeException)
    else if IterationSeparator in line then Success(line[..LastIndexOf(line, IterationSeparator)])
    else if ReplicationSeparator in line then Success(line[..LastIndexOf(line, ReplicationSeparator)])
    else Success(line)
  }

  lemma SingleLineEnd(s: string)
    requires IsSingleLine(s)
    ensures LineEnd(s) == |s|
  {
  }

  /** On a single-line name the patterns always match, and the cut falls at
      the last `#`, else the last `*`. */
  lemma InitialNameOfSingleLine(full: string)
    requires IsSingleLine(full)
    ensures IterationSeparator in full ==>
              InitialName(full) == Success(full[..LastIndexOf(full, IterationSeparator)])
    ensures IterationSeparator !in full && ReplicationSeparator in full ==>
              InitialName(full) == Success(full[..LastIndexOf(full, ReplicationSeparator)])
    ensures IterationSeparator !in full && ReplicationSeparator !in full ==>
              InitialName(full) == Success(full)
  {
    SingleLineEnd(full);
    assert full[..|full|] == full;
    assert full[|full|..] == "";
  }

  /** A name made of single-line pieces can always be read back. */
  lemma SingleLineNameParses(base: string, suffix: string)
    requires IsSingleLine(base) && IsSingleLine(suffix)
    ensures InitialName(base + suffix).Success?
  {
    var s := base + suffix;
    forall i | 0 <= i < |s|
      ensures !IsLineTerminator(s[i])
    {
      if i >= |base| {
        assert s[i] == suffix[i - |base|];
      }
    }
    InitialNameOfSingleLine(s);
  }

  /** The cut of a single-line name whose last `#` sits at `k`. */
  lemma InitialNameCutsAt(full: string, k: nat, c: char)
    requires IsSingleLine(full) && k < |full| && full[k] == c && c !in full[k + 1..]
    requires c == IterationSeparator || (c == ReplicationSeparator && IterationSeparator !in full)
    ensures InitialName(full) == Success(full[..k])
  {
    assert c in full;
    InitialNameOfSingleLine(full);
    LastIndexOfAt(full, c, k);
  }

  /** `LastIndexOf` finds an occurrence with none after it. */
  lemma LastIndexOfAt(s: string, c: char, k: nat)
    requires k < |s| && s[k] == c && c !in s[k + 1..]
    ensures LastIndexOf(s, c) == k
  {
  }

  /** The stripping `setName` applies to a new name: cut at the first `#`, or
      else at the first `*`. */
  function RenameBase(newName: string): (base: string)
    ensures base <= newName
    ensures IterationSeparator !in base
    ensures IterationSeparator !in newName ==> ReplicationSeparator !in base
    ensures IterationSeparator in newName ==> |base| < |newName| && newName[|base|] == IterationSeparator
    ensures IterationSeparator !in newName && ReplicationSeparator in newName ==>
              |base| < |newName| && newName[|base|] == ReplicationSeparator
    ensures HasNoSeparator(newName) ==> base == newName
    ensures IsSingleLine(newName) ==> IsSingleLine(base)
  {
    var i := IndexOf(newName, IterationSeparator);
    if i != -1 then newName[..i]
    else
      var j := IndexOf(newName, ReplicationSeparator);
      if j != -1 then newName[..j] else newName
  }

  // ---------------------------------------------------------------------------
  // Parsing the indices back

  /** `getIterationIndexFromName`: 0 without a `#`; otherwise the second
      `#`-piece, cut at its first `*`, parsed as an `int`. */
  function IterationIndexFromName(name: string): (r: Result<int32, Exception>)
    ensures IterationSeparator !in name ==> r == Success(0)
    ensures r.Failure? ==> r.error == NumberFormatException || r.error == ArrayIndexOutOfBoundsException
  {
    if IndexOf(name, IterationSeparator) == -1 then Success(0)
    else
      var pieces := Split(name, IterationSeparator);
      if |pieces| < 2 then Failure(ArrayIndexOutOfBoundsException)
      else
        var parts := Split(pieces[1], ReplicationSeparator);
        if |parts| < 1 then Failure(ArrayIndexOutOfBoundsException)
        else ParseInt(parts[0])
  }

  /** `getReplicationIndexFromName`: 0 without a `*`; otherwise the second
      `*`-piece parsed as an `int`. */
  function ReplicationIndexFromName(name: string): (r: Result<int32, Exception>)
    ensures ReplicationSeparator !in name ==> r == Success(0)
    ensures r.Failure? ==> r.error == NumberFormatException || r.error == ArrayIndexOutOfBoundsException
  {
    if IndexOf(name, ReplicationSeparator) == -1 then Success(0)
    else
      var pieces := Split(name, ReplicationSeparator);
      if |pieces| < 2 then Failure(ArrayIndexOutOfBoundsException)
      else ParseInt(pieces[1])
  }

  // ---------------------------------------------------------------------------
  // Round trip

  /** A single-line base name without separators, suffixed with any pair of
      Java `int` indices, decodes back to the base name and both indices. */
  lemma SuffixRoundTrip(base: string, iteration: nat, replication: nat)
    requires HasNoSeparator(base) && IsSingleLine(base)
    requires iteration <= MaxInt32 && replication <= MaxInt32
    ensures InitialName(base + Suffix(iteration, replication)) == Success(base)
    ensures IterationIndexFromName(base + Suffix(iteration, replication)) == Success(iteration)
    ensures ReplicationIndexFromName(base + Suffix(iteration, replication)) == Success(replication)
  {
    InitialNameRoundTrip(base, iteration, replication);
    IterationIndexRoundTrip(base, iteration, replication);
    ReplicationIndexRoundTrip(base, iteration, replication);
  }

  lemma InitialNameRoundTrip(base: string, iteration: nat, replication: nat)
    requires HasNoSeparator(base) && IsSingleLine(base)
    ensures InitialName(base + Suffix(iteration, replication)) == Success(base)
  {
    if iteration > 0 {
      InitialNameIterationCut(base, iteration, replication);
    } else if replication > 0 {
      InitialNameReplicationCut(base, replication);
    } else {
      assert base + Suffix(iteration, replication) == base;
      InitialNameOfSingleLine(base);
    }
  }

  lemma InitialNameIterationCut(base: string, iteration: nat, replication: nat)
    requires HasNoSeparator(base) && IsSingleLine(base) && iteration > 0
    ensures InitialName(base + Suffix(iteration, replication)) == Success(base)
  {
    var rest := Decimal(iteration) + ReplicationPart(replication);
    SingleLineNameParses(base, Suffix(iteration, replication));
    IterationSuffixShape(base, iteration, replication);
    IterationDigitsFirst(iteration, replication);
    CutBefore(base, rest, IterationSeparator);
  }

  lemma InitialNameReplicationCut(base: string, replication: nat)
    requires HasNoSeparator(base) && IsSingleLine(base) && replication > 0
    ensures InitialName(base + Suffix(0, replication)) == Success(base)
  {
    SingleLineNameParses(base, Suffix(0, replication));
    ReplicationSuffixShape(base, replication);
    CutBefore(base, Decimal(replication), ReplicationSeparator);
  }

  /** A single-line name `base c rest`, with no `c` in `rest` and, when `c`
      is `*`, no `#` at all, is cut back to `base`. */
  lemma CutBefore(base: string, rest: string, c: char)
    requires IsSingleLine(base + [c] + rest) && c !in rest
    requires c == IterationSeparator || (c == ReplicationSeparator && IterationSeparator !in base + [c] + rest)
    ensures InitialName(base + [c] + rest) == Success(base)
  {
    var name := base + [c] + rest;
    assert name[|base|] == c;
    assert name[|base| + 1..] == rest;
    assert name[..|base|] == base;
    InitialNameCutsAt(name, |base|, c);
  }

  lemma ReplicationSuffixShape(base: string, replication: nat)
    requires HasNoSeparator(base) && replication > 0
    ensures base + Suffix(0, replication) == base + [ReplicationSeparator] + Decimal(replication)
    ensures ReplicationSeparator !in Decimal(replication)
    ensures IterationSeparator !in base + Suffix(0, replication)
  {
  }

  lemma IterationIndexRoundTrip(base: string, iteration: nat, replication: nat)
    requires HasNoSeparator(base)
    requires iteration <= MaxInt32
    ensures IterationIndexFromName(base + Suffix(iteration, replication)) == Success(iteration)
  {
    if iteration > 0 {
      var rest := Decimal(iteration) + ReplicationPart(replication);
      IterationSuffixShape(base, iteration, replication);
      IterationDigitsFirst(iteration, replication);
      IterationIndexAfter(base, rest);
      ParseDecimal(iteration);
    } else {
      NoIterationSuffix(base, replication);
    }
  }

  lemma IterationSuffixShape(base: string, iteration: nat, replication: nat)
    requires HasNoSeparator(base) && iteration > 0
    ensures IterationSeparator !in base
    ensures base + Suffix(iteration, replication) ==
              base + [IterationSeparator] + (Decimal(iteration) + ReplicationPart(replication))
  {
    NoSeparatorIn(base);
    var d, rp := Decimal(iteration), ReplicationPart(replication);
    calc {
      base + Suffix(iteration, replication);
      base + (IterationPart(iteration) + rp);
      base + (([IterationSeparator] + d) + rp);
      { ConcatAssoc(base, [IterationSeparator], d, rp); }
      base + [IterationSeparator] + (d + rp);
    }
  }

  lemma ConcatAssoc(a: string, b: string, c: string, d: string)
    ensures a + ((b + c) + d) == a + b + (c + d)
  {
  }

  /** A name without separators holds neither separator. */
  lemma NoSeparatorIn(base: string)
    requires HasNoSeparator(base)
    ensures IterationSeparator !in base && ReplicationSeparator !in base
  {
    forall i | 0 <= i < |base|
      ensures base[i] != IterationSeparator && base[i] != ReplicationSeparator
    {
      assert !IsSeparator(base[i]);
    }
  }

  lemma NoIterationSuffix(base: string, replication: nat)
    requires HasNoSeparator(base)
    ensures IterationSeparator !in base + Suffix(0, replication)
  {
  }

  /** The iteration index of a name with one `#` is read from the piece
      after it, up to its first `*`. */
  lemma IterationIndexAfter(base: string, rest: string)
    requires IterationSeparator !in base && IterationSeparator !in rest && |rest| > 0
    requires |Split(rest, ReplicationSeparator)| >= 1
    ensures IterationIndexFromName(base + [IterationSeparator] + rest) ==
              ParseInt(Split(rest, ReplicationSeparator)[0])
  {
    var name := base + [IterationSeparator] + rest;
    assert name[|base|] == IterationSeparator;
    SplitOnce(base, rest, IterationSeparator);
  }

  /** The piece after `#` splits at `*` with the iteration digits first. */
  lemma IterationDigitsFirst(iteration: nat, replication: nat)
    ensures IterationSeparator !in Decimal(iteration) + ReplicationPart(replication)
    ensures var parts := Split(Decimal(iteration) + ReplicationPart(replication), ReplicationSeparator);
            |parts| >= 1 && parts[0] == Decimal(iteration)
  {
    var d := Decimal(iteration);
    assert ReplicationSeparator !in d;
    if replication > 0 {
      var e := Decimal(replication);
      assert d + ReplicationPart(replication) == d + [ReplicationSeparator] + e;
      SplitOnce(d, e, ReplicationSeparator);
    } else {
      assert d + ReplicationPart(replication) == d;
    }
  }

  lemma ReplicationIndexRoundTrip(base: string, iteration: nat, replication: nat)
    requires HasNoSeparator(base)
    requires replication <= MaxInt32
    ensures ReplicationIndexFromName(base + Suffix(iteration, replication)) == Success(replication)
  {
    if replication > 0 {
      ReplicationSuffixAfter(base, iteration, replication);
      SplitOnce(base + IterationPart(iteration), Decimal(replication), ReplicationSeparator);
      ParseDecimal(replication);
    } else {
      NoReplicationSuffix(base, iteration);
    }
  }

  lemma ReplicationSuffixAfter(base: string, iteration: nat, replication: nat)
    requires HasNoSeparator(base) && replication > 0
    ensures ReplicationSeparator !in base + IterationPart(iteration)
    ensures ReplicationSeparator !in Decimal(replication) && |Decimal(replication)| > 0
    ensures base + Suffix(iteration, replication) ==
              (base + IterationPart(iteration)) + [ReplicationSeparator] + Decimal(replication)
  {
    NoSeparatorIn(base);
    DecimalHasNoSeparator(replication);
    var it, d := IterationPart(iteration), Decimal(replication);
    calc {
      base + Suffix(iteration, replication);
      base + (it + ReplicationPart(replication));
      base + (it + ([ReplicationSeparator] + d));
      { ConcatAssoc3(base, it, [ReplicationSeparator], d); }
      (base + it) + [ReplicationSeparator] + d;
    }
  }

  lemma ConcatAssoc3(a: string, b: string, c: string, d: string)
    ensures a + (b + (c + d)) == (a + b) + c + d
  {
  }

  lemma DecimalHasNoSeparator(n: nat)
    ensures HasNoSeparator(Decimal(n)) && IterationSeparator !in Decimal(n) && ReplicationSeparator !in Decimal(n)
  {
    var d := Decimal(n);
    forall i | 0 <= i < |d|
      ensures !IsSeparator(d[i])
    {
      assert IsDigit(d[i]);
    }
    NoSeparatorIn(d);
  }

  lemma NoReplicationSuffix(base: string, iteration: nat)
    requires HasNoSeparator(base)
    ensures ReplicationSeparator !in base + Suffix(iteration, 0)
  {
    assert ReplicationSeparator !in base;
  }

  /** `getInitialName` cuts at the last `#` while `setName` cuts at the first
      one, so the two disagree on a name holding two `#`. */
  lemma StrippingRulesDiffer()
    ensures InitialName("a#b#1") == Success("a#b")
    ensures RenameBase("a#b#1") == "a"
  {
    InitialNameCutsAt("a#b#1", 3, '#');
    assert "a#b#1"[..3] == "a#b";
  }

  /** Stripping is not idempotent once a stripped name still holds a
      separator. */
  lemma InitialNameNotIdempotent()
    ensures InitialName("a#b#1") == Success("a#b")
    ensures InitialName("a#b") == Success("a")
  {
    InitialNameCutsAt("a#b#1", 3, '#');
    assert "a#b#1"[..3] == "a#b";
    InitialNameCutsAt("a#b", 1, '#');
    assert "a#b"[..1] == "a";
  }

  /** A line terminator with at least two characters after it makes every
      pattern fail: `$` can then match neither at the end of the input nor
      before one final terminator. */
  lemma InitialNameRejectsInnerNewline(full: string, i: nat)
    requires i + 2 < |full| && IsLineTerminator(full[i])
    ensures InitialName(full) == Failure(RuntimeException)
  {
  }

  /** One final line terminator is tolerated and ignored. */
  lemma InitialNameIgnoresFinalNewline()
    ensures InitialName("a\nb") == Failure(RuntimeException)
    ensures InitialName("a#1\n") == Success("a")
  {
    assert LineEnd("a\nb") == 1;
    assert LineEnd("a#1\n") == 3;
    assert "a#1\n"[..3] == "a#1";
    assert "a#1\n"[3..] == "\n";
    assert '#' in "a#1";
    LastIndexOfAt("a#1", '#', 1);
    assert "a#1"[..1] == "a";
  }
}

=== FILE: tree_replication.dfy ===
/** `replicateTree`: the LOOP or REPLICATE action on the sub-tree between a
    task and its target. The tasks met walking upstream are cloned, the
    clones are thinned out to one per ambiguous name and put into the
    accumulator, and then the dependencies between the clones are rebuilt. */
module TreeReplication {
  import opened Wrappers
  import opened JavaLang
  import opened TaskName
  import opened InternalTask
  import opened TaskGraph
  import opened Replication
  import opened Reconstruction

  /** The clone of every task of `g`, or the exception cloning it raises;
      `uncopyable` holds the tasks whose deep copy fails. */
  function CloneTable(g: Graph, loop: bool, uncopyable: set<TaskId>): (c: map<TaskId, Result<Task, Exception>>)
    requires NamesParse(g)
    ensures c.Keys == g.tasks.Keys
    ensures forall k :: k in c ==> c[k] == ReplicaOf(g.tasks[k], loop, k !in uncopyable)
  {
    map k | k in g.tasks :: ReplicaOf(g.tasks[k], loop, k !in uncopyable)
  }

  /** What a clone looks like: no links at all, and a name that reads back. */
  lemma CloneTableShape(g: Graph, loop: bool, uncopyable: set<TaskId>)
    requires NamesParse(g)
    ensures forall k :: k in CloneTable(g, loop, uncopyable) && CloneTable(g, loop, uncopyable)[k].Success? ==>
              && Parents(CloneTable(g, loop, uncopyable)[k].value) == {}
              && InitialName(CloneTable(g, loop, uncopyable)[k].value.name).Success?
  {
    var c := CloneTable(g, loop, uncopyable);
    forall k | k in c && c[k].Success?
      ensures Parents(c[k].value) == {}
    {
      assert HardList(c[k].value) == [];
    }
  }

  /** Putting link-free clones into a closed accumulator keeps it closed. */
  lemma PutClonesClosed(acc: map<TaskId, Task>, kept: map<TaskId, Task>)
    requires Closed(acc)
    requires forall k :: k in kept ==> Parents(kept[k]) == {}
    ensures Closed(acc + kept)
  {
  }

  /** `k` is met by the clone pass started at `start`. */
  ghost predicate Reached(g: Graph, target: TaskId, start: TaskId, k: TaskId)
    requires Valid(g) && start in g.tasks
  {
    k in g.tasks && Reach(CloneWalk(g, target), start, k)
  }

  /** Some task met by the clone pass cannot be cloned. */
  ghost predicate PassFails(g: Graph, target: TaskId, loop: bool, uncopyable: set<TaskId>, start: TaskId)
    requires Valid(g) && start in g.tasks
  {
    exists k :: Reached(g, target, start, k) && CloneTable(g, loop, uncopyable)[k].Failure?
  }

  /** `kept` is what the second loop of `replicateTree` leaves: clones of
      tasks the pass met, one per ambiguous name, each of lowest iteration
      index among the clones that share its name. */
  ghost predicate KeptClones(g: Graph, target: TaskId, loop: bool, uncopyable: set<TaskId>, start: TaskId,
                             kept: map<TaskId, Task>)
    requires Valid(g) && start in g.tasks
  {
    var c := CloneTable(g, loop, uncopyable);
    && (forall k :: k in kept ==> Reached(g, target, start, k) && c[k] == Success(kept[k]))
    && (forall k :: k in kept ==> InitialName(kept[k].name).Success?)
    && (forall k1, k2 :: k1 in kept && k2 in kept && AmbiguousName(kept[k1]) == AmbiguousName(kept[k2]) ==> k1 == k2)
    && (forall k :: Reached(g, target, start, k) && c[k].Success? && InitialName(c[k].value.name).Success? ==>
          exists k' :: k' in kept && AmbiguousName(kept[k']) == AmbiguousName(c[k].value) &&
                       kept[k'].iteration <= c[k].value.iteration)
  }

  /** The first two steps of `replicateTree`: the clone pass into a fresh
      map, then one clone kept per ambiguous name. */
  method CloneAndThin(g: Graph, start: TaskId, target: TaskId, loop: bool, uncopyable: set<TaskId>)
    returns (res: Result<map<TaskId, Task>, Exception>)
    requires Valid(g) && start in g.tasks
    ensures res.Failure? <==> PassFails(g, target, loop, uncopyable, start)
    ensures res.Failure? ==>
              exists k :: Reached(g, target, start, k) && CloneTable(g, loop, uncopyable)[k] == Failure(res.error)
    ensures res.Success? ==> KeptClones(g, target, loop, uncopyable, start, res.value)
    ensures res.Success? ==> forall k :: k in res.value ==> Parents(res.value[k]) == {}
  {
    var pass := ClonePass(CloneWalk(g, target), CloneTable(g, loop, uncopyable), map[], start);
    if pass.Failure? {
      PassFailureReached(g, start, target, loop, uncopyable);
      return Failure(pass.error);
    }
    var tmp := pass.value;
    PassSuccessCovers(g, start, target, loop, uncopyable);
    ClonesShape(g, loop, uncopyable, tmp);
    var kept := DedupByAmbiguousName(tmp);
    ThinnedKept(g, start, target, loop, uncopyable, tmp, kept);
    return Success(kept);
  }

  /** A failing clone pass failed on a task it met. */
  lemma PassFailureReached(g: Graph, start: TaskId, target: TaskId, loop: bool, uncopyable: set<TaskId>)
    requires Valid(g) && start in g.tasks
    requires ClonePass(CloneWalk(g, target), CloneTable(g, loop, uncopyable), map[], start).Failure?
    ensures PassFails(g, target, loop, uncopyable, start)
    ensures exists k :: Reached(g, target, start, k) &&
              CloneTable(g, loop, uncopyable)[k] ==
                Failure(ClonePass(CloneWalk(g, target), CloneTable(g, loop, uncopyable), map[], start).error)
  {
    var w, c := CloneWalk(g, target), CloneTable(g, loop, uncopyable);
    ClonePassFailure(w, c, map[], start);
    var k :| k in w.next && Reach(w, start, k) && c[k] == Failure(ClonePass(w, c, map[], start).error);
    assert Reached(g, target, start, k);
  }

  /** A clone pass that did not fail holds the clone of every task it met,
      and of nothing else. */
  lemma PassSuccessCovers(g: Graph, start: TaskId, target: TaskId, loop: bool, uncopyable: set<TaskId>)
    requires Valid(g) && start in g.tasks
    requires ClonePass(CloneWalk(g, target), CloneTable(g, loop, uncopyable), map[], start).Success?
    ensures !PassFails(g, target, loop, uncopyable, start)
    ensures var tmp := ClonePass(CloneWalk(g, target), CloneTable(g, loop, uncopyable), map[], start).value;
            && tmp.Keys <= g.tasks.Keys
            && (forall k :: k in tmp <==> Reached(g, target, start, k))
            && (forall k :: k in tmp ==> CloneTable(g, loop, uncopyable)[k] == Success(tmp[k]))
  {
    var w, c := CloneWalk(g, target), CloneTable(g, loop, uncopyable);
    ClonePassCoversReach(w, c, start);
  }

  /** The clones have no links and names that read back. */
  lemma ClonesShape(g: Graph, loop: bool, uncopyable: set<TaskId>, tmp: map<TaskId, Task>)
    requires NamesParse(g) && tmp.Keys <= g.tasks.Keys
    requires forall k :: k in tmp ==> CloneTable(g, loop, uncopyable)[k] == Success(tmp[k])
    ensures forall k :: k in tmp ==> InitialName(tmp[k].name).Success? && Parents(tmp[k]) == {}
  {
    CloneTableShape(g, loop, uncopyable);
  }

  /** The clones the second loop keeps are what `KeptClones` describes. */
  lemma ThinnedKept(g: Graph, start: TaskId, target: TaskId, loop: bool, uncopyable: set<TaskId>,
                    tmp: map<TaskId, Task>, kept: map<TaskId, Task>)
    requires Valid(g) && start in g.tasks
    requires tmp.Keys <= g.tasks.Keys && forall k :: k in tmp <==> Reached(g, target, start, k)
    requires forall k :: k in tmp ==> CloneTable(g, loop, uncopyable)[k] == Success(tmp[k])
    requires forall k :: k in tmp ==> InitialName(tmp[k].name).Success? && Parents(tmp[k]) == {}
    requires kept.Keys <= tmp.Keys && forall k :: k in kept ==> kept[k] == tmp[k]
    requires forall k1, k2 :: k1 in kept && k2 in kept && AmbiguousName(kept[k1]) == AmbiguousName(kept[k2]) ==> k1 == k2
    requires forall k :: k in tmp ==>
               exists k' :: k' in kept && AmbiguousName(kept[k']) == AmbiguousName(tmp[k]) &&
                            kept[k'].iteration <= tmp[k].iteration
    ensures KeptClones(g, target, loop, uncopyable, start, kept)
    ensures forall k :: k in kept ==> Parents(kept[k]) == {}
  {
  }

  /** `replicateTree(acc, target, loopAction, ...)` called on `start`. An
      exception from the clone pass leaves `acc` alone. Otherwise the kept
      clones overwrite `acc`'s entries (returned as `kept`) and the
      reconstruction runs from `start`, whose only exception is the
      NullPointerException of the collapse walk; when it returns, every
      clone it visited is linked to its upstream tasks. */
  method ReplicateTree(g: Graph, acc: map<TaskId, Task>, start: TaskId, target: TaskId, loop: bool,
                       uncopyable: set<TaskId>)
    returns (kept: map<TaskId, Task>, r: Outcome<map<TaskId, Task>>)
    requires Valid(g) && start in g.tasks && Closed(acc)
    ensures PassFails(g, target, loop, uncopyable, start) ==>
              && r.Threw? && r.state == acc && kept == map[]
              && exists k :: Reached(g, target, start, k) && CloneTable(g, loop, uncopyable)[k] == Failure(r.error)
    ensures !PassFails(g, target, loop, uncopyable, start) ==>
              && KeptClones(g, target, loop, uncopyable, start, kept)
              && r.state.Keys == acc.Keys + kept.Keys
              && Progress(g, target, acc + kept, r.state, g.rank[start] + 1)
              && (r.Threw? ==> r.error == NullPointerException)
    ensures !PassFails(g, target, loop, uncopyable, start) && r.Returned? && start != target && start in acc + kept ==>
              forall i :: 0 <= i < |UpstreamLinks(g, start)| ==>
                Linked(g, (acc + kept).Keys, r.state, start, KindOf(g.tasks[start]), UpstreamLinks(g, start)[i])
    ensures !PassFails(g, target, loop, uncopyable, start) && r.Returned? ==> Rebuilt(g, target, r.state, start)
  {
    var res := CloneAndThin(g, start, target, loop, uncopyable);
    if res.Failure? {
      return map[], Threw(acc, res.error);
    }
    kept := res.value;
    PutClonesClosed(acc, kept);
    r := Reconstruct(g, target, acc + kept, start);
  }
}

=== FILE: wrappers.dfy ===
/** Failure-compatible wrappers used across the model: `Option` stands for a
    Java reference that may be null, `Result` for a computation that either
    yields a value or raises an exception. */
module Wrappers {

  datatype Option<+T> = None | Some(value: T) {

    predicate IsFailure() {
      None?
    }

    function PropagateFailure<U>(): Option<U>
      requires None?
    {
      None
    }

    function Extract(): T
      requires Some?
    {
      value
    }

    /** The wrapped value, or `default` when absent. */
    function GetOr(default: T): T {
      match this
      case Some(v) => v
      case None => default
    }
  }

  datatype Result<+R, +E> = Success(value: R) | Failure(error: E) {

    predicate IsFailure() {
      Failure?
    }

    function PropagateFailure<U>(): Result<U, E>
      requires Failure?
    {
      Failure(error)
    }

    function Extract(): R
      requires Success?
    {
      value
    }
  }
}
